=== FILE: README.md ===
# zeroq HR back end: journeys, roles and authentication in Dafny

This project models the core of the zeroq HR application. zeroq is a Django back end for employee
onboarding and offboarding. The model covers:

- **Journey engine.** Templates and their steps make up a catalog. A *journey* is one user going
  through one template. Starting it copies the template's ordered steps into *step instances*
  with due dates. Completing it is a guarded status change. Marking a step instance completed
  recounts the completed siblings and can complete the journey. The model also covers progress,
  the overdue values, the template create, update and duplicate endpoints, the journey and step
  endpoints, and the overdue and my-tasks listings in the order the database returns them.
- **Roles and permissions.** This part covers:
  - the permission catalogue with its codename generation;
  - roles, with at most one default role;
  - role-permission rows (at most one per pair, granted or denied) and `has_permission`;
  - grouping by category;
  - the assign (upsert) and remove endpoints, the protection of system roles, and the default-role lookup;
  - the seeding that runs after migrations, and the `setup_role_permissions` management command.
- **Users and authentication.** This part covers:
  - user names, account and role helpers, and `set_password`;
  - the `UserAccount` membership rules and its on/offboarding statuses;
  - the API login pre-check and the password reset, admin reset, activate and deactivate endpoints;
  - the strong-password generator;
  - the two middlewares that push users holding a temporary password to the forced-reset page;
  - the login page, `get_client_ip`, the reset pages and their forms;
  - the tenant `Account` identifier and its seat count.

Tables are immutable values: maps from key to record, or sequences of rows in insertion order
where the code iterates them. Operations are pure functions that return the new tables together
with the reply. The model makes these substitutions:

- Dates are integer day numbers, and "today" or "now" is a parameter.
- Random UUID keys are a counter of fresh keys.
- Password hashing is the constructor `Hashed(raw)`.
- `validate_email`, `validate_password` and the randomness of `secrets` are oracles passed in by
  the caller.
- Django's `.get()` is a three-way lookup: none, one, or several. Several is the
  `MultipleObjectsReturned` exception, which the code does not catch.

Modules, one per part of the code:

- `common.dfy` (module Common): Option/Result, counting, filtering, grouping.
- `text.dfy` (module Text): ASCII case mapping, prefix test, split at a character, character-code order.
- `sorting.dfy` (module Sorting): a stable sort under a total preorder built from integer and text keys, used for `order_by`.
- `templates.dfy` (module Boarding): the boarding tables, template and step save rules, ordered steps.
- `journeys.dfy` (module Journeys): `start_journey`, `complete_journey`, `mark_completed`, progress, overdue.
- `template_api.dfy` (module TemplateApi): template create/update/duplicate serializers and actions, distinct listings.
- `journey_api.dfy` (module JourneyApi): journey create validation, start/complete actions, list filters, my tasks.
- `permissions.dfy` (module Rbac): permissions, roles, role-permission rows and their rules.
- `permission_api.dfy` (module RbacApi): the role and permission endpoints.
- `seed_defaults.dfy` (module Seeding): the post-migrate seeding of default permissions and roles.
- `role_setup.dfy` (module RoleSetup): the `setup_role_permissions` command.
- `users.dfy` (module Users): users, memberships and their lifecycle.
- `user_api.dfy` (module UserApi): the user endpoints and the password-change serializer.
- `password_gen.dfy` (module PasswordGen): `generate_strong_password` and the temporary reset password.
- `web_auth.dfy` (module WebAuth): middlewares, login page, reset pages and forms, `get_client_ip`.
- `accounts.dfy` (module Accounts): the account identifier rule and the seat count.

## Model

| member | source | states |
|---|---|---|
| Boarding.FillDepartmentIsIdempotent | Backend/boarding/models.py:112-115 | cleaning twice is cleaning once; after a clean the department is blank exactly when neither the template nor its job title names one |
| Boarding.SaveTemplate | Backend/boarding/migrations/0002_add_job_title_to_journey_template.py:36-39 | a second default in the scope is refused first; otherwise the save succeeds exactly when no other template has the same (account, type, job title, title) with a job title on both, since NULL job titles never collide in the database; a success stores the cleaned template |
| Boarding.NoJobTitleNoDefaultIsSaved | Backend/boarding/migrations/0002_add_job_title_to_journey_template.py:36-39 | a non-default template without a job title always saves, whatever else is stored |
| Boarding.SaveTemplateKeepsInvariants | Backend/boarding/migrations/0002_add_job_title_to_journey_template.py:36-39 | a successful save keeps at most one default per scope and keeps the database's four-field keys distinct |
| Boarding.CheckedSaveKeepsModelKey | Backend/boarding/models.py:107 | a save that the serializer's three-field check lets through keeps the three-field keys distinct |
| Boarding.ModelKeyImpliesDbKey | Backend/boarding/models.py:107 | tables with distinct (account, type, title) keys also have distinct database keys |
| Boarding.DbKeyIsWeaker | Backend/boarding/migrations/0002_add_job_title_to_journey_template.py:36-39 | two templates equal in every field but with no job title satisfy the database key and break the three-field key |
| Boarding.SaveStep | Backend/boarding/models.py:267-288 | a step saves exactly when its template exists, its due day is within the template's duration, and its (template, order) slot is free |
| Boarding.SaveStepKeepsInvariants | Backend/boarding/models.py:277-288 | saving a valid step keeps every step within its template's duration and keeps the keys and orders distinct |
| Boarding.TemplateSaveCanBreakStepBound | Backend/boarding/models.py:112-134 | shortening a template's duration can leave a stored step due after the template ends, because the template save does not look at its steps |
| Boarding.OrderedSteps | Backend/boarding/models.py:141-143 | exactly the template's steps, as a permutation, sorted by (order, due days) |
| Boarding.ResponsibleDisplayIsNeverBlank | Backend/boarding/models.py:290-298 | when no user's full name is blank the display is never blank; an assigned user is shown whatever the role says |
| Journeys.StartJourney | Backend/boarding/models.py:414-440 | succeeds exactly from not started and otherwise changes nothing; on success the status is in progress, the expected date is start plus the duration, the total is the step count, and one instance is appended per ordered step |
| Journeys.StartCreatesSortedInstances | Backend/boarding/models.py:422-440 | the created instances are those of the template's steps sorted by (order, due days) |
| Journeys.StartCreatesOnePerStep | Backend/boarding/models.py:428-437 | with distinct step keys, exactly one instance of each template step is created |
| Journeys.StartTwiceIsRefused | Backend/boarding/models.py:414-417 | a second start is refused and changes nothing |
| Journeys.RestartDuplicatesInstances | Backend/boarding/models.py:550-554 | a journey set back to not started and started again holds two instances of each step, since nothing in the schema forbids it |
| Journeys.CompleteJourney | Backend/boarding/models.py:442-454 | succeeds exactly from in progress or on hold; sets completed, stamps today, and forces the completed count to the total |
| Journeys.CompleteIsFinal | Backend/boarding/models.py:442-454 | a completed journey cannot be completed again and is never overdue |
| Journeys.CompletedJourneyProgress | Backend/boarding/models.py:398-403 | right after completion the progress is 100 (0 without steps) |
| Journeys.MarkCompleted | Backend/boarding/models.py:568-590 | refused (no change) exactly on a completed step; otherwise the step is completed and stamped, the journey's count becomes the recount of completed siblings, and completion is attempted exactly when that reaches the total |
| Journeys.MarkCompletedCountsOneMore | Backend/boarding/models.py:580-583 | marking an open step raises the recount of the journey's completed instances by exactly one |
| Journeys.FinishedDoesNotMeanCompleted | Backend/boarding/models.py:586-588 | the method reports success although a cancelled journey stays cancelled |
| Journeys.SavedStepIsReportedFalsy | Backend/boarding/models.py:586-590 | a saved step whose journey is not finished yields a falsy result |
| Journeys.ProgressPercentage | Backend/boarding/models.py:398-403 | 0 without steps; otherwise completed/total times 100, as an exact ratio |
| Journeys.ProgressBounds | Backend/boarding/models.py:398-403 | within 0..100 while the count does not exceed the total, and 100 exactly at the total |
| Journeys.FreshInstancesNotOverdue | Backend/boarding/models.py:559-566 | no step created on a start is overdue on the day of the start |
| TemplateApi.AddStepsKeepsInvariants | Backend/boarding/serializers.py:112-114 | creating steps one by one keeps the step invariants |
| TemplateApi.AddStepsSucceeds | Backend/boarding/serializers.py:112-114 | every entry is saved when each fits the template's duration and the orders differ from each other and from the template's stored steps |
| TemplateApi.Create | Backend/boarding/serializers.py:107-115 | a template whose (account, type, title) is held by another is refused with nothing stored; any other result stores the template, without a job title and with its department filled, under the fresh key, whether or not its steps save; journeys and instances are untouched |
| TemplateApi.CreateKeepsModelKey | Backend/boarding/serializers.py:89-115 | creates keep the (account, type, title) keys distinct |
| TemplateApi.CreatePlacesSteps | Backend/boarding/serializers.py:107-115 | a created template holds exactly the `steps_data` entries in the given order, and nothing else changes |
| TemplateApi.CreateKeepsWellFormed | Backend/boarding/serializers.py:107-115 | a create keeps the stored state well formed, whether or not all its steps save |
| TemplateApi.ApplyPatch | Backend/boarding/serializers.py:117-124 | each of the nine writable fields takes the supplied value when given and keeps the template's value when absent; the job title is never touched |
| TemplateApi.EmptyPatchKeepsTemplate | Backend/boarding/serializers.py:117-124 | an update that supplies no field leaves the template as it is |
| TemplateApi.ValidateUpdate | Backend/boarding/serializers.py:89-105 | refused exactly when another template has the request's (account, type, title), missing fields taken from the instance |
| TemplateApi.KeepingTheKeyValidates | Backend/boarding/serializers.py:89-105 | with distinct stored keys, an update keeping account, type and title is never refused as a duplicate |
| TemplateApi.Update | Backend/boarding/serializers.py:117-134 | without `steps_data` the steps are kept; with it (even empty) they are replaced, and the replacement fails when step instances refer to the old steps |
| TemplateApi.UpdateReplacesSteps | Backend/boarding/serializers.py:126-134 | after a replacing update the template holds exactly the given steps, in order |
| TemplateApi.UpdateKeepsModelKey | Backend/boarding/serializers.py:89-134 | updates keep the (account, type, title) keys distinct |
| TemplateApi.CopyNeverSharesItsOriginalsKey | Backend/boarding/views.py:152-161 | a copy never shares its original's (account, type, title) key, and a copy of a copy differs from both |
| TemplateApi.Duplicate | Backend/boarding/views.py:147-185 | 404 for an unknown template; otherwise the copy is stored under a fresh key with `objects.create`, which runs no validation, and nothing else in the template table changes; only a step save can fail |
| TemplateApi.DuplicateCopiesSteps | Backend/boarding/views.py:164-180 | on a well-formed store, the copy of a stored template holds a copy of every step in (order, due days) order, so the step counts are equal, and the original keeps its steps |
| TemplateApi.DuplicateSucceeds | Backend/boarding/views.py:147-185 | on a well-formed store, duplicating a stored template always succeeds: the copy keeps the duration, and the copied orders stay distinct |
| TemplateApi.OrderedStepsFit | Backend/boarding/models.py:141-143 | the original's ordered steps have pairwise distinct orders and fit its duration |
| TemplateApi.DuplicateKeepsWellFormed | Backend/boarding/views.py:147-185 | a duplicate keeps the stored state well formed |
| TemplateApi.DuplicateTwiceRepeatsModelKey | Backend/boarding/views.py:152-161 | duplicating the same template twice stores two equal copies, which share an (account, type, title) key |
| TemplateApi.Departments | Backend/boarding/views.py:201-205 | the distinct non-empty departments of all templates |
| TemplateApi.BusinessUnits | Backend/boarding/views.py:207-211 | the distinct non-empty business units of all templates |
| TemplateApi.SavedTemplateIsListed | Backend/boarding/views.py:201-211 | a stored template's non-empty department and business unit are listed |
| JourneyApi.CreateJourney | Backend/boarding/serializers.py:191-205 | refused with field errors exactly when the template or the user reference does not resolve (one flag per unresolved field), and as a duplicate exactly when both resolve and a journey for the pair exists, changing nothing; otherwise stores a not-started journey with no dates or counts, created now, under a fresh key |
| JourneyApi.CreateKeepsPairsUnique | Backend/boarding/serializers.py:196-205 | creates keep the (template, user) pairs unique |
| JourneyApi.CreateTwiceIsRefused | Backend/boarding/serializers.py:196-205 | a second create for the same pair is refused |
| JourneyApi.StartAction | Backend/boarding/views.py:332-346 | 404 for an unknown journey, 200 exactly when the start succeeds, else 400 |
| JourneyApi.StartActionTwice | Backend/boarding/views.py:332-346 | a second start gets 400 and changes nothing |
| JourneyApi.CompleteAction | Backend/boarding/views.py:348-362 | 404, or 200/400 from `complete_journey` |
| JourneyApi.CompleteActionIsFinal | Backend/boarding/views.py:348-362 | a completed journey's second complete gets 400 |
| JourneyApi.StepCompleteAction | Backend/boarding/views.py:438-453 | 404 for an unknown instance; 200 exactly when `mark_completed` returns a true value |
| JourneyApi.StepCompleteSavesEvenOnBadRequest | Backend/boarding/views.py:438-453 | an open step is completed whatever the reply, and the reply is 400 exactly when the journey is not finished |
| JourneyApi.StepCompleteMisreportsASave | Backend/boarding/views.py:444-453 | some request is answered 400 although it changed the tables |
| JourneyApi.StepCompleteActionFixed | Backend/boarding/models.py:586-590 | with `mark_completed` reporting every save, the reply is 200 exactly when the step was open |
| JourneyApi.FixedReplyMatchesTheSave | Backend/boarding/views.py:438-453 | with the fix, 400 exactly when nothing changed, and 200 means the step is completed today |
| JourneyApi.OverdueJourneys | Backend/boarding/views.py:304-314 | each journey whose expected date is before today and whose status is not started or in progress, listed once, newest first |
| JourneyApi.OverdueJourneysVersusProperty | Backend/boarding/views.py:304-313 | every listed journey is overdue by the `is_overdue` property |
| JourneyApi.OverdueJourneysMissOnHold | Backend/boarding/models.py:405-412 | an overdue on-hold journey is not listed |
| JourneyApi.OverdueSteps | Backend/boarding/views.py:436 | every pending or in-progress instance due before today, as often as it is stored and nothing else, ordered by journey (newest first) and then blueprint order |
| JourneyApi.OverdueStepsOrdered | Backend/boarding/models.py:554 | each listed step is open and overdue; a step of a newer journey comes first, and within a journey the lower blueprint order |
| JourneyApi.OverdueStepsAtMostOverdue | Backend/boarding/views.py:426-434 | every listed step is overdue, so the listing never outnumbers the overdue steps |
| JourneyApi.OverdueStepsMissSkipped | Backend/boarding/models.py:559-566 | an overdue skipped or blocked step is never listed |
| JourneyApi.MyTasks | Backend/boarding/views.py:455-463 | the caller's pending or in-progress instances, ordered by due date |
| JourneyApi.MyTasksOrdered | Backend/boarding/views.py:455-463 | only the caller's open tasks are listed, earliest due first |
| JourneyApi.MyTasksComplete | Backend/boarding/views.py:455-463 | each open task of the caller is listed as often as it is stored, and no other instance is listed |
| JourneyApi.JourneyStepsOrdered | Backend/boarding/views.py:364-370 | the journey's step list holds only its instances, in blueprint order |
| JourneyApi.JourneyStepsCount | Backend/boarding/views.py:364-370 | the step list holds every instance of the journey |
| JourneyApi.JourneySteps | Backend/boarding/views.py:364-370 | the journey's instances, as a permutation, in blueprint order |
| Rbac.FillCodenameIdempotent | Backend/roles_permissions/models.py:85-89 | saving twice generates the same codename as saving once |
| Rbac.SavePermission | Backend/roles_permissions/models.py:6-89 | refused for a name or codename another permission holds; otherwise stores the permission with its codename filled |
| Rbac.SavePermissionKeepsUnique | Backend/roles_permissions/models.py:6-89 | a successful save keeps keys, names and codenames unique |
| Rbac.SaveRole | Backend/roles_permissions/models.py:162-180 | a second default role and a duplicate name are refused |
| Rbac.SaveRoleKeepsOneDefault | Backend/roles_permissions/models.py:171-180 | role saves keep at most one default role |
| Rbac.RoleByName | Backend/roles_permissions/models.py:92-168 | the lookup by name finds none, the one, or several roles |
| Rbac.UniqueNamesFindOne | Backend/roles_permissions/models.py:92-168 | with unique names the lookup never finds several |
| Rbac.HasPermissionFollowsTheRow | Backend/roles_permissions/models.py:182-187 | the role has the codename exactly when its one row for that permission is granted; a denied row means no permission |
| Rbac.EnsureRow | Backend/roles_permissions/models.py:231-235 | `get_or_create` of a (role, permission) row keeps an existing row and otherwise appends a granted one |
| Rbac.EnsureRowKeepsUnique | Backend/roles_permissions/models.py:235 | the pairs stay unique and the pair has exactly one row |
| Rbac.GrantedPermsLists | Backend/roles_permissions/models.py:189-193 | a permission is collected exactly when a granted row of the role points at it |
| Rbac.RolePerms | Backend/roles_permissions/models.py:236 | a permutation of the permissions the role's granted rows point at, by category and then name |
| Rbac.RolePermsListsGrants | Backend/roles_permissions/models.py:189-193 | a permission is listed exactly when a granted row of the role points at it |
| Rbac.HasPermissionIsListed | Backend/roles_permissions/models.py:182-187 | `has_permission` holds exactly when the role's listing has a permission of that codename |
| Rbac.PermissionsByCategory | Backend/roles_permissions/models.py:189-200 | every group is non-empty and holds only permissions of its own category |
| Rbac.PermissionCount | Backend/roles_permissions/serializers.py:99-100 | at most the number of rows, and zero exactly when the role has no granted row |
| Rbac.PermissionsByCategoryGroups | Backend/roles_permissions/models.py:189-200 | a category is a key exactly when a listed permission has it; its group is the listed permissions of that category, in name order; the group sizes sum to the listing, and to the granted count when every row resolves |
| Rbac.CountSameWhenRowsResolve | Backend/roles_permissions/serializers.py:99-100 | when every row's permission is stored, counting resolved rows is counting rows |
| Rbac.ValidateRolePatch | Backend/roles_permissions/serializers.py:71-79 | for a system role, a changed name or clearing the system flag is refused; other roles are unrestricted |
| Rbac.ValidatedPatchKeepsSystemRole | Backend/roles_permissions/serializers.py:71-79 | every accepted update leaves a system role a system role with its name |
| RbacApi.AssignPermissionAsWritten | Backend/roles_permissions/views.py:136-166 | an existing row is updated; a first assignment is a server error that stores nothing |
| RbacApi.AsWrittenNeverAssigns | Backend/roles_permissions/views.py:150-158 | the reply "assigned" is unreachable as written |
| RbacApi.AsWrittenFirstAssignmentFails | Backend/roles_permissions/views.py:150-158 | a concrete first assignment of an active permission fails |
| RbacApi.AssignPermission | Backend/roles_permissions/views.py:136-166 | 404 for an unknown role and 400 for an invalid permission; otherwise "assigned" exactly when the pair had no row, else "updated" |
| RbacApi.AssignPermissionUpserts | Backend/roles_permissions/views.py:136-166 | afterwards the pair has exactly one row, with the requested grant and constraints; other rows are kept; pairs stay unique |
| RbacApi.AssignThenHasPermission | Backend/roles_permissions/serializers.py:103-107 | after an assignment the role has the permission exactly when the request granted it (default granted) |
| RbacApi.RemovePermission | Backend/roles_permissions/views.py:168-192 | 400 for a missing key and 404 for no row, both without change; otherwise the row is deleted |
| RbacApi.RemovePermissionDeletesOnlyTheRow | Backend/roles_permissions/views.py:168-192 | only the pair's row goes; every other row stays in order |
| RbacApi.DestroyRole | Backend/roles_permissions/views.py:118-126 | system roles are refused with 400; other roles are deleted with their rows |
| RbacApi.DestroyKeepsOtherRoles | Backend/roles_permissions/views.py:118-126 | deleting a role keeps every row of the other roles |
| RbacApi.DefaultRole | Backend/roles_permissions/views.py:217-228 | the active default role, 404 when there is none |
| RbacApi.DefaultRoleUnique | Backend/roles_permissions/models.py:171-180 | with at most one default role the lookup never raises |
| RbacApi.ListPermissions | Backend/roles_permissions/views.py:25-52 | every permission passing the query filters, as often as it is stored and nothing else, ordered by category, then level, then name |
| RbacApi.ByCategoryGroups | Backend/roles_permissions/views.py:60-72 | a category is a key exactly when a listed permission has it; its group is the listed permissions of that category, by level and then name; the sizes sum to the listing |
| Seeding.Seed | Backend/roles_permissions/signals.py:7-10 | only the roles-and-permissions app triggers the seeding |
| Seeding.GetOrCreatePermission | Backend/roles_permissions/signals.py:62-72 | a stored codename changes nothing; otherwise the new permission is stored under a fresh key, active, described as "Permission to <name in lower case>", unless its name or codename is taken |
| Seeding.GetOrCreatePermissionFacts | Backend/roles_permissions/signals.py:62-72 | the returned key names a permission with the requested codename, and the catalogue only grows with keys and ids kept fresh and unique |
| Seeding.SeedPermissionsNoop | Backend/roles_permissions/signals.py:62-72 | when every codename is stored the permission loop changes nothing |
| Seeding.SeedRoles | Backend/roles_permissions/signals.py:77-120 | the role loop never changes the permission catalogue |
| Seeding.SeedRolesKeeps | Backend/roles_permissions/signals.py:77-120 | the role loop keeps the seeding invariant and every stored role as it was |
| Seeding.GetOrCreateRole | Backend/roles_permissions/signals.py:77-93 | a stored name is reused unchanged and reported not created; a missing one is created from its catalogue entry under a fresh key, failing exactly when it would be a second default role; an ambiguous name fails |
| Seeding.CreatedRoleHoldsItsGrants | Backend/roles_permissions/signals.py:95-120 | a newly created role holds exactly the codenames listed for it |
| Seeding.SeededRoles | Backend/roles_permissions/signals.py:77-120 | when no role named admin (staff) was stored, the seeding creates it as a system role; admin is default at level 2 and holds exactly every catalogue codename; staff is not default, at level 4, and holds exactly the staff codenames |
| Seeding.LaterStepKeepsRole | Backend/roles_permissions/signals.py:93-95 | a role step leaves every stored role and its permissions as they were: an existing role gets no new grants |
| Seeding.NameTakenStopsSeeding | Backend/roles_permissions/signals.py:62-72 | a stored permission that has a catalogue name under another codename makes the seeding fail on the duplicate name |
| Seeding.SeedCatalogueIsIdempotent | Backend/roles_permissions/signals.py:62-120 | running the permission and role loops on their own result changes nothing |
| Seeding.SeedIsIdempotent | Backend/roles_permissions/signals.py:7-120 | running the handler again stores nothing new |
| RoleSetup.ToAssignSelects | Backend/users/management/commands/setup_role_permissions.py:104-111 | 'ALL' selects exactly the active permissions; a list selects exactly its active codenames |
| RoleSetup.AssignToRole | Backend/users/management/commands/setup_role_permissions.py:94-157 | missing role reported; skipped exactly when rows exist and not forced; the count is the number of selected permissions; a skip or a dry run writes nothing |
| RoleSetup.AssignReplacesRows | Backend/users/management/commands/setup_role_permissions.py:122-137 | after a forced run the role holds exactly one granted row per selected permission, and other roles' rows are unchanged |
| RoleSetup.SkipAndDryRunWriteNothing | Backend/users/management/commands/setup_role_permissions.py:115-136 | a skipped role and a dry run leave the database as it was |
| RoleSetup.Run | Backend/users/management/commands/setup_role_permissions.py:76-82 | every configured role is processed and reported; a dry run changes nothing |
| RoleSetup.RunReportsEveryRole | Backend/users/management/commands/setup_role_permissions.py:153-155 | a role is reported missing exactly when no role has its name, and the others are still processed |
| RoleSetup.ForcedHandleAssignsExactly | Backend/users/management/commands/setup_role_permissions.py:36-82 | `--force` leaves each configured role that exists with exactly its selected permissions |
| Users.FindUser | Backend/users/views.py:44-49 | none when no user matches, the key of the only match, or several |
| Users.UsernameLookupIsUnique | Backend/users/models.py:68-210 | with unique usernames a username lookup never finds several |
| Users.FullNameExtendsShortName | Backend/users/models.py:221-229 | the full name is the short name, a space and the last name, unless both fall back to the username; neither is blank when the username is not |
| Users.Accounts | Backend/users/models.py:243-254 | the user's one account, or nothing |
| Users.AccountCountIsAccounts | Backend/users/serializers.py:55-57 | the count is the length of the account list |
| Users.RoleNeedsActiveMember | Backend/users/models.py:260-269 | an inactive user, one without a role, or one of another account has no role there, admin included |
| Users.GrantedCodenames | Backend/users/models.py:271-277 | one codename per listed permission of the role, in the listing's (category, name) order |
| Users.GrantedCodenamesListsGrants | Backend/users/models.py:271-277 | a codename is listed exactly when a granted row of the role names it |
| Users.PermissionsForAccount | Backend/users/models.py:271-277 | empty unless same account, role set and user active |
| Users.PermissionsForAccountAreRolePermissions | Backend/users/models.py:271-277 | for a member in good standing, the permissions are exactly what the role holds |
| Users.SetPassword | Backend/users/models.py:279-283 | the new password checks, the flag is cleared, the change time is now, and nothing else changes |
| Users.CreateUser | Backend/users/serializers.py:77-92 | the created user has the generated password and the flag set |
| Users.CreateUserFlagOrder | Backend/users/serializers.py:77-92 | the flag survives only because it is set after `set_password` cleared it |
| Users.SaveMembership | Backend/users/models.py:382-401 | a primary membership is refused while the user has another primary; a duplicate (user, account) is refused |
| Users.SaveMembershipKeepsRules | Backend/users/models.py:372-401 | every successful save keeps one primary per user and one membership per pair |
| Users.ValidateNewMembership | Backend/users/serializers.py:130-152 | a duplicate pair, then a second primary, are rejected |
| Users.ValidatedMembershipSaves | Backend/users/serializers.py:130-152 | a membership the serializer accepts saves under a fresh key |
| Users.StatusesAgree | Backend/users/models.py:403-421 | onboarded members report completed onboarding, but not conversely |
| Users.StartOnboarding | Backend/users/models.py:433-437 | sets only the active flag |
| Users.CompleteOnboarding | Backend/users/models.py:439-443 | sets only the flag and its time |
| Users.StartOffboarding | Backend/users/models.py:445-450 | sets only the flag and its time |
| Users.CompleteOffboarding | Backend/users/models.py:452-458 | stamps completion, deactivates the membership and marks the user terminated |
| Users.LifecycleStepsSucceed | Backend/users/models.py:433-458 | the lifecycle steps never fail on valid memberships |
| UserApi.LoginPrecheck | Backend/users/views.py:32-73 | 403 must-reset exactly for a found active user with the right password and the flag set; a 500 exactly when both fields are given and the email matches several users; otherwise the normal login |
| UserApi.LoginPrecheckFallsThrough | Backend/users/views.py:32-73 | an unknown username goes to the normal login and never crashes |
| UserApi.ResetPassword | Backend/users/views.py:269-344 | one iff per reply: a missing field; an unknown user or a wrong password (the same 400); the inactive user; the reused password; the crash when the email matches several users; success exactly when every check passes, which stores the new password with the flag cleared and changes no other user |
| UserApi.ResetPasswordCheckOrder | Backend/users/views.py:290-320 | the wrong password is reported before inactivity, and inactivity before reuse |
| UserApi.ResetPasswordThenLogin | Backend/users/views.py:320-332 | afterwards the new password checks and the old one does not |
| UserApi.AdminResetPassword | Backend/users/views.py:353-374 | 403 for non-staff before any lookup, 400 without a password; success sets the password with the flag raised |
| UserApi.AdminResetForcesChange | Backend/users/views.py:369-372 | the admin reset differs from `set_password` only in the raised flag |
| UserApi.SetActive | Backend/users/views.py:402-422 | sets (active, status) to (false, inactive) or (true, active) and nothing else |
| UserApi.DeactivateThenActivate | Backend/users/views.py:402-422 | deactivating then activating restores exactly an active user |
| UserApi.SetActiveActionAsWritten | Backend/users/views.py:402-422 | 404 exactly for an unknown user; otherwise the change is saved and the reply is a 500 |
| UserApi.SetActiveAction | Backend/users/views.py:402-422 | 200 exactly for a known user, whose saved record then has the requested active flag; otherwise a 404 with nothing changed |
| UserApi.SetActiveFailsAfterSaving | Backend/users/serializers.py:14-26 | as written, deactivating an active user changes the store yet answers 500; the intended action stores the same and answers 200 |
| UserApi.AllowsAnonymous | Backend/users/views.py:84-93 | an anonymous caller passes the permission classes of `reset_password` and of no other action; an authenticated caller passes every action |
| UserApi.PermissionClasses | Backend/users/views.py:84-93 | each action has one permission class, and `AllowAny` is it exactly for `reset_password` |
| UserApi.Admits | Backend/users/views.py:84-93 | a request passes the action's permission classes exactly when the caller is authenticated or the action is `reset_password` (the only action given `AllowAny`) |
| UserApi.ValidatePasswordChange | Backend/users/serializers.py:155-175 | accepted exactly when all three fields are given and non-blank, the current password checks, the new one validates, and it equals the confirmation; a mismatch is reported exactly when only that last comparison fails; each field error flag says which field validator failed |
| UserApi.FieldErrorsHideTheConfirmation | Backend/users/serializers.py:155-175 | `validate` never runs after a field error: the reply is then the same for any given confirmation, and a blank confirmation is itself a field error |
| UserApi.BlankConfirmationIsAFieldError | Backend/users/serializers.py:158-160 | a valid new password with a blank confirmation is refused as a field error with both validators passing, not as a mismatch |
| PasswordGen.Picks | Backend/users/admin.py:17-27 | `max(n, 4)` characters: one lowercase, one uppercase, one digit, one symbol, then padding from all four sets |
| PasswordGen.Shuffle | Backend/users/admin.py:30 | the shuffle keeps the length and the multiset of characters |
| PasswordGen.GenerateStrongPassword | Backend/users/admin.py:8-31 | length `max(n, 4)`, every character from the four sets, at least one of each |
| PasswordGen.AllCharsIsTheUnion | Backend/users/admin.py:10-25 | the full alphabet is exactly the union of the four sets |
| PasswordGen.GeneratedCharsAreAsciiClasses | Backend/users/admin.py:10-25 | every generated character is an ASCII lowercase or uppercase letter, a digit, or one of the symbols |
| PasswordGen.TemporaryPassword | users/auth_views.py:141-145 | twelve characters, each an ASCII letter, a digit or one of "!@#$%^&*" |
| WebAuth.ExemptIndex | users/middleware.py:49-52 | for any list, finds an exempt prefix of the path exactly when one exists, the first from the given position |
| WebAuth.RedirectsWith | users/middleware.py:35-67 | for any exempt list, redirects exactly for an authenticated, flagged, non-superuser on a non-exempt, non-AJAX path outside `/api/` |
| WebAuth.ForceResetRedirects | users/middleware.py:17-67 | with the forced-reset page added to the exempt list: redirects exactly for an authenticated, flagged, non-superuser on a non-exempt, non-AJAX path outside `/api/`; it redirects only where the middleware as written does |
| WebAuth.ForceResetRedirectsAsWritten | users/middleware.py:17-67 | the middleware with the list as written: the same condition with the written exempt prefixes |
| WebAuth.AsWrittenExemptionsKept | users/middleware.py:17-29 | the corrected list exempts exactly what the written one does plus the paths beneath the forced-reset page |
| WebAuth.ForcedPageRedirectsToItself | users/middleware.py:17-67 | as written, a flagged non-superuser asking for the forced-reset page is redirected to that same page |
| WebAuth.FlaggedUserReachesTheForm | users/auth_views.py:86-90 | with the page exempt, the same request passes the middleware and the view shows the reset form to a flagged user |
| WebAuth.ExemptionIsByPrefix | users/middleware.py:17-29 | every path beneath an exempt prefix is let through |
| WebAuth.ApiIsNeverRedirected | users/middleware.py:58-60 | paths under `/api/` are never redirected |
| WebAuth.LoginRedirectImpliesForceRedirect | users/middleware.py:17-29 | `/admin/` is not exempt, so the forced-reset middleware redirects wherever the login middleware does |
| WebAuth.ClientIp | users/auth_views.py:243-252 | a non-empty forwarded header gives its text before the first comma, else the peer address |
| WebAuth.ClientIpIsFirstHop | users/auth_views.py:247-249 | the first hop comes back exactly, untrimmed |
| WebAuth.LoginFormCheck | users/forms.py:129-152 | skipped when a field is empty; '@' selects an email lookup, else a username lookup, among active users only; the user is cached only when the password checks |
| WebAuth.LoginFormHidesWhichCheckFailed | users/forms.py:140-148 | an inactive or unknown user and a wrong password give the same error |
| WebAuth.PasswordsMismatchIsSymmetric | users/forms.py:58-70 | the check does not depend on the order of the two fields, never fires for equal passwords, and fires only when both are given |
| WebAuth.SaveForceReset | users/forms.py:81-90 | the password is set and the flag cleared; the store changes only on commit |
| WebAuth.ResetRequestCheck | users/forms.py:173-179 | rejected unless the address is an email held by an active user |
| WebAuth.ResetRequestFindsTheHolder | users/forms.py:173-179 | for an address an active user holds, the request crashes exactly when another active user holds it too, and otherwise finds that user |
| WebAuth.UserLogin | users/auth_views.py:20-64 | an authenticated user is sent to the reset page if flagged, else to the admin index; a good form records the client address and sends a flagged user to the reset page |
| WebAuth.SignInRecordsAndSendsOn | users/auth_views.py:30-56 | a sign-in changes only the signed-in user, and only in the recorded address; a flagged user goes to the forced-reset page, any other to `next` or /admin/ |
| WebAuth.FlaggedSignInLoopsAsWritten | users/auth_views.py:30-48 | a flagged non-superuser who has just signed in is redirected by the written middleware from the forced-reset page back to itself, while the corrected middleware lets the form show |
| WebAuth.ResetFormPost | users/auth_views.py:97-119 | an invalid form changes nothing; a valid one sets the password, clears the flag, stamps the time and goes to the admin login, signing out only on the forced page |
| WebAuth.ResetFormNeedsCurrentPassword | users/forms.py:46-79 | without the current password, a matching copy and an accepted new password nothing changes |
| WebAuth.EmailResetDispatch | users/auth_views.py:186-204 | proceeds exactly for a token naming an active user who still has the flag |
| WebAuth.RequestReset | users/auth_views.py:137-150 | a twelve-character temporary password checks afterwards and the flag is raised |
| WebAuth.ResetRequestRoundTrip | users/auth_views.py:137-231 | after a request the mailed link opens the form; after the form it is refused and the middleware lets the user through |
| Accounts.SaveAccount | accounts/models.py:110-114 | the identifier keeps its length, has no lowercase letter left, and changes only lowercase letters |
| Accounts.SaveAccountIsIdempotent | accounts/models.py:110-114 | saving twice is saving once |
| Accounts.Backtrack | accounts/models.py:17-20 | the regex search succeeds exactly when some allowed count of identifier characters is followed by the end anchor |
| Accounts.AccountIdValidAsWritten | accounts/models.py:17-20 | the pattern under Python's `$` |
| Accounts.AsWrittenAcceptsTrailingNewline | accounts/models.py:17-20 | as written, the pattern also accepts a valid identifier followed by one newline, and nothing else |
| Accounts.AsWrittenAcceptsNewlineWitness | accounts/models.py:17-20 | "ABC\n" passes as written and fails the intended rule |
| Accounts.AccountIdValid | accounts/models.py:17-20 | the pattern with a strict end anchor |
| Accounts.AccountIdValidIsExact | accounts/models.py:17-20 | accepts exactly 3 to 20 characters, all upper-case ASCII letters or digits |
| Accounts.CheckAccountId | accounts/models.py:14-22 | no error exactly when the identifier is 3 to 20 upper-case letters and digits and no other account holds it; malformed exactly when the intended pattern fails |
| Accounts.CheckAccountIdAsWritten | accounts/models.py:14-22 | model validation as written: the pattern with its `$` anchor and the length limit of 20; it differs from the intended check only on an identifier of 3 to 19 characters followed by one newline, which it accepts |
| Accounts.SaveKeepsValidId | accounts/models.py:110-114 | a validated identifier is stored unchanged |
| Accounts.UpperCasingComesTooLate | accounts/models.py:17-20 | validation refuses "comp001" although save would store "COMP001"; save alone lets "ac-1" through as "AC-1" |
| Accounts.UserCount | accounts/models.py:116-119 | never more than the number of memberships |
| Accounts.NewMembershipSeats | accounts/models.py:116-119 | a new membership of an active user in the account takes exactly one seat, any other none |
| Accounts.CanAddUsersMeansRoomForOne | accounts/models.py:121-124 | `can_add_users` holds exactly when one more active member fits under `max_users` |
| Accounts.DeactivationFreesSeats | accounts/models.py:116-119 | deactivating a user frees exactly that user's seats |

## Left out

- Django plumbing is not modelled: querysets, serializers' field rendering, `Response` objects, routers, URL names, messages and templates. Endpoints are functions that return a status code or a page.
- Email sending, `print` logging and the welcome and credential mails are I/O.
- The model passes in `timezone.now()` and dates as integer days, and has no time zones or `timedelta`.
- `progress_percentage` is stated as an exact ratio. The one-decimal float rounding is left out.
- Transactions and concurrency are left out: the model is sequential. The `setup_role_permissions` command's surrounding `transaction.atomic` has no effect in a model where no step raises past it.
- Password hashing is the constructor `Hashed(raw)`. The "verification failed after save" 500 branch of the admin reset cannot be reached, so it is left out.
- `validate_email`, `validate_password` and the randomness of `secrets` are oracles.
- Unicode case mapping is left out: upper- and lower-casing touch only ASCII letters.
- Malformed UUID strings in keys and query parameters raise validation errors (500) in the code. Keys are modelled as numbers, so those errors are left out.
- Form and serializer fields strip surrounding whitespace and enforce `max_length`. The model takes the cleaned values.
- `UserViewSet.get_queryset` and `UserAccountViewSet.get_queryset` list filters are left out, as are the `pending_onboarding`/`pending_offboarding` listings and the permission `categories` and role `users` listings. They are plain filters with no rule beyond their query.
- Logging out and the session are left out: the page models return where the visitor is sent and whether the session ends. WebAuth.UserLogin also leaves out the `last_login` stamp that `login()` writes through Django's `user_logged_in` signal; the modelled user record has no such field.
- The `__call__` of both middlewares hands the request to the next handler and returns its response unchanged. There is nothing to state beyond that identity, so only `process_view` is modelled.
- Journeys.ProgressPercentage: exact rational, not the rounded float the property returns.
- Accounts.CheckAccountId: the column's `max_length` of 20 is not a separate step; the anchored pattern already bounds the length to 20. The as-written check keeps the limit, because there the `$` anchor lets a 21st character through the pattern.
- RoleSetup.ToAssign: keeps the catalogue's row order, while the command iterates the permissions in their (category, level, name) ordering. The rows written are the same either way and only their order in the store differs; no contract states that order, and every listing sorts through Rbac.RolePerms.
- RbacApi.DestroyRole: deleting a role sets `User.role` and `UserAccount.role` to NULL (`on_delete=SET_NULL`). The model keeps the dangling role id in those records instead. No modelled observation differs: a role check needs the role to be stored, and a deleted role has no permission rows left.
- The user `create`, `list`, `retrieve` and `update` endpoints are left out. Their serializers list fields the user model no longer has (`employee_id`, `phone_number`, `manager` and others), so, by reading and not executed, each would fail when its fields are built: `create` in `is_valid`, before anything is saved. Users.AccountCount is the `account_count` these serializers would render.
- TemplateApi.Departments: a set, so neither the order of the values nor the repeats are modelled. The SQL `distinct()` also selects the ordering columns (type, department, title), so one department can come back more than once, in that ordering.
- TemplateApi.BusinessUnits: a set, for the same reason as `Departments`: the ordering columns make `distinct()` repeat a unit, in (type, department, title) order.
- Seeding.Seed: a failure part way through (a taken permission name, a second default role, an ambiguous role name) returns only the error. The handler runs outside a transaction, so the rows written before the failure stay in the database; the model does not return that partial state. The same holds for Seeding.SeedPermissions, Seeding.SeedRoles and Seeding.SeedCatalogue.
- The query parameters of the journey and step-instance listings (`user_id`, `template_id`, `status`, `journey_type`, `journey_id`, `assigned_to_id`) are left out. JourneyApi.OverdueJourneys, JourneyApi.OverdueSteps and JourneyApi.MyTasks list as if no parameter were given. With parameters the code narrows the list first, so `?status=completed` leaves `my_tasks` and both `overdue` actions empty.
- Text keys in `order_by` are compared character code by character code, as a binary collation would. A database collation that orders letters otherwise is not modelled.
- Where two rows tie on every ordering key the database returns them in no promised order. The model keeps a fixed order there, and no contract states it.

## Findings

| source | as written | input that shows it | evidently intended | confidence | as-written member | corrected member |
|---|---|---|---|---|---|---|
| Backend/roles_permissions/views.py:150-158 | `update_or_create` passes `created_by` in its defaults, but the role-permission row has no such field, so the create path raises and the request ends in a 500 | a role and an active permission with no row for the pair | a first assignment creates the row and replies "assigned" | not executed; the field list of the row model shows no `created_by` | RbacApi.AssignPermissionAsWritten | RbacApi.AssignPermission |
| accounts/models.py:17-20 | the identifier pattern ends in `$`, which in Python also matches before a final newline | "ABC\n" passes validation | only 3 to 20 upper-case letters and digits are accepted | not executed; form and serializer fields strip whitespace first, so only direct model validation sees the newline | Accounts.AccountIdValidAsWritten | Accounts.AccountIdValid |
| Backend/boarding/models.py:586-590 | `mark_completed` returns nothing when the saved step does not finish the journey, and the step `complete` action answers 400 for that | completing the first of two open steps of an in-progress journey | a saved step is reported as completed (200) | not executed | JourneyApi.StepCompleteAction | JourneyApi.StepCompleteActionFixed |
| users/middleware.py:17-29 | the exempt list names the login, logout and e-mailed reset pages under `/auth/`, but not `/auth/force-password-reset/`, the page the middleware redirects to | a signed-in non-superuser with `must_change_password` set asks for `/auth/force-password-reset/` | the forced-reset page is reachable, so the flagged user can set a new password | not executed; the `/auth/` mount of the auth URLs is inferred from the other exempt entries, as the root URL configuration is not part of this model | WebAuth.ForcedPageRedirectsToItself | WebAuth.FlaggedUserReachesTheForm |
| Backend/users/serializers.py:14-26 | `UserSerializer` lists `employee_id` (commented out of the model) and `phone_number`, `manager`, `address_line1`, `last_login_ip` and `is_system_admin` (removed by migration 0003), so rendering a user raises after `activate` and `deactivate` have saved | `POST /api/users/<id>/deactivate/` for an active user | the saved user is returned with a 200 | not executed; the field list is compared with the model and migration 0003 by reading only | UserApi.SetActiveActionAsWritten | UserApi.SetActiveAction |

=== FILE: accounts.dfy ===
/**
 * The tenant account: its identifier rule, the upper-casing on save, and the seat count
 * against `max_users`. Only ASCII letters are upper-cased.
 */
module Accounts {
  import opened Common
  import opened Text
  import opened Users

  datatype Account = Account(
    accountId: string,
    accountName: string,
    timezone: string,
    isActive: bool,
    maxUsers: nat,
    subscriptionType: string)

  /** `max_length` of the `account_id` column. */
  const MaxAccountIdLength := 20

  // ---------------------------------------------------------------------------------------
  // save
  // ---------------------------------------------------------------------------------------

  /** `Account.save`: a non-empty identifier is upper-cased; nothing is validated. */
  function SaveAccount(a: Account): (r: Account)
    ensures |r.accountId| == |a.accountId|
    ensures forall i :: 0 <= i < |r.accountId| ==> !IsAsciiLower(r.accountId[i])
    ensures forall i :: 0 <= i < |r.accountId| ==> (IsAsciiLower(a.accountId[i]) || r.accountId[i] == a.accountId[i])
    ensures r.(accountId := a.accountId) == a
  {
    if a.accountId != "" then a.(accountId := Upper(a.accountId)) else a
  }

  /** Saving twice is saving once. */
  lemma {:induction false} SaveAccountIsIdempotent(a: Account)
    ensures SaveAccount(SaveAccount(a)) == SaveAccount(a)
  {
    var once := SaveAccount(a);
    if once.accountId != "" {
      UpperIsIdempotent(a.accountId);
    }
  }

  // ---------------------------------------------------------------------------------------
  // the identifier validator
  // ---------------------------------------------------------------------------------------

  predicate IsIdChar(c: char) {
    IsAsciiUpper(c) || IsDigit(c)
  }

  /** The first `k` characters exist and are upper-case letters or digits. */
  predicate IdCharsUpTo(s: string, k: nat) {
    k <= |s| && forall i :: 0 <= i < k ==> IsIdChar(s[i])
  }

  /**
   * What `$` accepts after `k` characters. Without the multi-line flag Python's `$` matches at
   * the end of the text and also just before a newline that ends it; a strict end anchor
   * matches only at the end.
   */
  predicate EndAnchor(s: string, k: nat, strict: bool) {
    k == |s| || (!strict && k + 1 == |s| && s[k] == '\n')
  }

  /**
   * The search of `^[A-Z0-9]{m,n}$` as the regex engine runs it: the repetition tries the
   * longest count first and backs off one at a time down to the minimum.
   */
  function Backtrack(s: string, k: nat, least: nat, strict: bool): (r: bool)
    ensures r <==> exists j :: least <= j <= k && IdCharsUpTo(s, j) && EndAnchor(s, j, strict)
    decreases k
  {
    if k < least then false
    else if IdCharsUpTo(s, k) && EndAnchor(s, k, strict) then true
    else if k == least then false
    else Backtrack(s, k - 1, least, strict)
  }

  /** The validator as written: `^[A-Z0-9]{3,20}$` under Python's `$`. */
  function AccountIdValidAsWritten(s: string): (r: bool)
    ensures r <==> exists j :: 3 <= j <= 20 && IdCharsUpTo(s, j) && EndAnchor(s, j, false)
  {
    Backtrack(s, 20, 3, false)
  }

  /** The validator as intended: the whole identifier is 3 to 20 upper-case letters and digits. */
  function AccountIdValid(s: string): (r: bool)
    ensures r <==> exists j :: 3 <= j <= 20 && IdCharsUpTo(s, j) && EndAnchor(s, j, true)
  {
    Backtrack(s, 20, 3, true)
  }

  /** The intended validator accepts exactly 3 to 20 characters, all upper-case letters or digits. */
  lemma AccountIdValidIsExact(s: string)
    ensures AccountIdValid(s) <==> 3 <= |s| <= 20 && forall i :: 0 <= i < |s| ==> IsIdChar(s[i])
  {
    if 3 <= |s| <= 20 && forall i :: 0 <= i < |s| ==> IsIdChar(s[i]) {
      assert IdCharsUpTo(s, |s|) && EndAnchor(s, |s|, true);
    }
  }

  /** The validator as written also accepts a valid identifier followed by one newline, and nothing else. */
  lemma AsWrittenAcceptsTrailingNewline(s: string)
    ensures AccountIdValidAsWritten(s) <==>
              AccountIdValid(s) || (|s| > 0 && s[|s| - 1] == '\n' && AccountIdValid(s[..|s| - 1]))
  {
    if AccountIdValidAsWritten(s) {
      AsWrittenMatchIsStrictMatch(s);
    }
    if AccountIdValid(s) || (|s| > 0 && s[|s| - 1] == '\n' && AccountIdValid(s[..|s| - 1])) {
      StrictMatchIsAsWrittenMatch(s);
    }
  }

  lemma AsWrittenMatchIsStrictMatch(s: string)
    requires AccountIdValidAsWritten(s)
    ensures AccountIdValid(s) || (|s| > 0 && s[|s| - 1] == '\n' && AccountIdValid(s[..|s| - 1]))
  {
    var j :| 3 <= j <= 20 && IdCharsUpTo(s, j) && EndAnchor(s, j, false);
    if j + 1 == |s| {
      assert IdCharsUpTo(s[..|s| - 1], j) && EndAnchor(s[..|s| - 1], j, true);
    } else {
      assert EndAnchor(s, j, true);
    }
  }

  lemma StrictMatchIsAsWrittenMatch(s: string)
    requires AccountIdValid(s) || (|s| > 0 && s[|s| - 1] == '\n' && AccountIdValid(s[..|s| - 1]))
    ensures AccountIdValidAsWritten(s)
  {
    if AccountIdValid(s) {
      var j :| 3 <= j <= 20 && IdCharsUpTo(s, j) && EndAnchor(s, j, true);
      assert EndAnchor(s, j, false);
    } else {
      NewlineAfterMatch(s[..|s| - 1], s);
    }
  }

  lemma NewlineAfterMatch(t: string, s: string)
    requires AccountIdValid(t) && s == t + "\n"
    ensures AccountIdValidAsWritten(s)
  {
    var j :| 3 <= j <= 20 && IdCharsUpTo(t, j) && EndAnchor(t, j, true);
    assert forall i :: 0 <= i < j ==> s[i] == t[i];
    assert IdCharsUpTo(s, j);
    assert EndAnchor(s, j, false);
  }

  /** `"ABC\n"` passes the validator as written, and is rejected by the intended one. */
  lemma AsWrittenAcceptsNewlineWitness()
    ensures AccountIdValidAsWritten("ABC\n")
    ensures !AccountIdValid("ABC\n")
  {
    var s := "ABC\n";
    assert IdCharsUpTo(s, 3) && EndAnchor(s, 3, false);
    AccountIdValidIsExact(s);
    assert !IsIdChar(s[3]);
  }

  datatype AccountIdError = Malformed | Taken

  /**
   * The intended check of the identifier before a save: the anchored pattern, then the
   * uniqueness of `account_id` among the other accounts. The pattern bounds the length to 20
   * on its own, so the column's length limit never fires here.
   */
  function CheckAccountId(others: set<string>, s: string): (r: Option<AccountIdError>)
    ensures r.None? <==> 3 <= |s| <= 20 && (forall i :: 0 <= i < |s| ==> IsIdChar(s[i])) && s !in others
    ensures r == Some(Malformed) <==> !AccountIdValid(s)
  {
    AccountIdValidIsExact(s);
    if !AccountIdValid(s) then Some(Malformed)
    else if s in others then Some(Taken)
    else None
  }

  /**
   * Model validation as written: the pattern with its `$` anchor and the column's length limit
   * of 20, then uniqueness. It agrees with `CheckAccountId` except on an identifier of 3 to 19
   * characters followed by one newline, which it lets through.
   */
  function CheckAccountIdAsWritten(others: set<string>, s: string): (r: Option<AccountIdError>)
    ensures r.None? <==> AccountIdValidAsWritten(s) && |s| <= MaxAccountIdLength && s !in others
    ensures r == Some(Malformed) <==> !(AccountIdValidAsWritten(s) && |s| <= MaxAccountIdLength)
    ensures r != CheckAccountId(others, s) ==>
              && r != Some(Malformed)
              && 4 <= |s| <= MaxAccountIdLength && s[|s| - 1] == '\n' && AccountIdValid(s[..|s| - 1])
  {
    AsWrittenAcceptsTrailingNewline(s);
    if !(AccountIdValidAsWritten(s) && |s| <= MaxAccountIdLength) then Some(Malformed)
    else if s in others then Some(Taken)
    else None
  }

  /** A validated identifier is stored as given: upper-casing has nothing left to change. */
  lemma SaveKeepsValidId(a: Account)
    requires CheckAccountId({}, a.accountId).None?
    ensures SaveAccount(a) == a
  {
    var s := a.accountId;
    assert forall i :: 0 <= i < |s| ==> !IsAsciiLower(s[i]) by {
      forall i | 0 <= i < |s| ensures !IsAsciiLower(s[i]) {
        assert IsIdChar(s[i]);
      }
    }
    assert Upper(s) == s;
  }

  /**
   * Validation runs before `save`, so a lower-case identifier is refused even though `save`
   * would have upper-cased it into a valid one; and `save` alone lets a malformed one through.
   */
  lemma UpperCasingComesTooLate(a: Account)
    requires a.accountId == "comp001"
    ensures CheckAccountId({}, a.accountId) == Some(Malformed)
    ensures SaveAccount(a).accountId == "COMP001" && CheckAccountId({}, "COMP001").None?
    ensures SaveAccount(a.(accountId := "ac-1")).accountId == "AC-1" && !AccountIdValid("AC-1")
  {
    assert !IsIdChar("comp001"[0]);
    assert Upper("comp001") == "COMP001";
    assert Upper("ac-1") == "AC-1";
    assert !IsIdChar("AC-1"[2]);
  }

  // ---------------------------------------------------------------------------------------
  // user_count, can_add_users
  // ---------------------------------------------------------------------------------------

  /** The memberships of the account whose user is active. */
  function Seats(users: Users, ms: Memberships, account: AccountId): (r: set<MemberId>)
    ensures r <= ms.Keys
  {
    set id | id in ms && ms[id].account == account && ms[id].user in users && users[ms[id].user].isActive
  }

  /** `user_count`. */
  function UserCount(users: Users, ms: Memberships, account: AccountId): (r: nat)
    ensures r <= |ms|
  {
    SetSizeBounded(Seats(users, ms, account), ms.Keys);
    |Seats(users, ms, account)|
  }

  lemma SetSizeBounded<T>(a: set<T>, b: set<T>)
    requires a <= b
    ensures |a| <= |b|
  {
    if a != {} {
      var x :| x in a;
      SetSizeBounded(a - {x}, b - {x});
    }
  }

  /** `can_add_users`: `max_users` is not checked anywhere else. */
  predicate CanAddUsers(a: Account, users: Users, ms: Memberships, account: AccountId) {
    UserCount(users, ms, account) < a.maxUsers
  }

  /** A new membership of an active user takes exactly one seat; any other membership takes none. */
  lemma NewMembershipSeats(users: Users, ms: Memberships, account: AccountId, id: MemberId, m: Membership)
    requires id !in ms
    ensures m.account == account && m.user in users && users[m.user].isActive
            ==> UserCount(users, ms[id := m], account) == UserCount(users, ms, account) + 1
    ensures !(m.account == account && m.user in users && users[m.user].isActive)
            ==> UserCount(users, ms[id := m], account) == UserCount(users, ms, account)
  {
    var before := Seats(users, ms, account);
    var after := Seats(users, ms[id := m], account);
    if m.account == account && m.user in users && users[m.user].isActive {
      assert after == before + {id};
    } else {
      assert after == before;
    }
  }

  /** `can_add_users` holds exactly when one more active member still fits under `max_users`. */
  lemma CanAddUsersMeansRoomForOne(a: Account, users: Users, ms: Memberships, account: AccountId,
                                   id: MemberId, m: Membership)
    requires id !in ms && m.account == account && m.user in users && users[m.user].isActive
    ensures CanAddUsers(a, users, ms, account) <==> UserCount(users, ms[id := m], account) <= a.maxUsers
  {
    NewMembershipSeats(users, ms, account, id, m);
  }

  /** Deactivating a user frees the seats of that user's memberships and touches no other seat. */
  lemma DeactivationFreesSeats(users: Users, ms: Memberships, account: AccountId, u: UserId)
    requires u in users
    ensures var after := users[u := users[u].(isActive := false)];
            Seats(after, ms, account) == Seats(users, ms, account) - (set id | id in ms && ms[id].user == u)
            && UserCount(after, ms, account) <= UserCount(users, ms, account)
  {
    var after := users[u := users[u].(isActive := false)];
    var mine := set id | id in ms && ms[id].user == u;
    assert Seats(after, ms, account) == Seats(users, ms, account) - mine;
    SetSizeBounded(Seats(after, ms, account), Seats(users, ms, account));
  }
}

=== FILE: common.dfy ===
/**
 * Small shared vocabulary: optional values, results, and counting/filtering over sequences.
 * The database tables of the system are modelled as sequences or maps of immutable records,
 * and most queries of the code are a filter or a count over one table.
 */
module Common {

  /** A nullable value (a nullable column, an optional request field). */
  datatype Option<T> = None | Some(value: T)

  /** The outcome of an operation that may raise a validation or database error. */
  datatype Result<T, E> = Ok(value: T) | Err(error: E)

  /** Number of elements of `s` that satisfy `p` (a queryset `.filter(...).count()`). */
  function CountWhere<T>(s: seq<T>, p: T -> bool): (n: nat)
    ensures n <= |s|
    ensures n == 0 <==> forall i :: 0 <= i < |s| ==> !p(s[i])
  {
    if |s| == 0 then 0 else CountWhere(s[..|s| - 1], p) + (if p(s[|s| - 1]) then 1 else 0)
  }

  /** The elements of `s` that satisfy `p`, in their original order. */
  function Filter<T>(s: seq<T>, p: T -> bool): (r: seq<T>)
    ensures |r| == CountWhere(s, p)
    ensures forall i :: 0 <= i < |r| ==> p(r[i])
  {
    if |s| == 0 then []
    else Filter(s[..|s| - 1], p) + (if p(s[|s| - 1]) then [s[|s| - 1]] else [])
  }

  /** The filter keeps every qualifying element as often as it occurs, and nothing else. */
  lemma {:induction false} FilterMultiset<T>(s: seq<T>, p: T -> bool, x: T)
    ensures multiset(Filter(s, p))[x] == if p(x) then multiset(s)[x] else 0
    decreases |s|
  {
    if |s| > 0 {
      var init := s[..|s| - 1];
      assert s == init + [s[|s| - 1]];
      FilterMultiset(init, p, x);
    }
  }

  /** A sequence without repeats holds each value at most once. */
  lemma {:induction false} DistinctCountsOne<T>(a: seq<T>, x: T)
    requires forall i, j :: 0 <= i < j < |a| ==> a[i] != a[j]
    ensures multiset(a)[x] <= 1
    decreases |a|
  {
    if |a| > 0 {
      var init := a[..|a| - 1];
      assert a == init + [a[|a| - 1]];
      DistinctCountsOne(init, x);
      if a[|a| - 1] == x {
        assert x !in init;
      }
    }
  }

  /** A permutation of a sequence that holds each value at most once has no repeats. */
  lemma DistinctAfterPermutation<T>(a: seq<T>, b: seq<T>)
    requires forall x :: multiset(a)[x] <= 1
    requires multiset(b) == multiset(a)
    ensures forall i, j :: 0 <= i < j < |b| ==> b[i] != b[j]
  {
    forall i, j | 0 <= i < j < |b| ensures b[i] != b[j] {
      assert b == b[..j] + [b[j]] + b[j + 1..];
      assert multiset(b)[b[j]] <= 1;
      assert multiset(b[..j])[b[j]] == 0;
      assert b[i] in b[..j];
    }
  }

  /** The elements of a finite set of naturals (primary keys) in increasing order. */
  function SortedElements(s: set<nat>): (r: seq<nat>)
    ensures forall x :: x in r <==> x in s
    ensures forall i, j :: 0 <= i < j < |r| ==> r[i] < r[j]
    decreases |s|
  {
    if s == {} then []
    else
      var m := Least(s);
      var rest := SortedElements(s - {m});
      assert forall i :: 0 <= i < |rest| ==> m < rest[i] by {
        forall i | 0 <= i < |rest| ensures m < rest[i] {
          assert rest[i] in s - {m};
        }
      }
      [m] + rest
  }

  predicate IsLeast(m: nat, s: set<nat>) {
    m in s && forall y :: y in s ==> m <= y
  }

  /** The least element of a non-empty finite set of naturals. */
  function Least(s: set<nat>): (m: nat)
    requires s != {}
    ensures m in s && forall y :: y in s ==> m <= y
  {
    LeastExists(s);
    var m :| IsLeast(m, s);
    m
  }

  lemma {:induction false} LeastExists(s: set<nat>)
    requires s != {}
    ensures exists m :: IsLeast(m, s)
    decreases |s|
  {
    var x :| x in s;
    if s == {x} {
      assert IsLeast(x, s);
    } else {
      LeastExists(s - {x});
      var m :| IsLeast(m, s - {x});
      var least := if x < m then x else m;
      forall y | y in s ensures least <= y {
        if y != x {
          assert y in s - {x};
        }
      }
      assert IsLeast(least, s);
    }
  }

  /** The first position of `s` whose element satisfies `p` (a `.get(...)` / `.first()` lookup). */
  function IndexWhere<T>(s: seq<T>, p: T -> bool): (r: Option<nat>)
    ensures r.Some? ==> r.value < |s| && p(s[r.value])
    ensures r.Some? ==> forall i :: 0 <= i < r.value ==> !p(s[i])
    ensures r.None? <==> forall i :: 0 <= i < |s| ==> !p(s[i])
  {
    if |s| == 0 then None
    else if p(s[0]) then Some(0)
    else match IndexWhere(s[1..], p)
      case None => None
      case Some(k) => Some(k + 1)
  }

  lemma {:induction false} CountWhereAppend<T>(a: seq<T>, b: seq<T>, p: T -> bool)
    ensures CountWhere(a + b, p) == CountWhere(a, p) + CountWhere(b, p)
    decreases |b|
  {
    if |b| == 0 {
      assert a + b == a;
    } else {
      assert (a + b)[..|a + b| - 1] == a + b[..|b| - 1];
      CountWhereAppend(a, b[..|b| - 1], p);
    }
  }

  lemma {:induction false} FilterAppend<T>(a: seq<T>, b: seq<T>, p: T -> bool)
    ensures Filter(a + b, p) == Filter(a, p) + Filter(b, p)
    decreases |b|
  {
    if |b| == 0 {
      assert a + b == a;
    } else {
      assert (a + b)[..|a + b| - 1] == a + b[..|b| - 1];
      FilterAppend(a, b[..|b| - 1], p);
    }
  }

  /** Filtering keeps everything when every element qualifies. */
  lemma {:induction false} FilterAll<T>(s: seq<T>, p: T -> bool)
    requires forall i :: 0 <= i < |s| ==> p(s[i])
    ensures Filter(s, p) == s
    decreases |s|
  {
    if |s| > 0 {
      var init := s[..|s| - 1];
      assert forall i :: 0 <= i < |init| ==> init[i] == s[i];
      FilterAll(init, p);
      assert Filter(s, p) == Filter(init, p) + [s[|s| - 1]];
      assert s == init + [s[|s| - 1]];
    }
  }

  /** Every element the filter keeps has any property every element of the input has. */
  lemma {:induction false} FilterKeepsProperty<T>(s: seq<T>, p: T -> bool, q: T -> bool)
    requires forall i :: 0 <= i < |s| ==> q(s[i])
    ensures forall i :: 0 <= i < |Filter(s, p)| ==> q(Filter(s, p)[i])
    decreases |s|
  {
    if |s| > 0 {
      var init := s[..|s| - 1];
      assert forall i :: 0 <= i < |init| ==> init[i] == s[i];
      FilterKeepsProperty(init, p, q);
    }
  }

  /** An element that satisfies the filter's predicate is kept. */
  lemma {:induction false} FilterContains<T>(s: seq<T>, p: T -> bool, k: nat)
    requires k < |s| && p(s[k])
    ensures s[k] in Filter(s, p)
    decreases |s|
  {
    var init := s[..|s| - 1];
    if k < |s| - 1 {
      assert init[k] == s[k];
      FilterContains(init, p, k);
    }
  }

  /** Every kept element comes from the input. */
  lemma {:induction false} FilterSubset<T>(s: seq<T>, p: T -> bool, x: T)
    requires x in Filter(s, p)
    ensures x in s
    decreases |s|
  {
    var init := s[..|s| - 1];
    if x in Filter(init, p) {
      FilterSubset(init, p, x);
      assert x in init;
      var i :| 0 <= i < |init| && init[i] == x;
      assert s[i] == x;
    } else {
      assert x == s[|s| - 1];
    }
  }

  /**
   * Filtering out exactly one position: when `k` is the only element failing `p`, the
   * filter is the sequence without it.
   */
  lemma {:induction false} FilterDropsOne<T>(s: seq<T>, p: T -> bool, k: nat)
    requires k < |s| && !p(s[k])
    requires forall i :: 0 <= i < |s| && i != k ==> p(s[i])
    ensures Filter(s, p) == s[..k] + s[k + 1..]
    decreases |s|
  {
    var init := s[..|s| - 1];
    if k == |s| - 1 {
      assert forall i :: 0 <= i < |init| ==> init[i] == s[i];
      FilterAll(init, p);
      assert s[k + 1..] == [];
    } else {
      assert forall i :: 0 <= i < |init| ==> init[i] == s[i];
      FilterDropsOne(init, p, k);
      assert s[k + 1..] == init[k + 1..] + [s[|s| - 1]];
    }
  }

  /** Filtering keeps nothing when no element qualifies. */
  lemma FilterNone<T>(s: seq<T>, p: T -> bool)
    requires forall i :: 0 <= i < |s| ==> !p(s[i])
    ensures Filter(s, p) == []
  {
  }

  /** Filtering first by a weaker condition changes nothing about a later, stronger filter. */
  lemma {:induction false} FilterNarrows<T>(s: seq<T>, a: T -> bool, b: T -> bool)
    requires forall x :: b(x) ==> a(x)
    ensures Filter(Filter(s, a), b) == Filter(s, b)
    decreases |s|
  {
    if |s| > 0 {
      var init := s[..|s| - 1];
      var last := s[|s| - 1];
      assert s[..|s| - 1] == init;
      FilterNarrows(init, a, b);
      if a(last) {
        assert Filter(s, a) == Filter(init, a) + [last];
        FilterAppend(Filter(init, a), [last], b);
        assert [last][..0] == [];
        assert Filter([last], b) == if b(last) then [last] else [];
      } else {
        assert Filter(s, a) == Filter(init, a);
      }
    }
  }

  /** Replacing one element changes the count only by what that element contributes. */
  lemma {:induction false} CountWhereUpdate<T>(s: seq<T>, i: nat, x: T, p: T -> bool)
    requires i < |s|
    ensures CountWhere(s[i := x], p)
         == CountWhere(s, p) - (if p(s[i]) then 1 else 0) + (if p(x) then 1 else 0)
  {
    assert s == s[..i] + [s[i]] + s[i + 1..];
    assert s[i := x] == s[..i] + [x] + s[i + 1..];
    CountWhereAppend(s[..i] + [s[i]], s[i + 1..], p);
    CountWhereAppend(s[..i], [s[i]], p);
    CountWhereAppend(s[..i] + [x], s[i + 1..], p);
    CountWhereAppend(s[..i], [x], p);
    assert [s[i]][..0] == [] && [x][..0] == [];
  }

  /** A sequence in which exactly position `k` satisfies `p` has count one. */
  lemma {:induction false} CountWhereOne<T>(s: seq<T>, p: T -> bool, k: nat)
    requires k < |s| && p(s[k])
    requires forall i :: 0 <= i < |s| && i != k ==> !p(s[i])
    ensures CountWhere(s, p) == 1
    decreases |s|
  {
    var init := s[..|s| - 1];
    if k == |s| - 1 {
      assert CountWhere(init, p) == 0 by {
        forall i | 0 <= i < |init| ensures !p(init[i]) { assert init[i] == s[i]; }
      }
    } else {
      forall i | 0 <= i < |init| && i != k ensures !p(init[i]) { assert init[i] == s[i]; }
      CountWhereOne(init, p, k);
    }
  }

  /** Counting `b` inside the `a`-filtered sequence is counting their conjunction `c` in the whole. */
  lemma {:induction false} CountWhereFilter<T>(s: seq<T>, a: T -> bool, b: T -> bool, c: T -> bool)
    requires forall x :: c(x) <==> a(x) && b(x)
    ensures CountWhere(Filter(s, a), b) == CountWhere(s, c)
    decreases |s|
  {
    if |s| > 0 {
      var init := s[..|s| - 1];
      var last := s[|s| - 1];
      CountWhereFilter(init, a, b, c);
      CountWhereAppend(Filter(init, a), if a(last) then [last] else [], b);
      assert [last][..0] == [];
    }
  }

  /** Counting is insensitive to the order of the elements. */
  lemma {:induction false} CountWherePermutation<T>(a: seq<T>, b: seq<T>, p: T -> bool)
    requires multiset(a) == multiset(b)
    ensures CountWhere(a, p) == CountWhere(b, p)
    decreases |a|
  {
    if |a| == 0 {
      assert |b| == |multiset(b)| == 0;
    } else {
      var x := a[|a| - 1];
      assert x in multiset(b);
      var k :| 0 <= k < |b| && b[k] == x;
      var b' := b[..k] + b[k + 1..];
      assert b == b[..k] + [x] + b[k + 1..];
      assert a == a[..|a| - 1] + [x];
      assert multiset(a) == multiset(a[..|a| - 1]) + multiset{x};
      assert multiset(b) == multiset(b[..k]) + multiset{x} + multiset(b[k + 1..]);
      assert multiset(b') == multiset(b[..k]) + multiset(b[k + 1..]);
      assert multiset(a[..|a| - 1]) == multiset(a) - multiset{x};
      assert multiset(b') == multiset(b) - multiset{x};
      CountWherePermutation(a[..|a| - 1], b', p);
      CountWhereAppend(b[..k] + [x], b[k + 1..], p);
      CountWhereAppend(b[..k], [x], p);
      CountWhereAppend(b[..k], b[k + 1..], p);
      assert [x][..0] == [];
    }
  }

  /** Counting elements with the same key in a sequence and its image under a key-preserving map. */
  lemma {:induction false} CountWhereMapped<T, U>(s: seq<T>, f: T -> U, t: seq<U>, p: T -> bool, q: U -> bool)
    requires |t| == |s|
    requires forall i :: 0 <= i < |s| ==> t[i] == f(s[i])
    requires forall x :: p(x) <==> q(f(x))
    ensures CountWhere(t, q) == CountWhere(s, p)
    decreases |s|
  {
    if |s| > 0 {
      CountWhereMapped(s[..|s| - 1], f, t[..|t| - 1], p, q);
    }
  }
  /** The predicate "the key of x is c". */
  function KeyIs<T>(key: T -> string, c: string): T -> bool {
    (x: T) => key(x) == c
  }

  /**
   * Groups `s` by `key` into a dictionary of lists, appending each element to its key's
   * list in order (the `if k not in d: d[k] = []; d[k].append(x)` loop).
   */
  function GroupBy<T>(s: seq<T>, key: T -> string): (r: map<string, seq<T>>)
    decreases |s|
  {
    if |s| == 0 then map[]
    else
      var m := GroupBy(s[..|s| - 1], key);
      var c := key(s[|s| - 1]);
      m[c := (if c in m then m[c] else []) + [s[|s| - 1]]]
  }

  /** A key is present iff some element has it, and its list is exactly those elements, in order. */
  lemma {:induction false} GroupByFilters<T>(s: seq<T>, key: T -> string, c: string)
    ensures c in GroupBy(s, key) <==> CountWhere(s, KeyIs(key, c)) > 0
    ensures c in GroupBy(s, key) ==> GroupBy(s, key)[c] == Filter(s, KeyIs(key, c))
    decreases |s|
  {
    if |s| > 0 {
      var init := s[..|s| - 1];
      GroupByFilters(init, key, c);
      if c !in GroupBy(init, key) {
        assert |Filter(init, KeyIs(key, c))| == 0;
      }
    }
  }

  /** Every list of the grouping is non-empty and holds only elements with its key. */
  lemma GroupByHoldsKey<T>(s: seq<T>, key: T -> string, c: string)
    requires c in GroupBy(s, key)
    ensures |GroupBy(s, key)[c]| > 0
    ensures forall i :: 0 <= i < |GroupBy(s, key)[c]| ==> key(GroupBy(s, key)[c][i]) == c
  {
    GroupByFilters(s, key, c);
    var g := GroupBy(s, key)[c];
    forall i | 0 <= i < |g| ensures key(g[i]) == c {
      assert KeyIs(key, c)(g[i]);
    }
  }

  /** The total length of the lists of a dictionary of lists. */
  ghost function SizeSum<T>(m: map<string, seq<T>>): nat
    decreases |m|
  {
    if m == map[] then 0
    else
      var k :| k in m;
      |m[k]| + SizeSum(m - {k})
  }

  /** The total can be computed starting from any key. */
  lemma {:induction false} SizeSumRemove<T>(m: map<string, seq<T>>, k: string)
    requires k in m
    ensures SizeSum(m) == |m[k]| + SizeSum(m - {k})
    decreases |m|
  {
    var j :| j in m && SizeSum(m) == |m[j]| + SizeSum(m - {j});
    if j != k {
      var mj := m - {j};
      var mk := m - {k};
      assert k in mj && mj[k] == m[k];
      assert j in mk && mk[j] == m[j];
      SizeSumRemove(mj, k);
      SizeSumRemove(mk, j);
      assert mj - {k} == mk - {j};
    }
  }

  /** Grouping neither loses nor duplicates an element. */
  lemma {:induction false} GroupBySize<T>(s: seq<T>, key: T -> string)
    ensures SizeSum(GroupBy(s, key)) == |s|
    decreases |s|
  {
    if |s| > 0 {
      var init := s[..|s| - 1];
      var m := GroupBy(init, key);
      var c := key(s[|s| - 1]);
      var r := GroupBy(s, key);
      GroupBySize(init, key);
      SizeSumRemove(r, c);
      if c in m {
        SizeSumRemove(m, c);
        assert r - {c} == m - {c};
      } else {
        assert r - {c} == m;
      }
    }
  }
}

=== FILE: journey_api.dfy ===
/**
 * The journey-instance and step-instance endpoints: creating a journey, the start, complete
 * and step-complete actions with the HTTP status each replies with, and the list filters
 * (overdue journeys, overdue steps, my tasks, a journey's steps).
 */
module JourneyApi {
  import opened Common
  import opened Boarding
  import opened Journeys
  import Sorting

  const HttpOk: int := 200
  const HttpCreated: int := 201
  const HttpBadRequest: int := 400
  const HttpNotFound: int := 404

  /**
   * The stored state keeps every journey's template (the foreign key is protected), so each
   * stored journey can be started.
   */
  predicate TemplatesKept(db: Db) {
    forall k :: k in db.journeys ==> db.journeys[k].template in db.templates
  }

  // ---------------------------------------------------------------------------------------
  // create
  // ---------------------------------------------------------------------------------------

  /** Why a create is refused: unresolved references (each flag a field error), or a duplicate pair. */
  datatype CreateError = UnknownRefs(badTemplate: bool, badUser: bool) | JourneyExists

  predicate HasJourney(db: Db, tid: TemplateId, user: UserId) {
    exists k :: k in db.journeys && db.journeys[k].template == tid && db.journeys[k].user == user
  }

  /** No two stored journeys share a (template, user) pair. */
  ghost predicate UniqueJourneyPairs(db: Db) {
    forall k1, k2 :: k1 in db.journeys && k2 in db.journeys && k1 != k2 ==>
      db.journeys[k1].template != db.journeys[k2].template || db.journeys[k1].user != db.journeys[k2].user
  }

  /** Every stored journey's key is below the key counter. */
  ghost predicate JourneyKeysBelow(db: Db) {
    forall k :: k in db.journeys ==> k < db.nextId
  }

  /**
   * The journey a create request stores at time `now`: not started, no dates, no steps
   * counted yet.
   */
  function NewJourney(tid: TemplateId, user: UserId, notes: string, now: int): (r: Journey)
    ensures r.template == tid && r.user == user && r.notes == notes && r.createdAt == now
    ensures r.status == NotStarted && r.startDate.None? && r.expectedCompletionDate.None?
    ensures r.actualCompletionDate.None? && r.totalSteps == 0 && r.completedSteps == 0
  {
    Journey(tid, user, NotStarted, None, None, None, 0, 0, notes, now)
  }

  /**
   * `create` with the create serializer: the template and user references must resolve (both
   * are checked, as field errors, before `validate`), and a journey for the same
   * (template, user) must not exist yet. On success the journey is stored under the fresh
   * key, which the reply carries; `users` are the stored user keys, and `now` is the clock
   * reading `created_at` takes.
   */
  function CreateJourney(db: Db, users: set<UserId>, tid: TemplateId, user: UserId, notes: string, now: int): (r: (Db, Result<JourneyId, CreateError>))
    ensures r.1.Ok? <==> tid in db.templates && user in users && !HasJourney(db, tid, user)
    ensures r.1 == Err(UnknownRefs(tid !in db.templates, user !in users)) <==> tid !in db.templates || user !in users
    ensures r.1 == Err(JourneyExists) <==> tid in db.templates && user in users && HasJourney(db, tid, user)
    ensures r.1.Err? ==> r.0 == db
    ensures r.1.Ok? ==> r.1.value == db.nextId
                        && r.0 == db.(journeys := db.journeys[db.nextId := NewJourney(tid, user, notes, now)],
                                      nextId := db.nextId + 1)
  {
    if tid !in db.templates || user !in users then (db, Err(UnknownRefs(tid !in db.templates, user !in users)))
    else if HasJourney(db, tid, user) then (db, Err(JourneyExists))
    else
      (db.(journeys := db.journeys[db.nextId := NewJourney(tid, user, notes, now)], nextId := db.nextId + 1),
       Ok(db.nextId))
  }

  /** Creating journeys keeps the (template, user) pairs unique and the templates referenced. */
  lemma CreateKeepsPairsUnique(db: Db, users: set<UserId>, tid: TemplateId, user: UserId, notes: string, now: int)
    requires UniqueJourneyPairs(db) && JourneyKeysBelow(db) && TemplatesKept(db)
    ensures var db' := CreateJourney(db, users, tid, user, notes, now).0;
            UniqueJourneyPairs(db') && JourneyKeysBelow(db') && TemplatesKept(db')
  {
    var r := CreateJourney(db, users, tid, user, notes, now);
    if r.1.Ok? {
      var db' := r.0;
      var n := db.nextId;
      forall k1, k2 | k1 in db'.journeys && k2 in db'.journeys && k1 != k2
        ensures db'.journeys[k1].template != db'.journeys[k2].template || db'.journeys[k1].user != db'.journeys[k2].user
      {
        if k1 == n {
          assert k2 in db.journeys;
          assert !(db.journeys[k2].template == tid && db.journeys[k2].user == user);
        } else if k2 == n {
          assert k1 in db.journeys;
          assert !(db.journeys[k1].template == tid && db.journeys[k1].user == user);
        }
      }
    }
  }

  /** A second create for the same (template, user) is refused, whatever the notes and the time. */
  lemma CreateTwiceIsRefused(db: Db, users: set<UserId>, tid: TemplateId, user: UserId, n1: string, n2: string, t1: int, t2: int)
    requires CreateJourney(db, users, tid, user, n1, t1).1.Ok?
    ensures var db' := CreateJourney(db, users, tid, user, n1, t1).0;
            CreateJourney(db', users, tid, user, n2, t2) == (db', Err(JourneyExists))
  {
    var db' := CreateJourney(db, users, tid, user, n1, t1).0;
    assert db'.journeys[db.nextId].template == tid && db'.journeys[db.nextId].user == user;
    assert HasJourney(db', tid, user);
  }

  // ---------------------------------------------------------------------------------------
  // start / complete actions
  // ---------------------------------------------------------------------------------------

  /** The `start` action: 404 for an unknown journey, else 200 when `start_journey` succeeds and 400 when it refuses. */
  function StartAction(db: Db, jid: JourneyId, today: int, actor: Option<UserId>): (r: (Db, int))
    requires TemplatesKept(db)
    ensures r.1 == HttpNotFound <==> jid !in db.journeys
    ensures r.1 == HttpOk <==> jid in db.journeys && db.journeys[jid].status == NotStarted
    ensures r.1 in {HttpOk, HttpBadRequest, HttpNotFound}
    ensures r.1 != HttpOk ==> r.0 == db
    ensures r.1 == HttpOk ==> r.0 == StartJourney(db, jid, today, actor).0
  {
    if jid !in db.journeys then (db, HttpNotFound)
    else
      var (db', ok) := StartJourney(db, jid, today, actor);
      (db', if ok then HttpOk else HttpBadRequest)
  }

  /** A started journey cannot be started again: the second request gets 400 and changes nothing. */
  lemma StartActionTwice(db: Db, jid: JourneyId, d1: int, d2: int, actor: Option<UserId>)
    requires TemplatesKept(db)
    requires StartAction(db, jid, d1, actor).1 == HttpOk
    ensures var db1 := StartAction(db, jid, d1, actor).0;
            TemplatesKept(db1) && StartAction(db1, jid, d2, actor) == (db1, HttpBadRequest)
  {
    var db1 := StartAction(db, jid, d1, actor).0;
    assert db1.templates == db.templates;
    forall k | k in db1.journeys ensures db1.journeys[k].template in db1.templates {
      assert k in db.journeys;
    }
    assert db1.journeys[jid].status == InProgress;
  }

  /** The `complete` action on journey `jid`: 404, or 200/400 from `complete_journey`. */
  function CompleteAction(db: Db, jid: JourneyId, today: int): (r: (Db, int))
    ensures r.1 == HttpNotFound <==> jid !in db.journeys
    ensures r.1 == HttpOk <==> jid in db.journeys && db.journeys[jid].status in {InProgress, OnHold}
    ensures r.1 in {HttpOk, HttpBadRequest, HttpNotFound}
    ensures r.1 != HttpOk ==> r.0 == db
    ensures r.1 == HttpOk ==> r.0 == db.(journeys := db.journeys[jid := CompleteJourney(db.journeys[jid], today).0])
  {
    if jid !in db.journeys then (db, HttpNotFound)
    else
      var (j', ok) := CompleteJourney(db.journeys[jid], today);
      if ok then (db.(journeys := db.journeys[jid := j']), HttpOk) else (db, HttpBadRequest)
  }

  /**
   * After a successful `complete` the journey is completed, is no longer overdue, and a
   * second `complete` gets 400 and changes nothing.
   */
  lemma CompleteActionIsFinal(db: Db, jid: JourneyId, d1: int, d2: int)
    requires CompleteAction(db, jid, d1).1 == HttpOk
    ensures var db1 := CompleteAction(db, jid, d1).0;
            && jid in db1.journeys && db1.journeys[jid].status == Completed
            && !JourneyOverdue(db1.journeys[jid], d2)
            && CompleteAction(db1, jid, d2) == (db1, HttpBadRequest)
  {
    CompleteIsFinal(db.journeys[jid], d1, d2);
  }

  /**
   * The step-instance `complete` action on the instance stored at `idx`: 404 for an unknown
   * instance, 200 when `mark_completed` returns a true value, 400 otherwise, including the
   * case where the step was saved but the journey is not complete yet.
   */
  function StepCompleteAction(db: Db, idx: nat, today: int, actor: Option<UserId>, notes: string): (r: (Db, int))
    requires idx < |db.instances| ==> db.instances[idx].journey in db.journeys
    ensures r.1 == HttpNotFound <==> idx >= |db.instances|
    ensures r.1 in {HttpOk, HttpBadRequest, HttpNotFound}
    ensures idx < |db.instances| ==> r.0 == MarkCompleted(db, idx, today, actor, notes).0
    ensures idx < |db.instances| ==> (r.1 == HttpOk <==> MarkCompleted(db, idx, today, actor, notes).1.Truthy())
  {
    if idx >= |db.instances| then (db, HttpNotFound)
    else
      var (db', res) := MarkCompleted(db, idx, today, actor, notes);
      (db', if res.Truthy() then HttpOk else HttpBadRequest)
  }

  /**
   * A 400 reply to the step `complete` action does not mean nothing happened: whenever the
   * step was not completed before, it is completed afterwards, whatever the reply.
   */
  lemma StepCompleteSavesEvenOnBadRequest(db: Db, idx: nat, today: int, actor: Option<UserId>, notes: string)
    requires idx < |db.instances| && db.instances[idx].journey in db.journeys
    requires db.instances[idx].status != StepCompleted
    ensures var r := StepCompleteAction(db, idx, today, actor, notes);
            && r.1 in {HttpOk, HttpBadRequest}
            && idx < |r.0.instances| && r.0.instances[idx].status == StepCompleted
            && r.0.instances[idx].completedDate == Some(today)
            && (r.1 == HttpBadRequest <==>
                  CompletedCount(r.0.instances, db.instances[idx].journey) < db.journeys[db.instances[idx].journey].totalSteps)
  {
  }

  /** As written, a request that completes a step can be answered 400 although the step was saved. */
  lemma StepCompleteMisreportsASave()
    ensures exists db: Db, idx: nat ::
      idx < |db.instances| && db.instances[idx].journey in db.journeys &&
      var r := StepCompleteAction(db, idx, 0, None, "");
      r.1 == HttpBadRequest && r.0 != db
  {
    var j := Journey(0, 9, InProgress, Some(0), Some(5), None, 2, 0, "", 0);
    var a := StepInstance(3, 5, None, StepPending, 2, None, None, "", None);
    var b := StepInstance(3, 6, None, StepPending, 4, None, None, "", None);
    var db := Db(map[], [], map[3 := j], [a, b], 7);
    var a' := a.(status := StepCompleted, completedDate := Some(0));
    var r := MarkCompleted(db, 0, 0, None, "");
    assert r.0.instances == [a', b];
    assert r.0.instances[..1] == [a'];
    assert [a'][..0] == [];
    assert CompletedCount([a'], 3) == 1;
    assert CompletedCount(r.0.instances, 3) == 1;
    assert r.0.instances[0] != db.instances[0];
    assert StepCompleteAction(db, 0, 0, None, "").1 == HttpBadRequest;
  }

  /**
   * The step `complete` action as intended: `mark_completed` reports every save as a success,
   * so only a step that was already completed is answered 400.
   */
  function StepCompleteActionFixed(db: Db, idx: nat, today: int, actor: Option<UserId>, notes: string): (r: (Db, int))
    requires idx < |db.instances| ==> db.instances[idx].journey in db.journeys
    ensures r.1 == HttpNotFound <==> idx >= |db.instances|
    ensures r.1 in {HttpOk, HttpBadRequest, HttpNotFound}
    ensures idx < |db.instances| ==> r.0 == MarkCompleted(db, idx, today, actor, notes).0
    ensures idx < |db.instances| ==> (r.1 == HttpOk <==> db.instances[idx].status != StepCompleted)
  {
    if idx >= |db.instances| then (db, HttpNotFound)
    else
      var (db', res) := MarkCompleted(db, idx, today, actor, notes);
      (db', if res != Refused then HttpOk else HttpBadRequest)
  }

  /** With the fix the reply tells exactly whether the request changed anything. */
  lemma FixedReplyMatchesTheSave(db: Db, idx: nat, today: int, actor: Option<UserId>, notes: string)
    requires idx < |db.instances| && db.instances[idx].journey in db.journeys
    ensures var r := StepCompleteActionFixed(db, idx, today, actor, notes);
            && (r.1 == HttpBadRequest <==> r.0 == db)
            && (r.1 == HttpOk ==> r.0.instances[idx].status == StepCompleted && r.0.instances[idx].completedDate == Some(today))
  {
    var r := StepCompleteActionFixed(db, idx, today, actor, notes);
    if r.1 == HttpOk {
      assert r.0.instances[idx].status != db.instances[idx].status;
    }
  }

  // ---------------------------------------------------------------------------------------
  // list filters
  // ---------------------------------------------------------------------------------------

  /** The `overdue` journey filter: expected date before today, status not started or in progress. */
  predicate InOverdueJourneyFilter(j: Journey, today: int) {
    j.expectedCompletionDate.Some? && j.expectedCompletionDate.value < today
    && j.status in {NotStarted, InProgress}
  }

  /** The `created_at` of journey `k`; 0 for a key that is not stored. */
  function CreatedAtOf(journeys: map<JourneyId, Journey>, k: JourneyId): int {
    if k in journeys then journeys[k].createdAt else 0
  }

  /** `order_by('-created_at')` on journey keys, the newest first. */
  function NewestFirst(journeys: map<JourneyId, Journey>): (JourneyId, JourneyId) -> bool {
    Sorting.ByInt<JourneyId>((k: JourneyId) => -CreatedAtOf(journeys, k))
  }

  /**
   * The keys of the journeys the `overdue` journey action (and `?overdue=true`) lists,
   * newest first. Journeys created at the same time may come in any order; the model keeps
   * them by increasing key.
   */
  function OverdueJourneys(db: Db, today: int): (r: seq<JourneyId>)
    ensures forall k :: k in r <==> k in db.journeys && InOverdueJourneyFilter(db.journeys[k], today)
    ensures forall i, j :: 0 <= i < j < |r| ==> r[i] != r[j]
    ensures forall i, j :: 0 <= i < j < |r| ==> CreatedAtOf(db.journeys, r[i]) >= CreatedAtOf(db.journeys, r[j])
  {
    var pick := set k | k in db.journeys && InOverdueJourneyFilter(db.journeys[k], today);
    var keys := SortedElements(pick);
    Sorting.ByIntIsTotalPreorder<JourneyId>((k: JourneyId) => -CreatedAtOf(db.journeys, k));
    var r := Sorting.SortWith(keys, NewestFirst(db.journeys));
    NewestFirstListing(pick, keys, r, db.journeys);
    r
  }

  /** Sorting the increasing keys of `pick` newest first lists each of them once, newest first. */
  lemma NewestFirstListing(pick: set<nat>, keys: seq<nat>, r: seq<nat>, journeys: map<JourneyId, Journey>)
    requires forall x :: x in keys <==> x in pick
    requires forall i, j :: 0 <= i < j < |keys| ==> keys[i] < keys[j]
    requires multiset(r) == multiset(keys)
    requires Sorting.SortedWith(r, NewestFirst(journeys))
    ensures forall k :: k in r <==> k in pick
    ensures forall i, j :: 0 <= i < j < |r| ==> r[i] != r[j]
    ensures forall i, j :: 0 <= i < j < |r| ==> CreatedAtOf(journeys, r[i]) >= CreatedAtOf(journeys, r[j])
  {
    forall k ensures k in r <==> k in pick {
      assert k in r <==> k in multiset(r);
      assert k in keys <==> k in multiset(keys);
    }
    forall x ensures multiset(keys)[x] <= 1 {
      DistinctCountsOne(keys, x);
    }
    DistinctAfterPermutation(keys, r);
    forall i, j | 0 <= i < j < |r| ensures CreatedAtOf(journeys, r[i]) >= CreatedAtOf(journeys, r[j]) {
      assert NewestFirst(journeys)(r[i], r[j]);
    }
  }

  /**
   * On not-started and in-progress journeys the filter agrees with `is_overdue`; on-hold and
   * cancelled journeys can be overdue yet are never listed.
   */
  lemma OverdueJourneysVersusProperty(db: Db, today: int, k: JourneyId)
    requires k in db.journeys
    ensures db.journeys[k].status in {NotStarted, InProgress} ==>
              (k in OverdueJourneys(db, today) <==> JourneyOverdue(db.journeys[k], today))
    ensures db.journeys[k].status in {OnHold, Cancelled, Completed} ==> k !in OverdueJourneys(db, today)
  {
  }

  /** The listing is strictly smaller than `is_overdue`: an overdue journey on hold is left out. */
  lemma OverdueJourneysMissOnHold()
    ensures exists db: Db, today: int, k: JourneyId ::
              k in db.journeys && JourneyOverdue(db.journeys[k], today) && k !in OverdueJourneys(db, today)
  {
    var j := Journey(0, 0, OnHold, Some(0), Some(3), None, 1, 0, "", 0);
    var db := Db(map[], [], map[1 := j], [], 2);
    assert JourneyOverdue(db.journeys[1], 5);
    assert 1 !in OverdueJourneys(db, 5);
  }

  /** The step `overdue` filter: due before today, status pending or in progress. */
  predicate InOverdueStepFilter(si: StepInstance, today: int) {
    si.dueDate < today && si.status in {StepPending, StepInProgress}
  }

  /**
   * `order_by('journey', 'step_template__order')` on step instances. Ordering by the
   * journey foreign key uses the journey's own ordering, `-created_at`, so the steps of the
   * newest journey come first, each journey's in blueprint order.
   */
  function StepListOrder(db: Db): (StepInstance, StepInstance) -> bool {
    Sorting.ThenBy(Sorting.ByInt((si: StepInstance) => -CreatedAtOf(db.journeys, si.journey)),
                   Sorting.ByInt(BlueprintOrder(db.steps)))
  }

  lemma StepListOrderIsTotalPreorder(db: Db)
    ensures Sorting.TotalPreorder(StepListOrder(db))
  {
    Sorting.ByIntIsTotalPreorder((si: StepInstance) => -CreatedAtOf(db.journeys, si.journey));
    Sorting.ByIntIsTotalPreorder(BlueprintOrder(db.steps));
    Sorting.ThenByIsTotalPreorder(Sorting.ByInt((si: StepInstance) => -CreatedAtOf(db.journeys, si.journey)),
                                  Sorting.ByInt(BlueprintOrder(db.steps)));
  }

  /**
   * The step instances the `overdue` step action (and `?overdue=true`) lists: every
   * instance in the filter as often as it is stored and nothing else, in the listing order.
   */
  function OverdueSteps(db: Db, today: int): (r: seq<StepInstance>)
    ensures forall x :: multiset(r)[x] == if InOverdueStepFilter(x, today) then multiset(db.instances)[x] else 0
    ensures Sorting.SortedWith(r, StepListOrder(db))
  {
    var p := (si: StepInstance) => InOverdueStepFilter(si, today);
    StepListOrderIsTotalPreorder(db);
    var r := Sorting.SortWith(Filter(db.instances, p), StepListOrder(db));
    forall x ensures multiset(r)[x] == if p(x) then multiset(db.instances)[x] else 0 {
      FilterMultiset(db.instances, p, x);
    }
    r
  }

  /** Newer journey first, and within one journey the earlier blueprint step first. */
  predicate StepListLe(db: Db, x: StepInstance, y: StepInstance) {
    || CreatedAtOf(db.journeys, x.journey) > CreatedAtOf(db.journeys, y.journey)
    || (&& CreatedAtOf(db.journeys, x.journey) == CreatedAtOf(db.journeys, y.journey)
        && StepOrderOf(db.steps, x.stepTemplate) <= StepOrderOf(db.steps, y.stepTemplate))
  }

  lemma StepListOrderIsStepListLe(db: Db, x: StepInstance, y: StepInstance)
    requires StepListOrder(db)(x, y)
    ensures StepListLe(db, x, y)
  {
  }

  /** Every listed step is pending or in progress and overdue, newer journeys first, and within a journey in blueprint order. */
  lemma OverdueStepsOrdered(db: Db, today: int)
    ensures var r := OverdueSteps(db, today);
            && (forall i :: 0 <= i < |r| ==> StepOverdue(r[i], today) && r[i].status in {StepPending, StepInProgress})
            && (forall i, j :: 0 <= i < j < |r| ==> StepListLe(db, r[i], r[j]))
  {
    var r := OverdueSteps(db, today);
    forall i | 0 <= i < |r| ensures InOverdueStepFilter(r[i], today) {
      assert multiset(r)[r[i]] > 0;
    }
    forall i, j | 0 <= i < j < |r| ensures StepListLe(db, r[i], r[j]) {
      StepListOrderIsStepListLe(db, r[i], r[j]);
    }
  }

  /** Every listed step is overdue, so the listing never outnumbers the overdue steps. */
  lemma OverdueStepsAtMostOverdue(db: Db, today: int)
    ensures |OverdueSteps(db, today)| <= CountWhere(db.instances, (si: StepInstance) => StepOverdue(si, today))
  {
    var p := (si: StepInstance) => InOverdueStepFilter(si, today);
    var f := Filter(db.instances, p);
    var r := OverdueSteps(db, today);
    assert multiset(r) == multiset(f) by {
      forall x ensures multiset(r)[x] == multiset(f)[x] {
        FilterMultiset(db.instances, p, x);
      }
    }
    assert |r| == |multiset(r)| == |multiset(f)| == |f|;
    CountWhereImplies(db.instances, p, (si: StepInstance) => StepOverdue(si, today));
  }

  /** A skipped or blocked step can be overdue yet is never listed. */
  lemma OverdueStepsMissSkipped()
    ensures exists db: Db, today: int ::
              CountWhere(db.instances, (si: StepInstance) => StepOverdue(si, today)) == 1
              && |OverdueSteps(db, today)| == 0
  {
    var si := StepInstance(0, 0, None, StepSkipped, 1, None, None, "", None);
    var db := Db(map[], [], map[], [si], 1);
    assert [si][..0] == [];
    assert StepOverdue(si, 4);
    assert CountWhere(db.instances, (x: StepInstance) => StepOverdue(x, 4)) == 1;
    var r := OverdueSteps(db, 4);
    assert multiset(r) == multiset{} by {
      forall x ensures multiset(r)[x] == 0 {
        if x != si {
          assert multiset(db.instances)[x] == 0;
        }
      }
    }
    assert |r| == |multiset(r)| == 0;
  }

  /** Counting `p` never exceeds counting a property `q` that `p` implies. */
  lemma {:induction false} CountWhereImplies<T>(s: seq<T>, p: T -> bool, q: T -> bool)
    requires forall x :: p(x) ==> q(x)
    ensures CountWhere(s, p) <= CountWhere(s, q)
    decreases |s|
  {
    if |s| > 0 {
      CountWhereImplies(s[..|s| - 1], p, q);
    }
  }

  /** A task of `user`: assigned to them and still pending or in progress. */
  predicate IsOpenTaskOf(user: UserId, si: StepInstance) {
    si.assignedTo == Some(user) && si.status in {StepPending, StepInProgress}
  }

  function DueKey(si: StepInstance): int { si.dueDate }

  function NoTie(si: StepInstance): int { 0 }

  /** `my_tasks`: the caller's open step instances, ordered by due date. */
  function MyTasks(db: Db, user: UserId): (r: seq<StepInstance>)
    ensures Sorting.SortedBy(r, DueKey, NoTie)
    ensures multiset(r) == multiset(Filter(db.instances, (si: StepInstance) => IsOpenTaskOf(user, si)))
  {
    Sorting.SortBy(Filter(db.instances, (si: StepInstance) => IsOpenTaskOf(user, si)), DueKey, NoTie)
  }

  /** Only the caller's open tasks are listed, earliest due date first. */
  lemma MyTasksOrdered(db: Db, user: UserId)
    ensures var r := MyTasks(db, user);
            && (forall i :: 0 <= i < |r| ==> IsOpenTaskOf(user, r[i]))
            && (forall i, j :: 0 <= i < j < |r| ==> r[i].dueDate <= r[j].dueDate)
  {
    var r := MyTasks(db, user);
    var open := Filter(db.instances, (si: StepInstance) => IsOpenTaskOf(user, si));
    forall i | 0 <= i < |r| ensures IsOpenTaskOf(user, r[i]) {
      assert r[i] in multiset(open);
    }
    forall i, j | 0 <= i < j < |r| ensures r[i].dueDate <= r[j].dueDate {
      assert Sorting.Before(r[i], r[j], DueKey, NoTie);
    }
  }

  /** Every open task of the caller is listed, as often as it is stored, and no other instance is. */
  lemma MyTasksComplete(db: Db, user: UserId)
    ensures forall x :: multiset(MyTasks(db, user))[x] == if IsOpenTaskOf(user, x) then multiset(db.instances)[x] else 0
  {
    var p := (si: StepInstance) => IsOpenTaskOf(user, si);
    forall x ensures multiset(MyTasks(db, user))[x] == if p(x) then multiset(db.instances)[x] else 0 {
      FilterMultiset(db.instances, p, x);
    }
  }

  /** The order of the step blueprint `sid` (its template position); 0 for a key that is not stored. */
  function StepOrderOf(steps: seq<Step>, sid: StepId): (r: int)
    ensures UniqueStepIds(steps) ==> forall i :: 0 <= i < |steps| && steps[i].id == sid ==> r == steps[i].order
  {
    match IndexWhere(steps, (x: Step) => x.id == sid)
    case None => 0
    case Some(i) => steps[i].order
  }

  /** The sort key of `steps`: a step instance's blueprint order. */
  function BlueprintOrder(steps: seq<Step>): StepInstance -> int {
    (si: StepInstance) => StepOrderOf(steps, si.stepTemplate)
  }

  /** `steps` of journey `jid`: its step instances ordered by their step blueprint's order. */
  function JourneySteps(db: Db, jid: JourneyId): (r: seq<StepInstance>)
    ensures Sorting.SortedBy(r, BlueprintOrder(db.steps), NoTie)
    ensures multiset(r) == multiset(Filter(db.instances, (si: StepInstance) => si.journey == jid))
  {
    Sorting.SortBy(Filter(db.instances, (si: StepInstance) => si.journey == jid), BlueprintOrder(db.steps), NoTie)
  }

  /** The step list holds only the journey's instances, in non-decreasing blueprint order. */
  lemma JourneyStepsOrdered(db: Db, jid: JourneyId)
    ensures var r := JourneySteps(db, jid);
            && (forall i :: 0 <= i < |r| ==> r[i].journey == jid)
            && (forall i, j :: 0 <= i < j < |r| ==>
                  StepOrderOf(db.steps, r[i].stepTemplate) <= StepOrderOf(db.steps, r[j].stepTemplate))
  {
    var r := JourneySteps(db, jid);
    var mine := Filter(db.instances, (si: StepInstance) => si.journey == jid);
    forall i | 0 <= i < |r| ensures r[i].journey == jid {
      assert r[i] in multiset(mine);
    }
    forall i, j | 0 <= i < j < |r|
      ensures StepOrderOf(db.steps, r[i].stepTemplate) <= StepOrderOf(db.steps, r[j].stepTemplate)
    {
      assert Sorting.Before(r[i], r[j], BlueprintOrder(db.steps), NoTie);
    }
  }

  /** A journey's step list holds as many entries as the journey has stored step instances. */
  lemma JourneyStepsCount(db: Db, jid: JourneyId)
    ensures |JourneySteps(db, jid)| == CountWhere(db.instances, (si: StepInstance) => si.journey == jid)
  {
    var r := JourneySteps(db, jid);
    assert |r| == |multiset(r)|;
    var mine := Filter(db.instances, (si: StepInstance) => si.journey == jid);
    assert |mine| == |multiset(mine)|;
  }
}

=== FILE: journeys.dfy ===
/**
 * The journey state machine: starting a journey (copying its template's ordered steps into
 * step instances), completing it, marking one step instance completed with the recount and
 * cascade that follows, and the derived progress and overdue values.
 */
module Journeys {
  import opened Common
  import opened Boarding
  import Sorting

  // ---------------------------------------------------------------------------------------
  // start_journey
  // ---------------------------------------------------------------------------------------

  /** The step instance `start_journey` creates for step `s` of a journey started on `start`. */
  function InstanceFor(jid: JourneyId, s: Step, start: int, startedBy: Option<UserId>): (r: StepInstance)
    ensures r.journey == jid && r.stepTemplate == s.id && r.status == StepPending
    ensures r.dueDate == start + s.dueDaysFromStart && r.assignedTo == s.responsibleParty
    ensures r.completedDate.None? && r.completedBy.None? && r.createdBy == startedBy
  {
    StepInstance(jid, s.id, s.responsibleParty, StepPending, start + s.dueDaysFromStart, None, None, "", startedBy)
  }

  function InstancesFor(jid: JourneyId, steps: seq<Step>, start: int, startedBy: Option<UserId>): (r: seq<StepInstance>)
    ensures |r| == |steps|
    ensures forall i :: 0 <= i < |r| ==> r[i] == InstanceFor(jid, steps[i], start, startedBy)
  {
    seq(|steps|, i requires 0 <= i < |steps| => InstanceFor(jid, steps[i], start, startedBy))
  }

  predicate Startable(db: Db, jid: JourneyId) {
    jid in db.journeys && db.journeys[jid].template in db.templates
  }

  /**
   * `start_journey` on the stored journey `jid`, on day `today`. Returns the new tables and
   * the method's boolean. The journey's template always exists (the foreign key is not
   * nullable), hence the requirement.
   */
  function StartJourney(db: Db, jid: JourneyId, today: int, startedBy: Option<UserId>): (r: (Db, bool))
    requires Startable(db, jid)
    ensures r.1 <==> db.journeys[jid].status == NotStarted
    ensures !r.1 ==> r.0 == db
    ensures r.1 ==> jid in r.0.journeys
    ensures r.1 ==> (
      var j := db.journeys[jid];
      var j' := r.0.journeys[jid];
      var tid := j.template;
      && r.0.journeys == db.journeys[jid := j']
      && r.0.templates == db.templates && r.0.steps == db.steps && r.0.nextId == db.nextId
      && j' == j.(status := InProgress, startDate := Some(today),
                  expectedCompletionDate := Some(today + db.templates[tid].estimatedDurationDays),
                  totalSteps := StepCount(db, tid))
      && |r.0.instances| == |db.instances| + StepCount(db, tid)
      && r.0.instances[..|db.instances|] == db.instances)
  {
    var j := db.journeys[jid];
    if j.status != NotStarted then (db, false)
    else
      var tid := j.template;
      var j' := j.(status := InProgress, startDate := Some(today),
                   expectedCompletionDate := Some(today + db.templates[tid].estimatedDurationDays),
                   totalSteps := StepCount(db, tid));
      var made := InstancesFor(jid, OrderedSteps(db, tid), today, startedBy);
      (db.(journeys := db.journeys[jid := j'], instances := db.instances + made), true)
  }

  /** The step instances the start of `jid` appended. */
  function Created(db: Db, db': Db): seq<StepInstance>
    requires |db.instances| <= |db'.instances|
  {
    db'.instances[|db.instances|..]
  }

  /**
   * The created instances are the pending instances of an arrangement of the template's
   * steps sorted by (order, due_days_from_start): one per step, due `today` plus its
   * due days, assigned to its responsible party.
   */
  lemma StartCreatesSortedInstances(db: Db, jid: JourneyId, today: int, startedBy: Option<UserId>)
    requires Startable(db, jid) && db.journeys[jid].status == NotStarted
    ensures var db' := StartJourney(db, jid, today, startedBy).0;
            var tid := db.journeys[jid].template;
            exists src: seq<Step> ::
              && multiset(src) == multiset(StepsOf(db.steps, tid))
              && Sorting.SortedBy(src, StepOrderKey, StepDueKey)
              && Created(db, db') == InstancesFor(jid, src, today, startedBy)
  {
    var db' := StartJourney(db, jid, today, startedBy).0;
    var tid := db.journeys[jid].template;
    var src := OrderedSteps(db, tid);
    var made := InstancesFor(jid, src, today, startedBy);
    assert db'.instances == db.instances + made;
    assert Created(db, db') == made;
    assert Sorting.SortedBy(src, StepOrderKey, StepDueKey) by {
      forall i, j | 0 <= i < j < |src| ensures Sorting.Before(src[i], src[j], StepOrderKey, StepDueKey) { }
    }
  }

  predicate InstanceOf(jid: JourneyId, sid: StepId, x: StepInstance) {
    x.journey == jid && x.stepTemplate == sid
  }

  /** With distinct step ids, the start creates exactly one instance of each template step. */
  lemma {:induction false} StartCreatesOnePerStep(db: Db, jid: JourneyId, today: int, startedBy: Option<UserId>, s: Step)
    requires Startable(db, jid) && db.journeys[jid].status == NotStarted
    requires UniqueStepIds(db.steps)
    requires s in db.steps && s.template == db.journeys[jid].template
    ensures var db' := StartJourney(db, jid, today, startedBy).0;
            CountWhere(Created(db, db'), (x: StepInstance) => InstanceOf(jid, s.id, x)) == 1
  {
    var db' := StartJourney(db, jid, today, startedBy).0;
    var tid := db.journeys[jid].template;
    var src := OrderedSteps(db, tid);
    var made := InstancesFor(jid, src, today, startedBy);
    assert Created(db, db') == made;
    var p := (x: Step) => x.id == s.id;
    var q := (x: StepInstance) => InstanceOf(jid, s.id, x);
    var f := (x: Step) => InstanceFor(jid, x, today, startedBy);
    CountWhereMapped(src, f, made, p, q);
    CountWherePermutation(src, StepsOf(db.steps, tid), p);
    OneStepWithId(db.steps, tid, s);
  }

  /** Among the steps of a template with distinct ids, exactly one carries the id of `s`. */
  lemma OneStepWithId(steps: seq<Step>, tid: TemplateId, s: Step)
    requires UniqueStepIds(steps)
    requires s in steps && s.template == tid
    ensures CountWhere(StepsOf(steps, tid), (x: Step) => x.id == s.id) == 1
  {
    var both := (x: Step) => x.template == tid && x.id == s.id;
    CountWhereFilter(steps, (x: Step) => x.template == tid, (x: Step) => x.id == s.id, both);
    var k :| 0 <= k < |steps| && steps[k] == s;
    forall i | 0 <= i < |steps| && i != k ensures !both(steps[i]) {
      if i < k { assert steps[i].id != steps[k].id; } else { assert steps[k].id != steps[i].id; }
    }
    CountWhereOne(steps, both, k);
  }

  /** A second start of the same journey is refused and changes nothing. */
  lemma StartTwiceIsRefused(db: Db, jid: JourneyId, d1: int, d2: int, actor: Option<UserId>)
    requires Startable(db, jid)
    ensures var db1 := StartJourney(db, jid, d1, actor).0;
            Startable(db1, jid) && StartJourney(db1, jid, d2, actor) == (db1, false)
  {
  }

  /**
   * Only the status guard prevents duplicate step instances: nothing in the schema forbids
   * two instances of one step in one journey, so a journey whose status is set back to
   * not-started (the update endpoint accepts any status) and started again holds two
   * instances of each of its steps.
   */
  lemma RestartDuplicatesInstances(db: Db, jid: JourneyId, s: Step, d1: int, d2: int)
    requires Startable(db, jid) && db.journeys[jid].status == NotStarted
    requires UniqueStepIds(db.steps)
    requires s in db.steps && s.template == db.journeys[jid].template
    requires CountWhere(db.instances, (x: StepInstance) => InstanceOf(jid, s.id, x)) == 0
    ensures var db1 := StartJourney(db, jid, d1, None).0;
            var db2 := db1.(journeys := db1.journeys[jid := db1.journeys[jid].(status := NotStarted)]);
            Startable(db2, jid) &&
            CountWhere(StartJourney(db2, jid, d2, None).0.instances, (x: StepInstance) => InstanceOf(jid, s.id, x)) == 2
  {
    var q := (x: StepInstance) => InstanceOf(jid, s.id, x);
    var db1 := StartJourney(db, jid, d1, None).0;
    assert db1.steps == db.steps && db1.templates == db.templates;
    assert jid in db1.journeys && db1.journeys[jid].template == db.journeys[jid].template;
    var db2 := db1.(journeys := db1.journeys[jid := db1.journeys[jid].(status := NotStarted)]);
    assert Startable(db2, jid) && db2.journeys[jid].status == NotStarted;
    var db3 := StartJourney(db2, jid, d2, None).0;
    StartCreatesOnePerStep(db, jid, d1, None, s);
    StartCreatesOnePerStep(db2, jid, d2, None, s);
    assert db1.instances == db.instances + Created(db, db1);
    assert db3.instances == db2.instances + Created(db2, db3);
    CountWhereAppend(db.instances, Created(db, db1), q);
    CountWhereAppend(db2.instances, Created(db2, db3), q);
  }

  // ---------------------------------------------------------------------------------------
  // complete_journey
  // ---------------------------------------------------------------------------------------

  /**
   * `complete_journey` on day `today`: allowed only from in-progress or on-hold; it forces
   * the completed-step counter to the total without looking at any step instance.
   */
  function CompleteJourney(j: Journey, today: int): (r: (Journey, bool))
    ensures r.1 <==> j.status == InProgress || j.status == OnHold
    ensures !r.1 ==> r.0 == j
    ensures r.1 ==> r.0.status == Completed && r.0.actualCompletionDate == Some(today)
                    && r.0.completedSteps == r.0.totalSteps
                    && r.0 == j.(status := r.0.status, actualCompletionDate := r.0.actualCompletionDate,
                                 completedSteps := j.totalSteps)
  {
    if j.status != InProgress && j.status != OnHold then (j, false)
    else (j.(status := Completed, actualCompletionDate := Some(today), completedSteps := j.totalSteps), true)
  }

  /** Completing is a one-way transition: a completed journey cannot be completed again. */
  lemma CompleteIsFinal(j: Journey, d1: int, d2: int)
    requires CompleteJourney(j, d1).1
    ensures CompleteJourney(CompleteJourney(j, d1).0, d2) == (CompleteJourney(j, d1).0, false)
    ensures !JourneyOverdue(CompleteJourney(j, d1).0, d2)
  {
  }

  /** After a successful completion the progress is exactly 100 (or 0 for a journey without steps). */
  lemma CompletedJourneyProgress(j: Journey, today: int)
    requires CompleteJourney(j, today).1
    ensures var p := ProgressPercentage(CompleteJourney(j, today).0);
            p == if j.totalSteps == 0 then 0.0 else 100.0
  {
  }

  // ---------------------------------------------------------------------------------------
  // mark_completed
  // ---------------------------------------------------------------------------------------

  /**
   * What `mark_completed` returns: `False` (refused), `True` (the recount reached the total
   * and completion was attempted), or nothing at all (Python's `None`) when the step was saved
   * but the journey is not yet complete; callers test the value for truth, so `Saved` reads
   * as a failure.
   */
  datatype MarkResult = Refused | Finished | Saved {
    predicate Truthy() { this == Finished }
  }

  predicate IsCompletedOf(jid: JourneyId, x: StepInstance) {
    x.journey == jid && x.status == StepCompleted
  }

  /** `journey.step_instances.filter(status='completed').count()`. */
  function CompletedCount(instances: seq<StepInstance>, jid: JourneyId): nat {
    CountWhere(instances, (x: StepInstance) => IsCompletedOf(jid, x))
  }

  predicate Markable(db: Db, idx: nat) {
    idx < |db.instances| && db.instances[idx].journey in db.journeys
  }

  /**
   * `mark_completed` on the step instance stored at position `idx`, on day `today`.
   * The instance's journey always exists (cascading foreign key), hence the requirement.
   */
  function MarkCompleted(db: Db, idx: nat, today: int, actor: Option<UserId>, notes: string): (r: (Db, MarkResult))
    requires Markable(db, idx)
    ensures r.1 == Refused <==> db.instances[idx].status == StepCompleted
    ensures r.1 == Refused ==> r.0 == db
    ensures r.1 != Refused ==> (
      var si := db.instances[idx];
      var jid := si.journey;
      var j := db.journeys[jid];
      var n := CompletedCount(r.0.instances, jid);
      && r.0.instances == db.instances[idx := si.(status := StepCompleted, completedDate := Some(today),
                                                  completedBy := actor, completionNotes := notes)]
      && r.0.templates == db.templates && r.0.steps == db.steps && r.0.nextId == db.nextId
      && jid in r.0.journeys && r.0.journeys == db.journeys[jid := r.0.journeys[jid]]
      && (r.1 == Finished <==> n >= j.totalSteps)
      && (r.1 == Saved ==> r.0.journeys[jid] == j.(completedSteps := n))
      && (r.1 == Finished ==> r.0.journeys[jid] == CompleteJourney(j.(completedSteps := n), today).0))
  {
    var si := db.instances[idx];
    if si.status == StepCompleted then (db, Refused)
    else
      var jid := si.journey;
      var instances' := db.instances[idx := si.(status := StepCompleted, completedDate := Some(today),
                                                completedBy := actor, completionNotes := notes)];
      var j := db.journeys[jid].(completedSteps := CompletedCount(instances', jid));
      if j.completedSteps >= j.totalSteps then
        var done := CompleteJourney(j, today).0;
        (db.(instances := instances', journeys := db.journeys[jid := done]), Finished)
      else
        (db.(instances := instances', journeys := db.journeys[jid := j]), Saved)
  }

  /** Marking a step completed raises the journey's completed-sibling count by exactly one. */
  lemma MarkCompletedCountsOneMore(db: Db, idx: nat, today: int, actor: Option<UserId>, notes: string)
    requires Markable(db, idx) && db.instances[idx].status != StepCompleted
    ensures var jid := db.instances[idx].journey;
            CompletedCount(MarkCompleted(db, idx, today, actor, notes).0.instances, jid)
              == CompletedCount(db.instances, jid) + 1
  {
    var si := db.instances[idx];
    var jid := si.journey;
    var x := si.(status := StepCompleted, completedDate := Some(today), completedBy := actor, completionNotes := notes);
    CountWhereUpdate(db.instances, idx, x, (y: StepInstance) => IsCompletedOf(jid, y));
  }

  /**
   * The cascade ignores the result of `complete_journey`: a cancelled journey whose last step
   * is marked completed stays cancelled, yet `mark_completed` reports `True`.
   */
  lemma FinishedDoesNotMeanCompleted()
    ensures exists db: Db, idx: nat ::
      Markable(db, idx) &&
      var r := MarkCompleted(db, idx, 0, None, "");
      r.1 == Finished && r.0.journeys[db.instances[idx].journey].status == Cancelled
  {
    var j := Journey(0, 9, Cancelled, Some(0), Some(5), None, 1, 0, "", 0);
    var si := StepInstance(3, 5, None, StepPending, 2, None, None, "", None);
    var db := Db(map[], [], map[3 := j], [si], 6);
    var r := MarkCompleted(db, 0, 0, None, "");
    assert r.0.instances == [si.(status := StepCompleted, completedDate := Some(0))];
    assert r.0.instances[..0] == [];
    assert CompletedCount(r.0.instances, 3) == 1;
  }

  /**
   * A step completed while others in the journey are still open is saved, but the method
   * returns nothing, which its caller reads as a failure.
   */
  lemma SavedStepIsReportedFalsy()
    ensures exists db: Db, idx: nat ::
      Markable(db, idx) &&
      var r := MarkCompleted(db, idx, 0, None, "");
      r.1 == Saved && !r.1.Truthy() && r.0.instances[idx].status == StepCompleted
  {
    var j := Journey(0, 9, InProgress, Some(0), Some(5), None, 2, 0, "", 0);
    var a := StepInstance(3, 5, None, StepPending, 2, None, None, "", None);
    var b := StepInstance(3, 6, None, StepPending, 4, None, None, "", None);
    var db := Db(map[], [], map[3 := j], [a, b], 7);
    var r := MarkCompleted(db, 0, 0, None, "");
    assert r.0.instances == [a.(status := StepCompleted, completedDate := Some(0)), b];
    var a' := a.(status := StepCompleted, completedDate := Some(0));
    assert r.0.instances[..1] == [a'];
    assert [a'][..0] == [];
    assert CompletedCount([a'], 3) == 1;
    assert CompletedCount(r.0.instances, 3) == 1;
  }

  // ---------------------------------------------------------------------------------------
  // progress_percentage / is_overdue
  // ---------------------------------------------------------------------------------------

  /** `progress_percentage`, as the exact ratio (the one-decimal rounding is not modelled). */
  function ProgressPercentage(j: Journey): (r: real)
    ensures j.totalSteps == 0 ==> r == 0.0
    ensures j.totalSteps > 0 ==> r * j.totalSteps as real == j.completedSteps as real * 100.0
  {
    if j.totalSteps == 0 then 0.0 else (j.completedSteps as real / j.totalSteps as real) * 100.0
  }

  /** Progress stays within 0..100 while the counter does not exceed the total, and is 100 exactly at the total. */
  lemma ProgressBounds(j: Journey)
    requires j.totalSteps > 0 && j.completedSteps <= j.totalSteps
    ensures 0.0 <= ProgressPercentage(j) <= 100.0
    ensures ProgressPercentage(j) == 100.0 <==> j.completedSteps == j.totalSteps
  {
    var p := ProgressPercentage(j);
    var t := j.totalSteps as real;
    assert p * t == j.completedSteps as real * 100.0;
    if p == 100.0 {
      assert 100.0 * t == j.completedSteps as real * 100.0;
    }
  }

  /** Journey `is_overdue`: never without an expected date or once completed; cancelled and on-hold journeys can be overdue. */
  predicate JourneyOverdue(j: Journey, today: int) {
    j.expectedCompletionDate.Some? && j.status != Completed && today > j.expectedCompletionDate.value
  }

  /** Step instance `is_overdue`: never once completed; skipped and blocked steps can be overdue. */
  predicate StepOverdue(si: StepInstance, today: int) {
    si.status != StepCompleted && today > si.dueDate
  }

  /** Right after a start on `today`, no created step is overdue on that day. */
  lemma FreshInstancesNotOverdue(db: Db, jid: JourneyId, today: int, actor: Option<UserId>)
    requires Startable(db, jid) && db.journeys[jid].status == NotStarted
    ensures var db' := StartJourney(db, jid, today, actor).0;
            forall i :: |db.instances| <= i < |db'.instances| ==> !StepOverdue(db'.instances[i], today)
  {
    var db' := StartJourney(db, jid, today, actor).0;
    var src := OrderedSteps(db, db.journeys[jid].template);
    assert db'.instances == db.instances + InstancesFor(jid, src, today, actor);
  }
}

=== FILE: password_gen.dfy ===
/**
 * `generate_strong_password`: one lowercase letter, one uppercase letter, one digit and one
 * symbol, padded with characters from all four sets up to the requested length, then
 * shuffled. The randomness of `secrets` is an arbitrary oracle: `draw(k)` is the k-th
 * number drawn, and `choice(s)` takes `s[draw(k) % |s|]`.
 */
module PasswordGen {
  import opened Text

  const Lowercase: string := "abcdefghijklmnopqrstuvwxyz"
  const Uppercase: string := "ABCDEFGHIJKLMNOPQRSTUVWXYZ"
  const Digits: string := "0123456789"
  const Symbols: string := "!@#$%^&*"
  const AllChars: string := Lowercase + Uppercase + Digits + Symbols

  /** The k-th number drawn from the random source. */
  type Oracle = nat -> nat

  /** `secrets.choice`. */
  function Choice(s: string, d: nat): (c: char)
    requires |s| > 0
    ensures c in s
  {
    s[d % |s|]
  }

  function Max(a: int, b: int): int {
    if a < b then b else a
  }

  /** Each alphabet is exactly its ASCII range. */
  lemma LowercaseIsAsciiLower(c: char)
    ensures c in Lowercase <==> IsAsciiLower(c)
  {
    if IsAsciiLower(c) {
      assert Lowercase[c as int - 'a' as int] == c;
    }
  }

  lemma UppercaseIsAsciiUpper(c: char)
    ensures c in Uppercase <==> IsAsciiUpper(c)
  {
    if IsAsciiUpper(c) {
      assert Uppercase[c as int - 'A' as int] == c;
    }
  }

  lemma DigitsAreDigits(c: char)
    ensures c in Digits <==> IsDigit(c)
  {
    if IsDigit(c) {
      assert Digits[c as int - '0' as int] == c;
    }
  }

  /** The full alphabet is the union of the four sets. */
  lemma AllCharsIsTheUnion(c: char)
    ensures c in AllChars <==> c in Lowercase || c in Uppercase || c in Digits || c in Symbols
  {
  }

  /** The characters before the shuffle: one of each class first, then the padding. */
  function Picks(length: int, draw: Oracle): (r: string)
    ensures |r| == Max(length, 4)
    ensures r[0] in Lowercase && r[1] in Uppercase && r[2] in Digits && r[3] in Symbols
    ensures forall i :: 0 <= i < |r| ==> r[i] in AllChars
  {
    var head := [Choice(Lowercase, draw(0)), Choice(Uppercase, draw(1)), Choice(Digits, draw(2)), Choice(Symbols, draw(3))];
    var pad := seq(Max(length, 4) - 4, i requires 0 <= i => Choice(AllChars, draw(4 + i)));
    var r := head + pad;
    assert forall i :: 0 <= i < 4 ==> r[i] in AllChars by {
      AllCharsIsTheUnion(head[0]);
      AllCharsIsTheUnion(head[1]);
      AllCharsIsTheUnion(head[2]);
      AllCharsIsTheUnion(head[3]);
    }
    assert forall i :: 4 <= i < |r| ==> r[i] in AllChars by {
      forall i | 4 <= i < |r| ensures r[i] in AllChars {
        assert r[i] == pad[i - 4] == Choice(AllChars, draw(i));
      }
    }
    r
  }

  /** The number of draws the picks use; the shuffle draws after them. */
  function PickDraws(length: int): nat {
    Max(length, 4)
  }

  /** Swapping two positions keeps the characters. */
  lemma SwapKeepsMultiset(s: string, i: nat, j: nat)
    requires i < |s| && j < |s|
    ensures multiset(s[i := s[j]][j := s[i]]) == multiset(s)
  {
    var t := s[i := s[j]];
    assert multiset(t) == multiset(s) - multiset{s[i]} + multiset{s[j]};
    assert multiset(t[j := s[i]]) == multiset(t) - multiset{t[j]} + multiset{s[i]};
  }

  /**
   * `SystemRandom().shuffle`: from the last position down to the second, swap position `i`
   * with a drawn position `j <= i`. The draws start at `offset`.
   */
  method Shuffle(xs: string, draw: Oracle, offset: nat) returns (ys: string)
    ensures |ys| == |xs|
    ensures multiset(ys) == multiset(xs)
  {
    ys := xs;
    var i := |ys| - 1;
    var k := offset;
    while i >= 1
      invariant |ys| == |xs| && i < |ys|
      invariant multiset(ys) == multiset(xs)
      decreases i
    {
      var j := draw(k) % (i + 1);
      SwapKeepsMultiset(ys, i, j);
      ys := ys[i := ys[j]][j := ys[i]];
      i := i - 1;
      k := k + 1;
    }
  }

  predicate HasOneOf(pw: string, cls: string) {
    exists i :: 0 <= i < |pw| && pw[i] in cls
  }

  /**
   * `generate_strong_password(length)`: `max(length, 4)` characters, every one from the
   * four sets, at least one from each, and exactly the picked characters in some order.
   */
  method GenerateStrongPassword(length: int, draw: Oracle) returns (pw: string)
    ensures |pw| == Max(length, 4)
    ensures multiset(pw) == multiset(Picks(length, draw))
    ensures forall i :: 0 <= i < |pw| ==> pw[i] in AllChars
    ensures HasOneOf(pw, Lowercase) && HasOneOf(pw, Uppercase) && HasOneOf(pw, Digits) && HasOneOf(pw, Symbols)
  {
    var picked := Picks(length, draw);
    pw := Shuffle(picked, draw, PickDraws(length));
    forall i | 0 <= i < |pw| ensures pw[i] in AllChars {
      assert pw[i] in multiset(picked);
    }
    ShuffledKeepsClass(picked, pw, 0, Lowercase);
    ShuffledKeepsClass(picked, pw, 1, Uppercase);
    ShuffledKeepsClass(picked, pw, 2, Digits);
    ShuffledKeepsClass(picked, pw, 3, Symbols);
  }

  /** A character of some class before the shuffle is still there after it. */
  lemma ShuffledKeepsClass(before: string, after: string, k: nat, cls: string)
    requires multiset(after) == multiset(before) && k < |before| && before[k] in cls
    ensures HasOneOf(after, cls)
  {
    assert before[k] in multiset(after);
    var i :| 0 <= i < |after| && after[i] == before[k];
  }

  /** Every class of the generated password is one of the ASCII ranges or the symbols. */
  lemma GeneratedCharsAreAsciiClasses(pw: string, i: nat)
    requires i < |pw| && forall j :: 0 <= j < |pw| ==> pw[j] in AllChars
    ensures IsAsciiLower(pw[i]) || IsAsciiUpper(pw[i]) || IsDigit(pw[i]) || pw[i] in Symbols
  {
    AllCharsIsTheUnion(pw[i]);
    LowercaseIsAsciiLower(pw[i]);
    UppercaseIsAsciiUpper(pw[i]);
    DigitsAreDigits(pw[i]);
  }

  /**
   * The temporary password of the e-mail reset request: twelve characters, each chosen from
   * the ASCII letters (lowercase, then uppercase), the digits and the same symbols, which is
   * the same alphabet.
   */
  function TemporaryPassword(draw: Oracle): (r: string)
    ensures |r| == 12
    ensures forall i :: 0 <= i < |r| ==> r[i] in AllChars
    ensures forall i :: 0 <= i < |r| ==> IsAsciiLower(r[i]) || IsAsciiUpper(r[i]) || IsDigit(r[i]) || r[i] in Symbols
  {
    var r := seq(12, i requires 0 <= i < 12 => Choice(AllChars, draw(i)));
    assert forall i :: 0 <= i < |r| ==> r[i] in AllChars by {
      forall i | 0 <= i < |r| ensures r[i] in AllChars {
        assert r[i] == Choice(AllChars, draw(i));
      }
    }
    forall i | 0 <= i < |r| ensures IsAsciiLower(r[i]) || IsAsciiUpper(r[i]) || IsDigit(r[i]) || r[i] in Symbols {
      GeneratedCharsAreAsciiClasses(r, i);
    }
    r
  }
}

=== FILE: permission_api.dfy ===
/**
 * The role and permission endpoints: assigning a permission to a role (an upsert of the
 * role-permission row), removing it, deleting a role, the default role, and the permission
 * listing grouped by category.
 */
module RbacApi {
  import opened Common
  import opened Text
  import opened Sorting
  import opened Rbac

  // ---------------------------------------------------------------------------------------
  // assign_permission
  // ---------------------------------------------------------------------------------------

  /** The body of an assign request; absent fields take the serializer's defaults. */
  datatype AssignRequest = AssignRequest(permissionId: Option<PermId>, isGranted: Option<bool>, constraints: Option<Json>)

  /** The outcome of `assign_permission`. */
  datatype AssignReply =
    | Assigned        // 200, "Permission assigned successfully."
    | Updated         // 200, "Permission updated successfully."
    | Invalid         // 400, the serializer's errors
    | RoleNotFound    // 404
    | ServerError     // 500, an exception escaped the view

  /** The permission key is present and names a stored, active permission. */
  predicate ValidPermissionRef(db: Rbac, pid: Option<PermId>) {
    pid.Some? && PermIndex(db.perms, pid.value).Some? && db.perms[PermIndex(db.perms, pid.value).value].isActive
  }

  /** `is_granted` defaults to true, `constraints` to the empty object. */
  function GrantedOf(req: AssignRequest): bool {
    if req.isGranted.Some? then req.isGranted.value else true
  }

  function ConstraintsOf(req: AssignRequest): Json {
    if req.constraints.Some? then req.constraints.value else map[]
  }

  /** The stored row for (role, permission), if any. */
  function RowIndex(grants: seq<Grant>, rid: RoleId, pid: PermId): (r: Option<nat>)
    ensures r.Some? ==> r.value < |grants| && IsRowOf(rid, pid, grants[r.value])
    ensures r.None? <==> RowCount(grants, rid, pid) == 0
  {
    IndexWhere(grants, (g: Grant) => IsRowOf(rid, pid, g))
  }

  /**
   * `assign_permission` as written: `update_or_create` with defaults that include a
   * `created_by` entry, which is not a field of the role-permission row. The update path
   * sets it as a plain attribute and saves the real fields; the create path builds the row
   * from the defaults and fails with a field error, so no row is created and the request
   * ends in a server error.
   */
  function AssignPermissionAsWritten(db: Rbac, rid: RoleId, req: AssignRequest): (r: (Rbac, AssignReply))
    ensures r.1 == RoleNotFound <==> rid !in db.roles
    ensures rid in db.roles ==> (r.1 == Invalid <==> !ValidPermissionRef(db, req.permissionId))
    ensures r.1 != Updated ==> r.0 == db
    ensures r.1 == Updated ==> req.permissionId.Some? && RowIndex(db.grants, rid, req.permissionId.value).Some?
                               && r.0.grants == db.grants[RowIndex(db.grants, rid, req.permissionId.value).value
                                                := Grant(rid, req.permissionId.value, GrantedOf(req), ConstraintsOf(req))]
  {
    if rid !in db.roles then (db, RoleNotFound)
    else if !ValidPermissionRef(db, req.permissionId) then (db, Invalid)
    else
      var pid := req.permissionId.value;
      match RowIndex(db.grants, rid, pid)
      case Some(k) => (db.(grants := db.grants[k := Grant(rid, pid, GrantedOf(req), ConstraintsOf(req))]), Updated)
      case None => (db, ServerError)
  }

  /** As written, a permission can never be newly assigned: a first assignment is a server error and stores nothing. */
  lemma AsWrittenNeverAssigns(db: Rbac, rid: RoleId, req: AssignRequest)
    ensures AssignPermissionAsWritten(db, rid, req).1 != Assigned
    ensures rid in db.roles && ValidPermissionRef(db, req.permissionId)
            && RowCount(db.grants, rid, req.permissionId.value) == 0
            ==> AssignPermissionAsWritten(db, rid, req) == (db, ServerError)
  {
  }

  /** A concrete first assignment: the role exists, the permission is active, and the reply is a server error. */
  lemma AsWrittenFirstAssignmentFails()
    ensures exists db: Rbac, rid: RoleId, req: AssignRequest ::
              rid in db.roles && ValidPermissionRef(db, req.permissionId)
              && AssignPermissionAsWritten(db, rid, req).1 == ServerError
  {
    var p := Permission(7, "Can View Users", "view_users", "", "user_management", "view", true);
    var role := Role("staff", "Staff Member", "", 4, true, true, false);
    var db := Rbac([p], map[1 := role], [], 8);
    var req := AssignRequest(Some(7), None, None);
    assert PermIndex(db.perms, 7) == Some(0);
    assert ValidPermissionRef(db, req.permissionId);
    assert AssignPermissionAsWritten(db, 1, req).1 == ServerError;
  }

  /**
   * `assign_permission` as evidently intended: the upsert without the stray `created_by`
   * default. An existing row is updated in place, otherwise a new row is appended.
   */
  function AssignPermission(db: Rbac, rid: RoleId, req: AssignRequest): (r: (Rbac, AssignReply))
    ensures r.1 == RoleNotFound <==> rid !in db.roles
    ensures rid in db.roles ==> (r.1 == Invalid <==> !ValidPermissionRef(db, req.permissionId))
    ensures r.1 in {Assigned, Updated} <==> rid in db.roles && ValidPermissionRef(db, req.permissionId)
    ensures r.1 !in {Assigned, Updated} ==> r.0 == db
    ensures r.1 in {Assigned, Updated} ==>
              (r.1 == Assigned <==> RowCount(db.grants, rid, req.permissionId.value) == 0)
    ensures r.0.perms == db.perms && r.0.roles == db.roles && r.0.nextId == db.nextId
  {
    if rid !in db.roles then (db, RoleNotFound)
    else if !ValidPermissionRef(db, req.permissionId) then (db, Invalid)
    else
      var pid := req.permissionId.value;
      var row := Grant(rid, pid, GrantedOf(req), ConstraintsOf(req));
      match RowIndex(db.grants, rid, pid)
      case Some(k) => (db.(grants := db.grants[k := row]), Updated)
      case None => (db.(grants := db.grants + [row]), Assigned)
  }

  /**
   * After an assignment the pair has exactly one row, holding the requested grant and
   * constraints; every other row is unchanged; the pairs stay unique.
   */
  lemma AssignPermissionUpserts(db: Rbac, rid: RoleId, req: AssignRequest)
    requires UniqueGrants(db.grants)
    requires AssignPermission(db, rid, req).1 in {Assigned, Updated}
    ensures var g := AssignPermission(db, rid, req).0.grants;
            var pid := req.permissionId.value;
            && UniqueGrants(g)
            && RowCount(g, rid, pid) == 1
            && (exists k :: 0 <= k < |g| && g[k] == Grant(rid, pid, GrantedOf(req), ConstraintsOf(req)))
            && (forall i :: 0 <= i < |db.grants| && !IsRowOf(rid, pid, db.grants[i]) ==> db.grants[i] in g)
  {
    var row := Grant(rid, req.permissionId.value, GrantedOf(req), ConstraintsOf(req));
    match RowIndex(db.grants, rid, req.permissionId.value)
    case Some(k) => UpsertReplaces(db.grants, k, row);
    case None => UpsertAppends(db.grants, row);
  }

  /** Replacing the pair's only row keeps one row for the pair and every other row. */
  lemma UpsertReplaces(grants: seq<Grant>, k: nat, row: Grant)
    requires UniqueGrants(grants) && k < |grants| && IsRowOf(row.role, row.permission, grants[k])
    ensures var g := grants[k := row];
            && UniqueGrants(g)
            && RowCount(g, row.role, row.permission) == 1
            && (forall i :: 0 <= i < |grants| && !IsRowOf(row.role, row.permission, grants[i]) ==> grants[i] in g)
  {
    var g := grants[k := row];
    var p := (x: Grant) => IsRowOf(row.role, row.permission, x);
    forall i | 0 <= i < |g| && i != k ensures !p(g[i]) {
      assert g[i] == grants[i];
    }
    CountWhereOne(g, p, k);
    forall i | 0 <= i < |grants| && !IsRowOf(row.role, row.permission, grants[i]) ensures grants[i] in g {
      assert i != k && g[i] == grants[i];
    }
  }

  /** Appending a row for a pair without one keeps one row for the pair and every other row. */
  lemma UpsertAppends(grants: seq<Grant>, row: Grant)
    requires UniqueGrants(grants) && RowCount(grants, row.role, row.permission) == 0
    ensures var g := grants + [row];
            && UniqueGrants(g)
            && RowCount(g, row.role, row.permission) == 1
            && (forall i :: 0 <= i < |grants| ==> grants[i] in g)
  {
    var g := grants + [row];
    var p := (x: Grant) => IsRowOf(row.role, row.permission, x);
    assert forall i :: 0 <= i < |grants| ==> !p(grants[i]);
    CountWhereOne(g, p, |grants|);
    forall i | 0 <= i < |grants| ensures grants[i] in g {
      assert g[i] == grants[i];
    }
  }

  /** Once assigned, the role has the permission exactly when the request granted it. */
  lemma AssignThenHasPermission(db: Rbac, rid: RoleId, req: AssignRequest)
    requires UniqueGrants(db.grants) && UniquePermIds(db.perms) && UniqueCodenames(db.perms)
    requires AssignPermission(db, rid, req).1 in {Assigned, Updated}
    ensures var db' := AssignPermission(db, rid, req).0;
            var c := CodenameOfPerm(db.perms, req.permissionId.value);
            c.Some? && (HasPermission(db', rid, c.value) <==> GrantedOf(req))
  {
    var db' := AssignPermission(db, rid, req).0;
    var pid := req.permissionId.value;
    AssignPermissionUpserts(db, rid, req);
    var k :| 0 <= k < |db'.grants| && db'.grants[k] == Grant(rid, pid, GrantedOf(req), ConstraintsOf(req));
    HasPermissionFollowsTheRow(db', rid, k);
  }

  // ---------------------------------------------------------------------------------------
  // remove_permission
  // ---------------------------------------------------------------------------------------

  datatype RemoveReply = Removed | MissingPermissionId | RoleMissing | RowNotFound

  /** `remove_permission` with the `permission_id` query parameter (absent or empty is missing). */
  function RemovePermission(db: Rbac, rid: RoleId, pid: Option<PermId>): (r: (Rbac, RemoveReply))
    ensures r.1 == RoleMissing <==> rid !in db.roles
    ensures rid in db.roles ==> (r.1 == MissingPermissionId <==> pid.None?)
    ensures r.1 == RowNotFound <==> rid in db.roles && pid.Some? && RowCount(db.grants, rid, pid.value) == 0
    ensures r.1 != Removed ==> r.0 == db
    ensures r.0.perms == db.perms && r.0.roles == db.roles && r.0.nextId == db.nextId
  {
    if rid !in db.roles then (db, RoleMissing)
    else if pid.None? then (db, MissingPermissionId)
    else
      match RowIndex(db.grants, rid, pid.value)
      case None => (db, RowNotFound)
      case Some(k) => (db.(grants := db.grants[..k] + db.grants[k + 1..]), Removed)
  }

  /** Removing deletes only the pair's row: afterwards it has none, and every other row is kept in order. */
  lemma RemovePermissionDeletesOnlyTheRow(db: Rbac, rid: RoleId, pid: PermId)
    requires UniqueGrants(db.grants)
    requires RemovePermission(db, rid, Some(pid)).1 == Removed
    ensures var g := RemovePermission(db, rid, Some(pid)).0.grants;
            && RowCount(g, rid, pid) == 0
            && |g| == |db.grants| - 1
            && g == Filter(db.grants, (x: Grant) => !IsRowOf(rid, pid, x))
  {
    var k := RowIndex(db.grants, rid, pid).value;
    var keep := (x: Grant) => !IsRowOf(rid, pid, x);
    forall i | 0 <= i < |db.grants| && i != k ensures keep(db.grants[i]) {
      assert i < k || k < i;
    }
    FilterDropsOne(db.grants, keep, k);
  }

  // ---------------------------------------------------------------------------------------
  // destroy / default
  // ---------------------------------------------------------------------------------------

  datatype DestroyReply = Deleted | SystemRoleKept | NoSuchRole

  /** `destroy`: system roles are refused; any other role is deleted with its rows (cascade). */
  function DestroyRole(db: Rbac, rid: RoleId): (r: (Rbac, DestroyReply))
    ensures r.1 == NoSuchRole <==> rid !in db.roles
    ensures r.1 == SystemRoleKept <==> rid in db.roles && db.roles[rid].isSystemRole
    ensures r.1 != Deleted ==> r.0 == db
    ensures r.1 == Deleted ==> r.0.roles == db.roles - {rid} && r.0.perms == db.perms
    ensures forall i :: 0 <= i < |r.0.grants| ==> r.1 == Deleted ==> r.0.grants[i].role != rid
  {
    if rid !in db.roles then (db, NoSuchRole)
    else if db.roles[rid].isSystemRole then (db, SystemRoleKept)
    else (db.(roles := db.roles - {rid}, grants := Filter(db.grants, (g: Grant) => g.role != rid)), Deleted)
  }

  /** Deleting a role keeps every row of the other roles, so their permissions are unchanged. */
  lemma DestroyKeepsOtherRoles(db: Rbac, rid: RoleId, other: RoleId, c: string)
    requires DestroyRole(db, rid).1 == Deleted && other != rid
    ensures HasPermission(DestroyRole(db, rid).0, other, c) <==> HasPermission(db, other, c)
  {
    var g := DestroyRole(db, rid).0.grants;
    if HasPermission(db, other, c) {
      var x :| x in db.grants && x.role == other && x.isGranted && CodenameOfPerm(db.perms, x.permission) == Some(c);
      var k :| 0 <= k < |db.grants| && db.grants[k] == x;
      FilterContains(db.grants, (y: Grant) => y.role != rid, k);
    }
    if HasPermission(DestroyRole(db, rid).0, other, c) {
      var x :| x in g && x.role == other && x.isGranted && CodenameOfPerm(db.perms, x.permission) == Some(c);
      FilterSubset(db.grants, (y: Grant) => y.role != rid, x);
    }
  }

  datatype DefaultReply = DefaultIs(id: RoleId) | NoDefault | SeveralDefaults

  predicate IsActiveDefault(db: Rbac, k: RoleId) {
    k in db.roles && db.roles[k].isDefault && db.roles[k].isActive
  }

  /**
   * `default`: the single active default role, 404 when there is none; the lookup raises
   * (a server error) when several match.
   */
  function DefaultRole(db: Rbac): (r: DefaultReply)
    ensures r.DefaultIs? ==> IsActiveDefault(db, r.id)
                             && forall k :: IsActiveDefault(db, k) ==> k == r.id
    ensures r == NoDefault <==> forall k :: !IsActiveDefault(db, k)
  {
    var ds := set k | k in db.roles && IsActiveDefault(db, k);
    if ds == {} then
      assert forall k :: IsActiveDefault(db, k) ==> k in ds;
      NoDefault
    else
      var d :| d in ds;
      if ds == {d} then
        assert forall k :: IsActiveDefault(db, k) ==> k == d by {
          forall k | IsActiveDefault(db, k) ensures k == d { assert k in ds; }
        }
        DefaultIs(d)
      else SeveralDefaults
  }

  /** With at most one default role the lookup never raises. */
  lemma DefaultRoleUnique(db: Rbac)
    requires AtMostOneDefault(db.roles)
    ensures DefaultRole(db) != SeveralDefaults
  {
    var ds := set k | k in db.roles && IsActiveDefault(db, k);
    if |ds| > 0 {
      var d :| d in ds;
      assert ds == {d};
    }
  }

  // ---------------------------------------------------------------------------------------
  // permission listing / by_category
  // ---------------------------------------------------------------------------------------

  /** The listing filters of the permission endpoint; an absent filter keeps everything. */
  /** `is_active` is kept as the raw query value: any text other than "true" (in any case) selects inactive rows. */
  datatype PermFilter = PermFilter(search: Option<string>, category: Option<string>, level: Option<string>, isActive: Option<string>)

  /** `needle` occurs in `hay`, ignoring ASCII case (`icontains`). */
  predicate ContainsIgnoringCase(hay: string, needle: string) {
    exists i :: 0 <= i <= |hay| && OccursAt(Lower(hay), Lower(needle), i)
  }

  predicate OccursAt(hay: string, needle: string, i: int) {
    0 <= i <= |hay| - |needle| && hay[i..i + |needle|] == needle
  }

  predicate PassesFilter(f: PermFilter, p: Permission) {
    && (f.search.None? || f.search.value == ""
        || ContainsIgnoringCase(p.name, f.search.value) || ContainsIgnoringCase(p.codename, f.search.value)
        || ContainsIgnoringCase(p.description, f.search.value))
    && (f.category.None? || f.category.value == "" || p.category == f.category.value)
    && (f.level.None? || f.level.value == "" || p.level == f.level.value)
    && (f.isActive.None? || p.isActive == (Lower(f.isActive.value) == "true"))
  }

  /** `order_by('category', 'level', 'name')`. */
  function ListingOrder(): (Permission, Permission) -> bool {
    ThenBy(ByText(CategoryOf), ThenBy(ByText(LevelOf), ByText(NameOf)))
  }

  lemma ListingOrderIsTotalPreorder()
    ensures TotalPreorder(ListingOrder())
  {
    ByTextIsTotalPreorder(CategoryOf);
    ByTextIsTotalPreorder(LevelOf);
    ByTextIsTotalPreorder(NameOf);
    ThenByIsTotalPreorder(ByText(LevelOf), ByText(NameOf));
    ThenByIsTotalPreorder(ByText(CategoryOf), ThenBy(ByText(LevelOf), ByText(NameOf)));
  }

  /** `x` may come before `y` in the listing: by category, then level, then name. */
  predicate ListLe(x: Permission, y: Permission) {
    && TextLe(x.category, y.category)
    && (x.category == y.category ==> TextLe(x.level, y.level))
    && (x.category == y.category && x.level == y.level ==> TextLe(x.name, y.name))
  }

  ghost predicate InListingOrder(r: seq<Permission>) {
    forall i, j :: 0 <= i < j < |r| ==> ListLe(r[i], r[j])
  }

  lemma ListingOrderIsListLe(x: Permission, y: Permission)
    requires ListingOrder()(x, y)
    ensures ListLe(x, y)
  {
    ThenByTextOrders3(CategoryOf, LevelOf, NameOf, x, y);
  }

  /**
   * The permission listing: every stored permission that passes the query filters, as
   * often as it is stored, and nothing else, by category, then level, then name.
   */
  function ListPermissions(db: Rbac, f: PermFilter): (r: seq<Permission>)
    ensures forall x :: multiset(r)[x] == if PassesFilter(f, x) then multiset(db.perms)[x] else 0
    ensures InListingOrder(r)
  {
    var pass := (p: Permission) => PassesFilter(f, p);
    ListingOrderIsTotalPreorder();
    var r := SortWith(Filter(db.perms, pass), ListingOrder());
    forall x ensures multiset(r)[x] == if pass(x) then multiset(db.perms)[x] else 0 {
      FilterMultiset(db.perms, pass, x);
    }
    forall i, j | 0 <= i < j < |r| ensures ListLe(r[i], r[j]) {
      ListingOrderIsListLe(r[i], r[j]);
    }
    r
  }

  /** `by_category`: the filtered listing grouped by category. */
  function ByCategory(db: Rbac, f: PermFilter): map<string, seq<Permission>> {
    GroupBy(ListPermissions(db, f), CategoryOf)
  }

  /**
   * Each category of the filtered listing maps to its permissions, by level and then name,
   * no empty category appears, and the groups together hold the whole listing.
   */
  lemma ByCategoryGroups(db: Rbac, f: PermFilter, c: string)
    ensures var m := ByCategory(db, f);
            var l := ListPermissions(db, f);
            && (c in m <==> CountWhere(l, KeyIs(CategoryOf, c)) > 0)
            && (c in m ==> m[c] == Filter(l, KeyIs(CategoryOf, c)) && |m[c]| > 0)
            && (c in m ==> forall i, j :: 0 <= i < j < |m[c]| ==>
                  TextLe(m[c][i].level, m[c][j].level)
                  && (m[c][i].level == m[c][j].level ==> TextLe(m[c][i].name, m[c][j].name)))
            && SizeSum(m) == |l|
  {
    var l := ListPermissions(db, f);
    GroupByFilters(l, CategoryOf, c);
    GroupBySize(l, CategoryOf);
    CategoryGroupOrder(l, c);
  }

  /** Within one category, the listing order is by level, then name. */
  lemma CategoryGroupOrder(l: seq<Permission>, c: string)
    requires InListingOrder(l)
    ensures var group := Filter(l, KeyIs(CategoryOf, c));
            forall i, j :: 0 <= i < j < |group| ==>
              TextLe(group[i].level, group[j].level)
              && (group[i].level == group[j].level ==> TextLe(group[i].name, group[j].name))
  {
    var group := Filter(l, KeyIs(CategoryOf, c));
    FilterKeepsSorted(l, KeyIs(CategoryOf, c), ListLe);
    forall i, j | 0 <= i < j < |group|
      ensures TextLe(group[i].level, group[j].level)
              && (group[i].level == group[j].level ==> TextLe(group[i].name, group[j].name))
    {
      assert ListLe(group[i], group[j]);
      assert KeyIs(CategoryOf, c)(group[i]) && KeyIs(CategoryOf, c)(group[j]);
    }
  }
}

=== FILE: permissions.dfy ===
/**
 * Roles and permissions: the permission catalogue, roles, and the role-permission rows
 * that grant or deny a permission to a role, with the rules their saves enforce and the
 * queries over them (has_permission, permissions by category, permission count).
 */
module Rbac {
  import opened Common
  import opened Text
  import opened Sorting

  type PermId = nat
  type RoleId = nat

  /** A JSON object of extra constraints on a grant. */
  type Json = map<string, string>

  /** A permission of the catalogue; `name` and `codename` are unique. */
  datatype Permission = Permission(
    id: PermId,
    name: string,
    codename: string,
    description: string,
    category: string,
    level: string,
    isActive: bool)

  /** A role; `name` is unique, and at most one role is the default. */
  datatype Role = Role(
    name: string,
    displayName: string,
    description: string,
    level: int,
    isSystemRole: bool,
    isActive: bool,
    isDefault: bool)

  /** A role-permission row: the permission granted or denied to the role, with constraints. */
  datatype Grant = Grant(role: RoleId, permission: PermId, isGranted: bool, constraints: Json)

  /**
   * The tables: permissions and role-permission rows in insertion order, roles by key, and
   * the counter fresh keys are drawn from.
   */
  datatype Rbac = Rbac(perms: seq<Permission>, roles: map<RoleId, Role>, grants: seq<Grant>, nextId: nat)

  // ---------------------------------------------------------------------------------------
  // lookups and invariants
  // ---------------------------------------------------------------------------------------

  /** The position of the permission with key `pid`. */
  function PermIndex(perms: seq<Permission>, pid: PermId): (r: Option<nat>)
    ensures r.Some? ==> r.value < |perms| && perms[r.value].id == pid
    ensures r.None? <==> forall i :: 0 <= i < |perms| ==> perms[i].id != pid
  {
    IndexWhere(perms, (p: Permission) => p.id == pid)
  }

  predicate IsRowOf(rid: RoleId, pid: PermId, g: Grant) {
    g.role == rid && g.permission == pid
  }

  /** The number of rows for the pair (role, permission). */
  function RowCount(grants: seq<Grant>, rid: RoleId, pid: PermId): nat {
    CountWhere(grants, (g: Grant) => IsRowOf(rid, pid, g))
  }

  /** `unique_together = (role, permission)`. */
  ghost predicate UniqueGrants(grants: seq<Grant>) {
    forall i, j :: 0 <= i < j < |grants| ==>
      grants[i].role != grants[j].role || grants[i].permission != grants[j].permission
  }

  ghost predicate UniquePermIds(perms: seq<Permission>) {
    forall i, j :: 0 <= i < j < |perms| ==> perms[i].id != perms[j].id
  }

  ghost predicate UniqueCodenames(perms: seq<Permission>) {
    forall i, j :: 0 <= i < j < |perms| ==> perms[i].codename != perms[j].codename
  }

  ghost predicate UniquePermNames(perms: seq<Permission>) {
    forall i, j :: 0 <= i < j < |perms| ==> perms[i].name != perms[j].name
  }

  /** Every row refers to a stored role and a stored permission (both foreign keys cascade). */
  ghost predicate RowsResolve(db: Rbac) {
    forall i :: 0 <= i < |db.grants| ==>
      db.grants[i].role in db.roles && PermIndex(db.perms, db.grants[i].permission).Some?
  }

  /** Role names are unique (`unique=True`). */
  ghost predicate UniqueRoleNames(roles: map<RoleId, Role>) {
    forall a, b :: a in roles && b in roles && roles[a].name == roles[b].name ==> a == b
  }

  ghost predicate AtMostOneDefault(roles: map<RoleId, Role>) {
    forall a, b :: a in roles && b in roles && roles[a].isDefault && roles[b].isDefault ==> a == b
  }

  // ---------------------------------------------------------------------------------------
  // Permission.save
  // ---------------------------------------------------------------------------------------

  /** The codename generated from a name: lower-cased, spaces turned into underscores. */
  function CodenameOf(name: string): (r: string)
    ensures |r| == |name|
    ensures ' ' !in r
    ensures forall i :: 0 <= i < |r| ==> !IsAsciiUpper(r[i])
  {
    ReplaceChar(Lower(name), ' ', '_')
  }

  /** `Permission.save`: an empty codename is generated from the name, a non-empty one is kept. */
  function FillCodename(p: Permission): (r: Permission)
    ensures p.codename != "" ==> r == p
    ensures p.codename == "" ==> r == p.(codename := CodenameOf(p.name))
  {
    if p.codename == "" then p.(codename := CodenameOf(p.name)) else p
  }

  /**
   * Filling the codename is idempotent, and a permission with a non-empty name always ends
   * up with a non-empty codename that a second save leaves alone.
   */
  lemma FillCodenameIdempotent(p: Permission)
    ensures FillCodename(FillCodename(p)) == FillCodename(p)
    ensures p.name != "" ==> FillCodename(p).codename != ""
    ensures FillCodename(p).name == p.name
  {
  }

  /** A generated codename is a fixed point of the generation itself. */
  lemma {:induction false} CodenameOfIsStable(name: string)
    ensures CodenameOf(CodenameOf(name)) == CodenameOf(name)
  {
    var c := CodenameOf(name);
    forall i | 0 <= i < |c| ensures CodenameOf(c)[i] == c[i] {
      assert LowerChar(c[i]) == c[i];
    }
  }

  datatype PermError = DuplicatePermName | DuplicateCodename

  predicate SamePermNameElsewhere(perms: seq<Permission>, p: Permission) {
    exists i :: 0 <= i < |perms| && perms[i].id != p.id && perms[i].name == p.name
  }

  predicate SameCodenameElsewhere(perms: seq<Permission>, p: Permission) {
    exists i :: 0 <= i < |perms| && perms[i].id != p.id && perms[i].codename == p.codename
  }

  /** Inserts `p`, or replaces the stored permission with the same key. */
  function PutPerm(perms: seq<Permission>, p: Permission): (r: seq<Permission>)
    ensures p in r
  {
    match PermIndex(perms, p.id)
    case Some(i) => assert perms[i := p][i] == p; perms[i := p]
    case None => perms + [p]
  }

  /**
   * Saving a permission: the codename is filled first, then the unique name and codename
   * are enforced against the other stored permissions.
   */
  function SavePermission(db: Rbac, p: Permission): (r: Result<Rbac, PermError>)
    ensures r.Ok? <==> !SamePermNameElsewhere(db.perms, FillCodename(p))
                       && !SameCodenameElsewhere(db.perms, FillCodename(p))
    ensures r.Ok? ==> r.value == db.(perms := PutPerm(db.perms, FillCodename(p)))
  {
    var q := FillCodename(p);
    if SamePermNameElsewhere(db.perms, q) then Err(DuplicatePermName)
    else if SameCodenameElsewhere(db.perms, q) then Err(DuplicateCodename)
    else Ok(db.(perms := PutPerm(db.perms, q)))
  }

  /** A successful save keeps the keys, names and codenames of the catalogue unique, and stores the permission. */
  lemma SavePermissionKeepsUnique(db: Rbac, p: Permission)
    requires UniquePermIds(db.perms) && UniqueCodenames(db.perms) && UniquePermNames(db.perms)
    requires SavePermission(db, p).Ok?
    ensures var perms := SavePermission(db, p).value.perms;
            && UniquePermIds(perms) && UniqueCodenames(perms) && UniquePermNames(perms)
            && exists i :: 0 <= i < |perms| && perms[i] == FillCodename(p)
  {
    var q := FillCodename(p);
    var perms := SavePermission(db, p).value.perms;
    match PermIndex(db.perms, q.id)
    case Some(k) =>
      assert perms == db.perms[k := q];
      assert perms[k] == q;
    case None =>
      assert perms == db.perms + [q];
      assert perms[|db.perms|] == q;
  }

  // ---------------------------------------------------------------------------------------
  // Role.save
  // ---------------------------------------------------------------------------------------

  datatype RoleError = DefaultRoleExists | DuplicateRoleName

  predicate OtherDefaultRole(roles: map<RoleId, Role>, rid: RoleId) {
    exists k :: k in roles && k != rid && roles[k].isDefault
  }

  predicate OtherRoleNamed(roles: map<RoleId, Role>, rid: RoleId, name: string) {
    exists k :: k in roles && k != rid && roles[k].name == name
  }

  /** `Role.save`: `clean` refuses a second default role; the database refuses a duplicate name. */
  function SaveRole(db: Rbac, rid: RoleId, r: Role): (res: Result<Rbac, RoleError>)
    ensures res.Ok? <==> !(r.isDefault && OtherDefaultRole(db.roles, rid)) && !OtherRoleNamed(db.roles, rid, r.name)
    ensures res == Err(DefaultRoleExists) <==> r.isDefault && OtherDefaultRole(db.roles, rid)
    ensures res.Ok? ==> res.value == db.(roles := db.roles[rid := r])
  {
    if r.isDefault && OtherDefaultRole(db.roles, rid) then Err(DefaultRoleExists)
    else if OtherRoleNamed(db.roles, rid, r.name) then Err(DuplicateRoleName)
    else Ok(db.(roles := db.roles[rid := r]))
  }

  /** Role saves keep at most one default role. */
  lemma SaveRoleKeepsOneDefault(db: Rbac, rid: RoleId, r: Role)
    requires AtMostOneDefault(db.roles)
    ensures SaveRole(db, rid, r).Ok? ==> AtMostOneDefault(SaveRole(db, rid, r).value.roles)
  {
  }

  /** The outcome of `Role.objects.get(name=...)`. */
  datatype RoleLookup = NoRoleNamed | RoleFound(key: RoleId) | SeveralRolesNamed

  predicate IsRoleNamed(roles: map<RoleId, Role>, name: string, k: RoleId) {
    k in roles && roles[k].name == name
  }

  /** `Role.objects.get(name=...)`: the single role with that name; none and several are both errors. */
  function RoleByName(roles: map<RoleId, Role>, name: string): (r: RoleLookup)
    ensures r == NoRoleNamed <==> forall k :: !IsRoleNamed(roles, name, k)
    ensures r.RoleFound? ==> IsRoleNamed(roles, name, r.key) && forall k :: IsRoleNamed(roles, name, k) ==> k == r.key
    ensures r == SeveralRolesNamed ==> exists a, b :: IsRoleNamed(roles, name, a) && IsRoleNamed(roles, name, b) && a != b
  {
    var ks := set k | k in roles && IsRoleNamed(roles, name, k);
    if ks == {} then
      assert forall k :: IsRoleNamed(roles, name, k) ==> k in ks;
      NoRoleNamed
    else
      var k :| k in ks;
      if ks == {k} then
        assert forall j :: IsRoleNamed(roles, name, j) ==> j in ks;
        RoleFound(k)
      else
        var j :| j in ks && j != k;
        SeveralRolesNamed
  }

  /** With unique names the lookup never finds several roles. */
  lemma UniqueNamesFindOne(roles: map<RoleId, Role>, name: string)
    requires UniqueRoleNames(roles)
    ensures RoleByName(roles, name) != SeveralRolesNamed
  {
  }

  // ---------------------------------------------------------------------------------------
  // queries
  // ---------------------------------------------------------------------------------------

  /** A granted row of role `rid` whose permission is stored. */
  predicate IsGrantedRowOf(perms: seq<Permission>, rid: RoleId, g: Grant) {
    g.role == rid && g.isGranted && PermIndex(perms, g.permission).Some?
  }

  /** The codename of the permission with key `pid`, if stored. */
  function CodenameOfPerm(perms: seq<Permission>, pid: PermId): Option<string> {
    match PermIndex(perms, pid)
    case None => None
    case Some(i) => Some(perms[i].codename)
  }

  /** The permission with key `pid`, if stored. */
  function PermOf(perms: seq<Permission>, pid: PermId): (r: Option<Permission>)
    ensures r.Some? <==> PermIndex(perms, pid).Some?
    ensures r.Some? ==> r.value in perms && r.value.id == pid
  {
    match PermIndex(perms, pid)
    case None => None
    case Some(i) => Some(perms[i])
  }

  /** The codename lookup is the codename of the looked-up permission. */
  lemma CodenameOfPermOf(perms: seq<Permission>, pid: PermId)
    ensures CodenameOfPerm(perms, pid) == if PermOf(perms, pid).Some? then Some(PermOf(perms, pid).value.codename) else None
  {
  }

  /** `has_permission(codename)`: a row of this role for a permission with that codename, granted. */
  predicate HasPermission(db: Rbac, rid: RoleId, codename: string) {
    exists g :: g in db.grants && g.role == rid && g.isGranted && CodenameOfPerm(db.perms, g.permission) == Some(codename)
  }

  /** With unique rows and codenames, the only row of a permission decides: a denied row means no permission. */
  lemma HasPermissionFollowsTheRow(db: Rbac, rid: RoleId, k: nat)
    requires UniqueGrants(db.grants) && UniquePermIds(db.perms) && UniqueCodenames(db.perms)
    requires k < |db.grants| && db.grants[k].role == rid
    requires CodenameOfPerm(db.perms, db.grants[k].permission).Some?
    ensures HasPermission(db, rid, CodenameOfPerm(db.perms, db.grants[k].permission).value) <==> db.grants[k].isGranted
  {
    var pid := db.grants[k].permission;
    var c := CodenameOfPerm(db.perms, pid).value;
    if HasPermission(db, rid, c) {
      var g :| g in db.grants && g.role == rid && g.isGranted && CodenameOfPerm(db.perms, g.permission) == Some(c);
      var m :| 0 <= m < |db.grants| && db.grants[m] == g;
      var a := PermIndex(db.perms, g.permission).value;
      var b := PermIndex(db.perms, pid).value;
      assert db.perms[a].codename == db.perms[b].codename;
      assert a == b;
      assert g.permission == pid;
      assert m == k;
    }
  }

  /**
   * `RolePermission.objects.get_or_create(role, permission, defaults={'is_granted': True})`:
   * an existing row for the pair is left exactly as it is, otherwise a granted row with no
   * constraints is appended.
   */
  function EnsureRow(grants: seq<Grant>, rid: RoleId, pid: PermId): (r: seq<Grant>)
    ensures grants <= r && RowCount(r, rid, pid) > 0
    ensures forall i :: |grants| <= i < |r| ==> r[i] == Grant(rid, pid, true, map[])
    ensures RowCount(grants, rid, pid) > 0 <==> r == grants
  {
    if RowCount(grants, rid, pid) > 0 then grants
    else
      assert IsRowOf(rid, pid, (grants + [Grant(rid, pid, true, map[])])[|grants|]);
      grants + [Grant(rid, pid, true, map[])]
  }

  /** Ensuring a row keeps the pairs unique and leaves exactly one row for the pair. */
  lemma EnsureRowKeepsUnique(grants: seq<Grant>, rid: RoleId, pid: PermId)
    requires UniqueGrants(grants)
    ensures UniqueGrants(EnsureRow(grants, rid, pid)) && RowCount(EnsureRow(grants, rid, pid), rid, pid) == 1
  {
    var p := (g: Grant) => IsRowOf(rid, pid, g);
    var r := EnsureRow(grants, rid, pid);
    if RowCount(grants, rid, pid) > 0 {
      var k :| 0 <= k < |grants| && p(grants[k]);
      CountWhereOne(grants, p, k);
    } else {
      CountWhereOne(r, p, |grants|);
    }
  }

  /** Row `g` grants permission `p` to role `rid`. */
  predicate GrantsPerm(perms: seq<Permission>, rid: RoleId, g: Grant, p: Permission) {
    g.role == rid && g.isGranted && PermOf(perms, g.permission) == Some(p)
  }

  /** The permission row `g` grants to role `rid`, if any. */
  function RowPerm(perms: seq<Permission>, rid: RoleId, g: Grant): (r: seq<Permission>)
    ensures forall p :: p in r <==> GrantsPerm(perms, rid, g, p)
    ensures |r| <= 1
  {
    match PermOf(perms, g.permission)
    case Some(p) => if g.role == rid && g.isGranted then [p] else []
    case None => []
  }

  /** The permissions the role's granted rows point at, in row order. */
  function GrantedPerms(perms: seq<Permission>, grants: seq<Grant>, rid: RoleId): (r: seq<Permission>)
    ensures |r| == CountWhere(grants, (g: Grant) => IsGrantedRowOf(perms, rid, g))
    decreases |grants|
  {
    if |grants| == 0 then []
    else
      var g := grants[|grants| - 1];
      GrantedPerms(perms, grants[..|grants| - 1], rid) + RowPerm(perms, rid, g)
  }

  /** A permission is among the role's granted permissions exactly when a granted row of the role points at it. */
  lemma {:induction false} GrantedPermsLists(perms: seq<Permission>, grants: seq<Grant>, rid: RoleId, p: Permission)
    ensures p in GrantedPerms(perms, grants, rid) <==> exists g :: g in grants && GrantsPerm(perms, rid, g, p)
    decreases |grants|
  {
    if |grants| > 0 {
      var init := grants[..|grants| - 1];
      var last := grants[|grants| - 1];
      assert grants == init + [last];
      GrantedPermsLists(perms, init, rid, p);
      assert GrantedPerms(perms, grants, rid) == GrantedPerms(perms, init, rid) + RowPerm(perms, rid, last);
      if exists g :: g in grants && GrantsPerm(perms, rid, g, p) {
        var g :| g in grants && GrantsPerm(perms, rid, g, p);
        if g != last {
          assert g in init;
        }
      }
      if exists g :: g in init && GrantsPerm(perms, rid, g, p) {
        var g :| g in init && GrantsPerm(perms, rid, g, p);
        assert g in grants;
      }
    }
  }

  function CategoryOf(p: Permission): string { p.category }

  function NameOf(p: Permission): string { p.name }

  function LevelOf(p: Permission): string { p.level }

  /**
   * The order of a role's rows, `ordering = ['role__name', 'permission__category',
   * 'permission__name']`: within one role, by the permission's category, then its name.
   */
  function RoleRowOrder(): (Permission, Permission) -> bool {
    ThenBy(ByText(CategoryOf), ByText(NameOf))
  }

  lemma RoleRowOrderIsTotalPreorder()
    ensures TotalPreorder(RoleRowOrder())
  {
    ByTextIsTotalPreorder(CategoryOf);
    ByTextIsTotalPreorder(NameOf);
    ThenByIsTotalPreorder(ByText(CategoryOf), ByText(NameOf));
  }

  /** `x` may come before `y` among one role's rows: an earlier category, or the same one and an earlier name. */
  predicate RowLe(x: Permission, y: Permission) {
    TextLe(x.category, y.category) && (x.category == y.category ==> TextLe(x.name, y.name))
  }

  ghost predicate InRowOrder(r: seq<Permission>) {
    forall i, j :: 0 <= i < j < |r| ==> RowLe(r[i], r[j])
  }

  /**
   * `rolepermission_set.filter(is_granted=True)` resolved to permissions: the role's
   * granted permissions in the rows' default order.
   */
  function RolePerms(perms: seq<Permission>, grants: seq<Grant>, rid: RoleId): (r: seq<Permission>)
    ensures InRowOrder(r)
    ensures multiset(r) == multiset(GrantedPerms(perms, grants, rid))
  {
    RoleRowOrderIsTotalPreorder();
    var r := SortWith(GrantedPerms(perms, grants, rid), RoleRowOrder());
    forall i, j | 0 <= i < j < |r| ensures RowLe(r[i], r[j]) {
      ThenByTextOrders(CategoryOf, NameOf, r[i], r[j]);
    }
    r
  }

  /** The role's permissions are exactly those a granted row of the role points at. */
  lemma RolePermsListsGrants(perms: seq<Permission>, grants: seq<Grant>, rid: RoleId, p: Permission)
    ensures p in RolePerms(perms, grants, rid) <==> exists g :: g in grants && GrantsPerm(perms, rid, g, p)
  {
    var r := RolePerms(perms, grants, rid);
    assert p in r <==> p in multiset(r);
    assert p in GrantedPerms(perms, grants, rid) <==> p in multiset(GrantedPerms(perms, grants, rid));
    GrantedPermsLists(perms, grants, rid, p);
  }

  /** The role has a codename exactly when one of its listed permissions carries it. */
  lemma HasPermissionIsListed(db: Rbac, rid: RoleId, c: string)
    ensures HasPermission(db, rid, c) <==> exists p :: p in RolePerms(db.perms, db.grants, rid) && p.codename == c
  {
    if HasPermission(db, rid, c) {
      var g :| g in db.grants && g.role == rid && g.isGranted && CodenameOfPerm(db.perms, g.permission) == Some(c);
      CodenameOfPermOf(db.perms, g.permission);
      var p := PermOf(db.perms, g.permission).value;
      RolePermsListsGrants(db.perms, db.grants, rid, p);
    }
    if exists p :: p in RolePerms(db.perms, db.grants, rid) && p.codename == c {
      var p :| p in RolePerms(db.perms, db.grants, rid) && p.codename == c;
      RolePermsListsGrants(db.perms, db.grants, rid, p);
      var g :| g in db.grants && GrantsPerm(db.perms, rid, g, p);
      CodenameOfPermOf(db.perms, g.permission);
    }
  }

  /** `get_permissions_by_category`: the role's granted permissions, grouped by category. */
  function PermissionsByCategory(db: Rbac, rid: RoleId): (r: map<string, seq<Permission>>)
    ensures forall c :: c in r ==> |r[c]| > 0 && forall i :: 0 <= i < |r[c]| ==> r[c][i].category == c
  {
    var l := RolePerms(db.perms, db.grants, rid);
    var r := GroupBy(l, CategoryOf);
    forall c | c in r ensures |r[c]| > 0 && forall i :: 0 <= i < |r[c]| ==> r[c][i].category == c {
      GroupByHoldsKey(l, CategoryOf, c);
    }
    r
  }

  /** `permission_count`: the number of granted rows of the role. */
  function PermissionCount(db: Rbac, rid: RoleId): (n: nat)
    ensures n <= |db.grants|
    ensures n == 0 <==> forall i :: 0 <= i < |db.grants| ==> !(db.grants[i].role == rid && db.grants[i].isGranted)
  {
    CountWhere(db.grants, (g: Grant) => g.role == rid && g.isGranted)
  }

  /**
   * The grouping holds each granted permission under its own category, ordered by name, has
   * a key only for categories with a granted row, and when every row resolves, holds as many
   * permissions as `permission_count`.
   */
  lemma PermissionsByCategoryGroups(db: Rbac, rid: RoleId, c: string)
    ensures var m := PermissionsByCategory(db, rid);
            var listed := RolePerms(db.perms, db.grants, rid);
            && (c in m <==> CountWhere(listed, KeyIs(CategoryOf, c)) > 0)
            && (c in m ==> m[c] == Filter(listed, KeyIs(CategoryOf, c)))
            && (c in m ==> forall i, j :: 0 <= i < j < |m[c]| ==> TextLe(m[c][i].name, m[c][j].name))
            && SizeSum(m) == |listed|
            && (RowsResolve(db) ==> SizeSum(m) == PermissionCount(db, rid))
  {
    var listed := RolePerms(db.perms, db.grants, rid);
    var m := PermissionsByCategory(db, rid);
    GroupByFilters(listed, CategoryOf, c);
    GroupBySize(listed, CategoryOf);
    if c in m {
      var group := Filter(listed, KeyIs(CategoryOf, c));
      FilterKeepsSorted(listed, KeyIs(CategoryOf, c), RowLe);
      forall i, j | 0 <= i < j < |group| ensures TextLe(group[i].name, group[j].name) {
        assert RowLe(group[i], group[j]);
        assert KeyIs(CategoryOf, c)(group[i]) && KeyIs(CategoryOf, c)(group[j]);
      }
    }
    assert |listed| == |multiset(listed)| == |GrantedPerms(db.perms, db.grants, rid)|;
    if RowsResolve(db) {
      CountSameWhenRowsResolve(db.perms, db.grants, rid);
    }
  }

  /** When every row's permission is stored, counting resolved granted rows is counting granted rows. */
  lemma {:induction false} CountSameWhenRowsResolve(perms: seq<Permission>, grants: seq<Grant>, rid: RoleId)
    requires forall i :: 0 <= i < |grants| ==> PermIndex(perms, grants[i].permission).Some?
    ensures CountWhere(grants, (g: Grant) => IsGrantedRowOf(perms, rid, g))
         == CountWhere(grants, (g: Grant) => g.role == rid && g.isGranted)
    decreases |grants|
  {
    if |grants| > 0 {
      CountSameWhenRowsResolve(perms, grants[..|grants| - 1], rid);
    }
  }

  // ---------------------------------------------------------------------------------------
  // RoleSerializer.validate
  // ---------------------------------------------------------------------------------------

  /** The fields of a role update that the validation looks at, when present in the request. */
  datatype RolePatch = RolePatch(name: Option<string>, isSystemRole: Option<bool>, isDefault: Option<bool>)

  datatype RolePatchError = SystemRoleRenamed | SystemRoleDemoted

  /**
   * `RoleSerializer.validate` on an update of `current`: a system role keeps its name and
   * its system status; other roles are unrestricted. A create has no current role.
   */
  function ValidateRolePatch(current: Option<Role>, p: RolePatch): (r: Result<RolePatch, RolePatchError>)
    ensures r.Ok? ==> r.value == p
    ensures current.None? || !current.value.isSystemRole ==> r.Ok?
    ensures current.Some? && current.value.isSystemRole ==>
              (r.Ok? <==> ApplyRolePatch(current.value, p).name == current.value.name
                          && ApplyRolePatch(current.value, p).isSystemRole)
  {
    if current.Some? && current.value.isSystemRole then
      if p.name.Some? && p.name.value != current.value.name then Err(SystemRoleRenamed)
      else if p.isSystemRole == Some(false) then Err(SystemRoleDemoted)
      else Ok(p)
    else Ok(p)
  }

  function PickOr<T>(o: Option<T>, current: T): T {
    if o.Some? then o.value else current
  }

  /** The role after the validated fields are written. */
  function ApplyRolePatch(role: Role, p: RolePatch): (r: Role)
    ensures r.displayName == role.displayName && r.level == role.level && r.isActive == role.isActive
  {
    role.(name := PickOr(p.name, role.name), isSystemRole := PickOr(p.isSystemRole, role.isSystemRole),
          isDefault := PickOr(p.isDefault, role.isDefault))
  }

  /** Every update the validation accepts leaves a system role a system role with the same name. */
  lemma ValidatedPatchKeepsSystemRole(role: Role, p: RolePatch)
    requires role.isSystemRole && ValidateRolePatch(Some(role), p).Ok?
    ensures ApplyRolePatch(role, p).isSystemRole && ApplyRolePatch(role, p).name == role.name
  {
  }
}

=== FILE: role_setup.dfy ===
/**
 * The `setup_role_permissions` management command: for each configured role it grants
 * either every active permission or the configured codenames that are active. A role that
 * already has rows is skipped unless `--force` is given, in which case its rows are
 * replaced; `--dry-run` reports without writing.
 */
module RoleSetup {
  import opened Common
  import opened Rbac

  /** Which permissions a role receives: all active ones, or the listed codenames that are active. */
  datatype PermSpec = AllActive | Listed(codenames: seq<string>)

  datatype RoleConfig = RoleConfig(name: string, displayName: string, perms: PermSpec)

  const Config: seq<RoleConfig> := [
    RoleConfig("super_admin", "Super Admin", AllActive),
    RoleConfig("hr_manager", "HR Manager", Listed([
      "view_users", "create_users", "edit_users",
      "view_onboarding", "create_onboarding", "edit_onboarding", "delete_onboarding", "admin_onboarding",
      "view_offboarding", "create_offboarding", "edit_offboarding", "delete_offboarding", "admin_offboarding",
      "view_reports", "create_reports", "edit_reports"])),
    RoleConfig("manager", "Manager", Listed([
      "view_users", "edit_users",
      "view_onboarding", "create_onboarding", "edit_onboarding",
      "view_offboarding", "create_offboarding", "edit_offboarding",
      "view_reports", "create_reports"])),
    RoleConfig("employee", "Employee", Listed(["view_onboarding", "view_offboarding", "view_reports"])),
    RoleConfig("read_only", "Read Only", Listed([
      "view_users", "view_accounts", "view_roles", "view_system",
      "view_reports", "view_onboarding", "view_offboarding"]))
  ]

  datatype Options = Options(dryRun: bool, force: bool)

  /** What the command reports for one role. */
  datatype Outcome =
    | RoleNotFound                         // the role is reported missing; the run goes on
    | LookupFailed                         // any other error of the lookup, reported likewise
    | Skipped(existing: nat)               // rows exist and `--force` was not given
    | Assigned(cleared: nat, count: nat)   // rows cleared (0 when none) and permissions assigned

  // ---------------------------------------------------------------------------------------
  // selecting permissions and rows
  // ---------------------------------------------------------------------------------------

  predicate Selected(spec: PermSpec, p: Permission) {
    p.isActive && (spec.AllActive? || p.codename in spec.codenames)
  }

  function SelectedBy(spec: PermSpec): Permission -> bool {
    (p: Permission) => Selected(spec, p)
  }

  /** The permissions to assign, in catalogue order. */
  function ToAssign(perms: seq<Permission>, spec: PermSpec): (r: seq<Permission>)
    ensures forall i :: 0 <= i < |r| ==> r[i].isActive
    ensures spec.Listed? ==> forall i :: 0 <= i < |r| ==> r[i].codename in spec.codenames
    ensures |r| == CountWhere(perms, SelectedBy(spec))
  {
    Filter(perms, SelectedBy(spec))
  }

  function RoleIs(rid: RoleId): Grant -> bool {
    (g: Grant) => g.role == rid
  }

  function NotRole(rid: RoleId): Grant -> bool {
    (g: Grant) => g.role != rid
  }

  /** The rows of one role, in row order. */
  function RowsOf(grants: seq<Grant>, rid: RoleId): (r: seq<Grant>)
    ensures forall i :: 0 <= i < |r| ==> r[i].role == rid
  {
    Filter(grants, RoleIs(rid))
  }

  /** The rows the command creates for a role: one granted row per permission, without constraints. */
  function GrantedRows(rid: RoleId, ps: seq<Permission>): (r: seq<Grant>)
    ensures |r| == |ps|
  {
    seq(|ps|, j requires 0 <= j < |ps| => Grant(rid, ps[j].id, true, map[]))
  }

  /** The assignment loop: `get_or_create` of a granted row per permission. */
  function AssignAll(grants: seq<Grant>, rid: RoleId, ps: seq<Permission>): (r: seq<Grant>)
    ensures grants <= r
    decreases |ps|
  {
    if |ps| == 0 then grants else AssignAll(EnsureRow(grants, rid, ps[0].id), rid, ps[1..])
  }

  /** The rows left after `--force` clears a role that has some. */
  function Cleared(grants: seq<Grant>, rid: RoleId): (r: seq<Grant>)
    ensures forall i :: 0 <= i < |r| ==> r[i].role != rid
  {
    if CountWhere(grants, RoleIs(rid)) > 0 then Filter(grants, NotRole(rid)) else grants
  }

  // ---------------------------------------------------------------------------------------
  // assign_permissions_to_role and handle
  // ---------------------------------------------------------------------------------------

  /** `assign_permissions_to_role` for one configured role. */
  function AssignToRole(db: Rbac, cfg: RoleConfig, opt: Options): (r: (Rbac, Outcome))
    ensures r.0.roles == db.roles && r.0.perms == db.perms
    ensures r.1 == RoleNotFound <==> RoleByName(db.roles, cfg.name) == NoRoleNamed
    ensures r.1.Skipped? <==> RoleByName(db.roles, cfg.name).RoleFound?
                              && CountWhere(db.grants, RoleIs(RoleByName(db.roles, cfg.name).key)) > 0 && !opt.force
    ensures r.1 !in {RoleNotFound, LookupFailed} && !r.1.Skipped? ==>
              r.1.Assigned? && r.1.count == CountWhere(db.perms, SelectedBy(cfg.perms))
    ensures r.1.Assigned? && r.1.cleared > 0 ==> opt.force
    ensures !r.1.Assigned? || opt.dryRun ==> r.0 == db
  {
    match RoleByName(db.roles, cfg.name)
    case NoRoleNamed => (db, RoleNotFound)
    case SeveralRolesNamed => (db, LookupFailed)
    case RoleFound(rid) =>
      var ps := ToAssign(db.perms, cfg.perms);
      var existing := CountWhere(db.grants, RoleIs(rid));
      if existing > 0 && !opt.force then (db, Skipped(existing))
      else if opt.dryRun then (db, Assigned(existing, |ps|))
      else
        (db.(grants := AssignAll(Cleared(db.grants, rid), rid, ps)), Assigned(existing, |ps|))
  }

  /** `handle`: every configured role in turn, collecting what each reported. */
  function Run(db: Rbac, cfgs: seq<RoleConfig>, opt: Options): (r: (Rbac, seq<Outcome>))
    ensures |r.1| == |cfgs|
    ensures r.0.roles == db.roles && r.0.perms == db.perms
    ensures opt.dryRun ==> r.0 == db
    decreases |cfgs|
  {
    if |cfgs| == 0 then (db, [])
    else
      var (db1, o) := AssignToRole(db, cfgs[0], opt);
      var (db2, os) := Run(db1, cfgs[1..], opt);
      (db2, [o] + os)
  }

  function Handle(db: Rbac, opt: Options): (Rbac, seq<Outcome>) {
    Run(db, Config, opt)
  }

  // ---------------------------------------------------------------------------------------
  // properties
  // ---------------------------------------------------------------------------------------

  /** `ALL` selects exactly the active permissions; a list selects exactly its active codenames. */
  lemma ToAssignSelects(perms: seq<Permission>, spec: PermSpec, k: nat)
    requires k < |perms|
    ensures perms[k] in ToAssign(perms, spec) <==> Selected(spec, perms[k])
  {
    if Selected(spec, perms[k]) {
      FilterContains(perms, SelectedBy(spec), k);
    }
  }

  /** No two permissions to assign share a key when the catalogue keys are unique. */
  lemma ToAssignUniqueIds(perms: seq<Permission>, spec: PermSpec)
    requires UniquePermIds(perms)
    ensures UniquePermIds(ToAssign(perms, spec))
  {
    FilterKeepsUnique(perms, SelectedBy(spec));
  }

  lemma {:induction false} FilterKeepsUnique(perms: seq<Permission>, p: Permission -> bool)
    requires UniquePermIds(perms)
    ensures UniquePermIds(Filter(perms, p))
    decreases |perms|
  {
    if |perms| > 0 {
      var init := perms[..|perms| - 1];
      var last := perms[|perms| - 1];
      FilterKeepsUnique(init, p);
      if p(last) {
        var f := Filter(init, p);
        forall i | 0 <= i < |f| ensures f[i].id != last.id {
          FilterSubset(init, p, f[i]);
          var j :| 0 <= j < |init| && init[j] == f[i];
        }
      }
    }
  }

  /** Rows that hold none of the pairs `(rid, ps[j].id)`. */
  predicate LacksPairs(grants: seq<Grant>, rid: RoleId, ps: seq<Permission>) {
    forall i, j :: 0 <= i < |grants| && 0 <= j < |ps| ==> !IsRowOf(rid, ps[j].id, grants[i])
  }

  /** `get_or_create` of a pair that has no row appends the granted row. */
  lemma EnsureRowAppends(grants: seq<Grant>, rid: RoleId, pid: PermId)
    requires forall i :: 0 <= i < |grants| ==> !IsRowOf(rid, pid, grants[i])
    ensures EnsureRow(grants, rid, pid) == grants + [Grant(rid, pid, true, map[])]
  {
    assert RowCount(grants, rid, pid) == 0;
  }

  /** Appending the row for the first permission keeps the remaining pairs absent. */
  lemma LacksPairsStep(grants: seq<Grant>, rid: RoleId, ps: seq<Permission>)
    requires |ps| > 0 && UniquePermIds(ps) && LacksPairs(grants, rid, ps)
    ensures LacksPairs(grants + [Grant(rid, ps[0].id, true, map[])], rid, ps[1..])
  {
    var g1 := grants + [Grant(rid, ps[0].id, true, map[])];
    forall i, j | 0 <= i < |g1| && 0 <= j < |ps[1..]| ensures !IsRowOf(rid, ps[1..][j].id, g1[i]) {
      assert ps[1..][j] == ps[j + 1];
      if i < |grants| {
        assert g1[i] == grants[i];
      }
    }
  }

  /**
   * The assignment loop, on rows that hold none of the pairs it creates, appends exactly
   * one granted row per permission.
   */
  lemma {:induction false} AssignAllAppends(grants: seq<Grant>, rid: RoleId, ps: seq<Permission>)
    requires UniquePermIds(ps) && LacksPairs(grants, rid, ps)
    ensures AssignAll(grants, rid, ps) == grants + GrantedRows(rid, ps)
    decreases |ps|
  {
    if |ps| > 0 {
      var row := Grant(rid, ps[0].id, true, map[]);
      EnsureRowAppends(grants, rid, ps[0].id);
      LacksPairsStep(grants, rid, ps);
      GrantedRowsCons(rid, ps);
      AssignAllAppends(grants + [row], rid, ps[1..]);
      assert grants + [row] + GrantedRows(rid, ps[1..]) == grants + GrantedRows(rid, ps);
    }
  }

  /** The rows for a non-empty permission list: the first permission's row, then the rest. */
  lemma GrantedRowsCons(rid: RoleId, ps: seq<Permission>)
    requires |ps| > 0 && UniquePermIds(ps)
    ensures UniquePermIds(ps[1..])
    ensures GrantedRows(rid, ps) == [Grant(rid, ps[0].id, true, map[])] + GrantedRows(rid, ps[1..])
  {
    assert forall j :: 0 <= j < |ps[1..]| ==> ps[1..][j] == ps[j + 1];
  }

  /** Rows of one role, split over a concatenation. */
  lemma RowsOfAppend(a: seq<Grant>, b: seq<Grant>, rid: RoleId)
    ensures RowsOf(a + b, rid) == RowsOf(a, rid) + RowsOf(b, rid)
  {
    FilterAppend(a, b, RoleIs(rid));
  }

  /** Clearing a role leaves the other roles' rows as they were. */
  lemma ClearedKeepsOthers(grants: seq<Grant>, rid: RoleId, other: RoleId)
    requires other != rid
    ensures RowsOf(Cleared(grants, rid), other) == RowsOf(grants, other)
  {
    FilterNarrows(grants, NotRole(rid), RoleIs(other));
  }

  /** On rows without any row of `rid`, the loop gives `rid` exactly the granted rows and no other role anything. */
  lemma AssignAllRows(kept: seq<Grant>, rid: RoleId, ps: seq<Permission>, other: RoleId)
    requires UniquePermIds(ps)
    requires forall i :: 0 <= i < |kept| ==> kept[i].role != rid
    ensures RowsOf(AssignAll(kept, rid, ps), rid) == GrantedRows(rid, ps)
    ensures other != rid ==> RowsOf(AssignAll(kept, rid, ps), other) == RowsOf(kept, other)
  {
    AssignAllAppends(kept, rid, ps);
    assert forall j :: 0 <= j < |GrantedRows(rid, ps)| ==> GrantedRows(rid, ps)[j].role == rid;
    AddedRowsOfRole(kept, rid, GrantedRows(rid, ps));
    if other != rid {
      AddedRowsOfOther(kept, rid, GrantedRows(rid, ps), other);
    }
  }

  /** Rows of `rid` appended after rows of other roles are exactly the rows of `rid`. */
  lemma AddedRowsOfRole(kept: seq<Grant>, rid: RoleId, added: seq<Grant>)
    requires forall i :: 0 <= i < |kept| ==> kept[i].role != rid
    requires forall i :: 0 <= i < |added| ==> added[i].role == rid
    ensures RowsOf(kept + added, rid) == added
  {
    RowsOfAppend(kept, added, rid);
    FilterNone(kept, RoleIs(rid));
    FilterAll(added, RoleIs(rid));
  }

  /** Rows of `rid` appended leave the rows of every other role alone. */
  lemma AddedRowsOfOther(kept: seq<Grant>, rid: RoleId, added: seq<Grant>, other: RoleId)
    requires forall i :: 0 <= i < |added| ==> added[i].role == rid
    requires other != rid
    ensures RowsOf(kept + added, other) == RowsOf(kept, other)
  {
    RowsOfAppend(kept, added, other);
    FilterNone(added, RoleIs(other));
  }

  /**
   * Assigning with nothing to skip (the role has no rows, or `--force`) and without
   * `--dry-run`: afterwards the role's rows are exactly one granted row per selected
   * permission, and every other role keeps its rows.
   */
  lemma AssignReplacesRows(db: Rbac, cfg: RoleConfig, opt: Options, rid: RoleId, other: RoleId)
    requires UniquePermIds(db.perms)
    requires RoleByName(db.roles, cfg.name) == RoleFound(rid)
    requires !opt.dryRun && (opt.force || CountWhere(db.grants, RoleIs(rid)) == 0)
    ensures var g := AssignToRole(db, cfg, opt).0.grants;
            && RowsOf(g, rid) == GrantedRows(rid, ToAssign(db.perms, cfg.perms))
            && (other != rid ==> RowsOf(g, other) == RowsOf(db.grants, other))
  {
    ToAssignUniqueIds(db.perms, cfg.perms);
    AssignAllRows(Cleared(db.grants, rid), rid, ToAssign(db.perms, cfg.perms), other);
    if other != rid {
      ClearedKeepsOthers(db.grants, rid, other);
    }
  }

  /** A step for a role with another name leaves the rows of `rid` alone. */
  lemma OtherRoleStepKeepsRows(db: Rbac, cfg: RoleConfig, opt: Options, rid: RoleId)
    requires rid in db.roles && db.roles[rid].name != cfg.name
    requires UniquePermIds(db.perms)
    ensures RowsOf(AssignToRole(db, cfg, opt).0.grants, rid) == RowsOf(db.grants, rid)
  {
    match RoleByName(db.roles, cfg.name)
    case RoleFound(k) =>
      var existing := CountWhere(db.grants, RoleIs(k));
      if !opt.dryRun && (existing == 0 || opt.force) {
        AssignReplacesRows(db, cfg, opt, k, rid);
      }
    case _ =>
  }

  /** A skipped role and a dry run both leave the database as it was. */
  lemma SkipAndDryRunWriteNothing(db: Rbac, cfg: RoleConfig, opt: Options)
    ensures AssignToRole(db, cfg, opt).1.Skipped? ==> AssignToRole(db, cfg, opt).0 == db
    ensures opt.dryRun ==> Run(db, Config, opt).0 == db
  {
  }

  /** Every configured role gets a report, and a role is reported missing exactly when no role has its name. */
  lemma {:induction false} RunReportsEveryRole(db: Rbac, cfgs: seq<RoleConfig>, opt: Options, i: nat)
    requires i < |cfgs|
    ensures Run(db, cfgs, opt).1[i] == RoleNotFound <==> RoleByName(db.roles, cfgs[i].name) == NoRoleNamed
    decreases |cfgs|
  {
    var (db1, o) := AssignToRole(db, cfgs[0], opt);
    if i > 0 {
      RunReportsEveryRole(db1, cfgs[1..], opt, i - 1);
      assert cfgs[1..][i - 1] == cfgs[i];
    }
  }

  /** The configured names are pairwise distinct. */
  predicate DistinctNames(cfgs: seq<RoleConfig>) {
    forall i, j :: 0 <= i < j < |cfgs| ==> cfgs[i].name != cfgs[j].name
  }

  /**
   * A forced live run leaves every configured role that exists holding exactly one granted
   * row per selected active permission, whatever the other steps do.
   */
  lemma {:induction false} ForcedRunAssignsExactly(db: Rbac, cfgs: seq<RoleConfig>, opt: Options, i: nat, rid: RoleId)
    requires UniquePermIds(db.perms) && DistinctNames(cfgs)
    requires !opt.dryRun && opt.force
    requires i < |cfgs| && RoleByName(db.roles, cfgs[i].name) == RoleFound(rid)
    ensures RowsOf(Run(db, cfgs, opt).0.grants, rid) == GrantedRows(rid, ToAssign(db.perms, cfgs[i].perms))
    decreases |cfgs|
  {
    var db1 := AssignToRole(db, cfgs[0], opt).0;
    var rest := cfgs[1..];
    assert Run(db, cfgs, opt).0 == Run(db1, rest, opt).0;
    assert forall j :: 0 <= j < |rest| ==> rest[j] == cfgs[j + 1];
    if i == 0 {
      AssignReplacesRows(db, cfgs[0], opt, rid, rid);
      assert forall j :: 0 <= j < |rest| ==> rest[j].name != db.roles[rid].name;
      RunKeepsRows(db1, rest, opt, rid);
    } else {
      assert rest[i - 1] == cfgs[i];
      ForcedRunAssignsExactly(db1, rest, opt, i - 1, rid);
    }
  }

  /** Steps for roles with other names leave the rows of `rid` alone. */
  lemma {:induction false} RunKeepsRows(db: Rbac, cfgs: seq<RoleConfig>, opt: Options, rid: RoleId)
    requires UniquePermIds(db.perms)
    requires rid in db.roles && forall j :: 0 <= j < |cfgs| ==> cfgs[j].name != db.roles[rid].name
    ensures RowsOf(Run(db, cfgs, opt).0.grants, rid) == RowsOf(db.grants, rid)
    decreases |cfgs|
  {
    if |cfgs| > 0 {
      var (db1, o) := AssignToRole(db, cfgs[0], opt);
      OtherRoleStepKeepsRows(db, cfgs[0], opt, rid);
      assert forall j :: 0 <= j < |cfgs[1..]| ==> cfgs[1..][j] == cfgs[j + 1];
      RunKeepsRows(db1, cfgs[1..], opt, rid);
    }
  }

  lemma ConfigNamesDistinct()
    ensures DistinctNames(Config)
  {
  }

  /** `handle --force` (not a dry run) leaves each configured role that exists with exactly its selected permissions. */
  lemma ForcedHandleAssignsExactly(db: Rbac, opt: Options, i: nat, rid: RoleId)
    requires UniquePermIds(db.perms) && !opt.dryRun && opt.force
    requires i < |Config| && RoleByName(db.roles, Config[i].name) == RoleFound(rid)
    ensures RowsOf(Handle(db, opt).0.grants, rid) == GrantedRows(rid, ToAssign(db.perms, Config[i].perms))
  {
    ConfigNamesDistinct();
    ForcedRunAssignsExactly(db, Config, opt, i, rid);
  }
}

=== FILE: seed_defaults.dfy ===
/**
 * The post-migrate handler that seeds the default permission catalogue and the two system
 * roles. Each permission is fetched or created by codename and each role by name, so
 * running the handler again changes nothing; permissions are attached to a role only in
 * the run that creates it.
 */
module Seeding {
  import opened Common
  import opened Text
  import opened Rbac

  /** The app whose migration triggers the seeding. */
  const SeedingApp: string := "roles_permissions"

  /** A catalogue entry: name, codename, category, level. */
  datatype DefaultPerm = DefaultPerm(name: string, codename: string, category: string, level: string)

  const DefaultPermissions: seq<DefaultPerm> := [
    DefaultPerm("Can View Users", "view_users", "user_management", "view"),
    DefaultPerm("Can Create Users", "create_users", "user_management", "create"),
    DefaultPerm("Can Edit Users", "edit_users", "user_management", "edit"),
    DefaultPerm("Can Delete Users", "delete_users", "user_management", "delete"),
    DefaultPerm("Can Manage User Roles", "manage_user_roles", "user_management", "admin"),
    DefaultPerm("Can View Accounts", "view_accounts", "account_management", "view"),
    DefaultPerm("Can Create Accounts", "create_accounts", "account_management", "create"),
    DefaultPerm("Can Edit Accounts", "edit_accounts", "account_management", "edit"),
    DefaultPerm("Can Delete Accounts", "delete_accounts", "account_management", "delete"),
    DefaultPerm("Can View Roles", "view_roles", "role_management", "view"),
    DefaultPerm("Can Create Roles", "create_roles", "role_management", "create"),
    DefaultPerm("Can Edit Roles", "edit_roles", "role_management", "edit"),
    DefaultPerm("Can Delete Roles", "delete_roles", "role_management", "delete"),
    DefaultPerm("Can Manage Permissions", "manage_permissions", "role_management", "admin"),
    DefaultPerm("Can View Onboarding", "view_onboarding", "onboarding", "view"),
    DefaultPerm("Can Create Onboarding", "create_onboarding", "onboarding", "create"),
    DefaultPerm("Can Edit Onboarding", "edit_onboarding", "onboarding", "edit"),
    DefaultPerm("Can Complete Onboarding", "complete_onboarding", "onboarding", "admin"),
    DefaultPerm("Can View Offboarding", "view_offboarding", "offboarding", "view"),
    DefaultPerm("Can Create Offboarding", "create_offboarding", "offboarding", "create"),
    DefaultPerm("Can Edit Offboarding", "edit_offboarding", "offboarding", "edit"),
    DefaultPerm("Can Complete Offboarding", "complete_offboarding", "offboarding", "admin"),
    DefaultPerm("Can View System Settings", "view_system_settings", "system_admin", "view"),
    DefaultPerm("Can Edit System Settings", "edit_system_settings", "system_admin", "edit"),
    DefaultPerm("Can Access Admin Panel", "access_admin_panel", "system_admin", "admin"),
    DefaultPerm("Can View Reports", "view_reports", "reporting", "view"),
    DefaultPerm("Can Create Reports", "create_reports", "reporting", "create"),
    DefaultPerm("Can Export Reports", "export_reports", "reporting", "admin")
  ]

  /** A default role: name, display name, description, level, whether it is the default role. */
  datatype DefaultRoleSpec = DefaultRoleSpec(name: string, displayName: string, description: string, level: int, isDefault: bool)

  const AdminSpec: DefaultRoleSpec :=
    DefaultRoleSpec("admin", "Administrator", "Full system administrator with all permissions", 2, true)
  const StaffSpec: DefaultRoleSpec :=
    DefaultRoleSpec("staff", "Staff Member", "Regular staff member with limited permissions", 4, false)
  const DefaultRoles: seq<DefaultRoleSpec> := [AdminSpec, StaffSpec]

  /** The view permissions a newly created staff role receives. */
  const StaffCodenames: seq<string> :=
    ["view_users", "view_accounts", "view_roles", "view_onboarding", "view_offboarding", "view_reports"]

  function Codenames(ds: seq<DefaultPerm>): (r: seq<string>)
    ensures |r| == |ds| && forall i :: 0 <= i < |ds| ==> r[i] == ds[i].codename
  {
    seq(|ds|, i requires 0 <= i < |ds| => ds[i].codename)
  }

  /** The codenames a newly created role receives: every seeded one for admin, the views for staff. */
  function GrantsFor(name: string): seq<string> {
    if name == "admin" then Codenames(DefaultPermissions)
    else if name == "staff" then StaffCodenames
    else []
  }

  /**
   * Fresh keys: every stored key, and every key a row points at, is below the counter new
   * keys are drawn from; the code draws random UUIDs, which the counter stands for.
   */
  ghost predicate KeysBelow(db: Rbac) {
    && (forall i :: 0 <= i < |db.perms| ==> db.perms[i].id < db.nextId)
    && (forall k :: k in db.roles ==> k < db.nextId)
    && (forall i :: 0 <= i < |db.grants| ==> db.grants[i].role < db.nextId)
  }

  /** The whole invariant the seeding keeps. */
  ghost predicate Inv(db: Rbac) {
    KeysBelow(db) && UniquePermIds(db.perms) && UniqueRoleNames(db.roles)
  }

  /** Every codename recorded so far names the permission stored under the recorded key. */
  ghost predicate Recorded(perms: seq<Permission>, created: map<string, PermId>) {
    forall c :: c in created ==> CodenameOfPerm(perms, created[c]) == Some(c)
  }

  // ---------------------------------------------------------------------------------------
  // permissions: get_or_create by codename
  // ---------------------------------------------------------------------------------------

  function IndexOfCodename(perms: seq<Permission>, c: string): (r: Option<nat>)
    ensures r.Some? ==> r.value < |perms| && perms[r.value].codename == c
    ensures r.None? <==> forall i :: 0 <= i < |perms| ==> perms[i].codename != c
  {
    IndexWhere(perms, (p: Permission) => p.codename == c)
  }

  /** The permission the handler creates for a catalogue entry, active, with a generated description. */
  function NewPermission(id: PermId, d: DefaultPerm): Permission {
    Permission(id, d.name, d.codename, "Permission to " + Lower(d.name), d.category, d.level, true)
  }

  /**
   * `Permission.objects.get_or_create(codename=...)`: a stored codename is reused; otherwise
   * the permission is saved, which fails when another permission already has its name.
   */
  function GetOrCreatePermission(db: Rbac, d: DefaultPerm): (r: Result<(Rbac, PermId), PermError>)
    ensures IndexOfCodename(db.perms, d.codename).Some? ==> r.Ok? && r.value.0 == db
    ensures r.Ok? ==> r.value.0.roles == db.roles && r.value.0.grants == db.grants
    ensures IndexOfCodename(db.perms, d.codename).None? ==>
              var p := FillCodename(NewPermission(db.nextId, d));
              && (r.Ok? <==> !SamePermNameElsewhere(db.perms, p) && !SameCodenameElsewhere(db.perms, p))
              && (r.Ok? ==> r.value.1 == db.nextId && p in r.value.0.perms && p.isActive
                            && p.description == "Permission to " + Lower(d.name))
  {
    match IndexOfCodename(db.perms, d.codename)
    case Some(i) => Ok((db, db.perms[i].id))
    case None =>
      match SavePermission(db, NewPermission(db.nextId, d))
      case Err(e) => Err(e)
      case Ok(db1) => Ok((db1.(nextId := db.nextId + 1), db.nextId))
  }

  /** The permission loop, recording each codename's permission key. */
  function SeedPermissions(db: Rbac, ds: seq<DefaultPerm>, created: map<string, PermId>): (r: Result<(Rbac, map<string, PermId>), PermError>)
    ensures r.Ok? ==> r.value.0.roles == db.roles && r.value.0.grants == db.grants
    decreases |ds|
  {
    if |ds| == 0 then Ok((db, created))
    else
      match GetOrCreatePermission(db, ds[0])
      case Err(e) => Err(e)
      case Ok((db1, pid)) => SeedPermissions(db1, ds[1..], created[ds[0].codename := pid])
  }

  /** Extending the catalogue at its end does not change what an existing key resolves to. */
  lemma CodenameOfPermExtends(perms: seq<Permission>, more: seq<Permission>, pid: PermId)
    requires perms <= more && PermIndex(perms, pid).Some?
    ensures CodenameOfPerm(more, pid) == CodenameOfPerm(perms, pid)
  {
    var j := PermIndex(perms, pid).value;
    assert forall i :: 0 <= i <= j ==> more[i] == perms[i];
  }

  /** One get-or-create keeps the keys fresh and records the permission under its codename. */
  lemma GetOrCreatePermissionFacts(db: Rbac, d: DefaultPerm)
    requires Inv(db) && d.codename != ""
    requires GetOrCreatePermission(db, d).Ok?
    ensures var (db1, pid) := GetOrCreatePermission(db, d).value;
            && Inv(db1) && db.perms <= db1.perms
            && CodenameOfPerm(db1.perms, pid) == Some(d.codename)
  {
    match IndexOfCodename(db.perms, d.codename)
    case Some(i) =>
      var j := PermIndex(db.perms, db.perms[i].id).value;
      assert j == i;
    case None =>
      var p := NewPermission(db.nextId, d);
      assert FillCodename(p) == p;
      assert PermIndex(db.perms, p.id).None?;
      var db1 := GetOrCreatePermission(db, d).value.0;
      assert db1.perms == db.perms + [p];
      assert db1.perms[|db.perms|] == p;
      assert forall i :: 0 <= i < |db.perms| ==> db1.perms[i] == db.perms[i];
      assert PermIndex(db1.perms, p.id) == Some(|db.perms|);
  }

  /**
   * The permission loop keeps the keys fresh, only appends to the catalogue, and records
   * every entry's codename against the permission that carries it.
   */
  lemma {:induction false} SeedPermissionsFacts(db: Rbac, ds: seq<DefaultPerm>, created: map<string, PermId>)
    requires Inv(db) && Recorded(db.perms, created)
    requires forall i :: 0 <= i < |ds| ==> ds[i].codename != ""
    requires SeedPermissions(db, ds, created).Ok?
    ensures var (db1, created1) := SeedPermissions(db, ds, created).value;
            && Inv(db1) && db.perms <= db1.perms && Recorded(db1.perms, created1)
            && created.Keys <= created1.Keys
            && forall i :: 0 <= i < |ds| ==> ds[i].codename in created1
    decreases |ds|
  {
    if |ds| > 0 {
      var (db1, pid) := GetOrCreatePermission(db, ds[0]).value;
      GetOrCreatePermissionFacts(db, ds[0]);
      var next := created[ds[0].codename := pid];
      RecordedStep(db.perms, db1.perms, created, ds[0].codename, pid);
      assert SeedPermissions(db, ds, created) == SeedPermissions(db1, ds[1..], next);
      SeedPermissionsFacts(db1, ds[1..], next);
      CodenamesCovered(ds, SeedPermissions(db, ds, created).value.1);
    }
  }

  /** Recording one more codename against a permission that carries it keeps the record right. */
  lemma RecordedStep(perms: seq<Permission>, more: seq<Permission>, created: map<string, PermId>, c0: string, pid: PermId)
    requires Recorded(perms, created) && perms <= more && CodenameOfPerm(more, pid) == Some(c0)
    ensures Recorded(more, created[c0 := pid])
  {
    forall c | c in created[c0 := pid] ensures CodenameOfPerm(more, created[c0 := pid][c]) == Some(c) {
      if c != c0 {
        CodenameOfPermExtends(perms, more, created[c]);
      }
    }
  }

  /** The first entry and all later entries recorded means every entry recorded. */
  lemma CodenamesCovered(ds: seq<DefaultPerm>, m: map<string, PermId>)
    requires |ds| > 0 && ds[0].codename in m
    requires forall i :: 0 <= i < |ds[1..]| ==> ds[1..][i].codename in m
    ensures forall i :: 0 <= i < |ds| ==> ds[i].codename in m
  {
    forall i | 0 < i < |ds| ensures ds[i].codename in m {
      assert ds[1..][i - 1] == ds[i];
    }
  }

  /** When every codename is already stored, the permission loop changes nothing. */
  lemma {:induction false} SeedPermissionsNoop(db: Rbac, ds: seq<DefaultPerm>, created: map<string, PermId>)
    requires forall i :: 0 <= i < |ds| ==> IndexOfCodename(db.perms, ds[i].codename).Some?
    ensures SeedPermissions(db, ds, created).Ok? && SeedPermissions(db, ds, created).value.0 == db
    decreases |ds|
  {
    if |ds| > 0 {
      var (db1, pid) := GetOrCreatePermission(db, ds[0]).value;
      assert forall i :: 0 <= i < |ds[1..]| ==> ds[1..][i] == ds[i + 1];
      SeedPermissionsNoop(db, ds[1..], created[ds[0].codename := pid]);
    }
  }

  // ---------------------------------------------------------------------------------------
  // roles: get_or_create by name, grants for new roles
  // ---------------------------------------------------------------------------------------

  datatype SeedError = PermissionClash(perm: PermError) | RoleClash(role: RoleError) | AmbiguousRoleName

  /** The role the handler creates: a system role, active, default only for admin. */
  function NewRole(spec: DefaultRoleSpec): Role {
    Role(spec.name, spec.displayName, spec.description, spec.level, true, true, spec.isDefault)
  }

  /**
   * `Role.objects.get_or_create(name=...)`: a stored name is reused; otherwise the role is
   * saved, which fails when it would be a second default role. The flag says whether it
   * was created.
   */
  function GetOrCreateRole(db: Rbac, spec: DefaultRoleSpec): (r: Result<(Rbac, RoleId, bool), SeedError>)
    ensures RoleByName(db.roles, spec.name).RoleFound? ==> r == Ok((db, RoleByName(db.roles, spec.name).key, false))
    ensures RoleByName(db.roles, spec.name) == SeveralRolesNamed ==> r == Err(AmbiguousRoleName)
    ensures r == Err(RoleClash(DefaultRoleExists)) <==>
              RoleByName(db.roles, spec.name) == NoRoleNamed && spec.isDefault && OtherDefaultRole(db.roles, db.nextId)
    ensures RoleByName(db.roles, spec.name) == NoRoleNamed && r.Ok? ==>
              && r.value.2
              && r.value.1 == db.nextId
              && r.value.0 == db.(roles := db.roles[db.nextId := NewRole(spec)], nextId := db.nextId + 1)
  {
    match RoleByName(db.roles, spec.name)
    case RoleFound(k) => Ok((db, k, false))
    case SeveralRolesNamed => Err(AmbiguousRoleName)
    case NoRoleNamed =>
      match SaveRole(db, db.nextId, NewRole(spec))
      case Err(e) => Err(RoleClash(e))
      case Ok(db1) => Ok((db1.(nextId := db.nextId + 1), db.nextId, true))
  }

  /** Attaches a granted row for each listed codename that was recorded (an existing row is kept). */
  function GrantCodenames(grants: seq<Grant>, rid: RoleId, cs: seq<string>, created: map<string, PermId>): (r: seq<Grant>)
    ensures grants <= r
    decreases |cs|
  {
    if |cs| == 0 then grants
    else
      var g1 := if cs[0] in created then EnsureRow(grants, rid, created[cs[0]]) else grants;
      GrantCodenames(g1, rid, cs[1..], created)
  }

  /** One step of the role loop: get or create the role, and grant a new one its codenames. */
  function SeedRole(db: Rbac, spec: DefaultRoleSpec, created: map<string, PermId>): (r: Result<Rbac, SeedError>)
    ensures r.Ok? ==> r.value.perms == db.perms
  {
    match GetOrCreateRole(db, spec)
    case Err(e) => Err(e)
    case Ok((db1, rid, isNew)) =>
      if isNew then Ok(db1.(grants := GrantCodenames(db1.grants, rid, GrantsFor(spec.name), created)))
      else Ok(db1)
  }

  /** The role loop. */
  function SeedRoles(db: Rbac, specs: seq<DefaultRoleSpec>, created: map<string, PermId>): (r: Result<Rbac, SeedError>)
    ensures r.Ok? ==> r.value.perms == db.perms
    decreases |specs|
  {
    if |specs| == 0 then Ok(db)
    else
      match SeedRole(db, specs[0], created)
      case Err(e) => Err(e)
      case Ok(db1) => SeedRoles(db1, specs[1..], created)
  }

  /** The permission loop followed by the role loop. */
  function SeedCatalogue(db: Rbac, ds: seq<DefaultPerm>, specs: seq<DefaultRoleSpec>): Result<Rbac, SeedError> {
    match SeedPermissions(db, ds, map[])
    case Err(e) => Err(PermissionClash(e))
    case Ok((db1, created)) => SeedRoles(db1, specs, created)
  }

  /** `create_default_permissions_and_roles`: only the roles-and-permissions app triggers it. */
  function Seed(db: Rbac, sender: string): (r: Result<Rbac, SeedError>)
    ensures sender != SeedingApp ==> r == Ok(db)
  {
    if sender != SeedingApp then Ok(db)
    else SeedCatalogue(db, DefaultPermissions, DefaultRoles)
  }

  // ---------------------------------------------------------------------------------------
  // properties of the grants
  // ---------------------------------------------------------------------------------------

  /** `pid` was recorded for one of the codenames `cs`. */
  predicate Listed(cs: seq<string>, created: map<string, PermId>, pid: PermId) {
    exists j :: 0 <= j < |cs| && cs[j] in created && created[cs[j]] == pid
  }

  /** A granted row of `rid` for a permission recorded for one of `cs`. */
  predicate ListedRow(g: Grant, rid: RoleId, cs: seq<string>, created: map<string, PermId>) {
    g.role == rid && g.isGranted && Listed(cs, created, g.permission)
  }

  /** Every row past the old end is a listed row of `rid`. */
  ghost predicate NewRowsListed(grants: seq<Grant>, r: seq<Grant>, rid: RoleId, cs: seq<string>, created: map<string, PermId>) {
    forall i :: |grants| <= i < |r| ==> ListedRow(r[i], rid, cs, created)
  }

  /** The rows `GrantCodenames` appends belong to the role, are granted, and point at recorded permissions. */
  lemma {:induction false} GrantCodenamesNewRows(grants: seq<Grant>, rid: RoleId, cs: seq<string>, created: map<string, PermId>)
    ensures NewRowsListed(grants, GrantCodenames(grants, rid, cs, created), rid, cs, created)
    decreases |cs|
  {
    if |cs| > 0 {
      var g1 := if cs[0] in created then EnsureRow(grants, rid, created[cs[0]]) else grants;
      var r := GrantCodenames(grants, rid, cs, created);
      assert r == GrantCodenames(g1, rid, cs[1..], created);
      GrantCodenamesNewRows(g1, rid, cs[1..], created);
      forall i | |grants| <= i < |r| ensures ListedRow(r[i], rid, cs, created) {
        if i < |g1| {
          assert cs[0] in created && r[i] == g1[i];
          assert r[i].permission == created[cs[0]];
        } else {
          assert ListedRow(r[i], rid, cs[1..], created);
          var j :| 0 <= j < |cs[1..]| && cs[1..][j] in created && created[cs[1..][j]] == r[i].permission;
          assert cs[j + 1] == cs[1..][j];
        }
      }
    }
  }

  /** Every listed codename that was recorded ends up with a row for the role. */
  lemma {:induction false} GrantCodenamesCovers(grants: seq<Grant>, rid: RoleId, cs: seq<string>, created: map<string, PermId>, j: nat)
    requires j < |cs| && cs[j] in created
    ensures RowCount(GrantCodenames(grants, rid, cs, created), rid, created[cs[j]]) > 0
    decreases |cs|
  {
    var g1 := if cs[0] in created then EnsureRow(grants, rid, created[cs[0]]) else grants;
    var r := GrantCodenames(grants, rid, cs, created);
    assert r == GrantCodenames(g1, rid, cs[1..], created);
    if j == 0 {
      var p := (g: Grant) => IsRowOf(rid, created[cs[0]], g);
      var k :| 0 <= k < |g1| && p(g1[k]);
      assert r[k] == g1[k];
    } else {
      assert cs[1..][j - 1] == cs[j];
      GrantCodenamesCovers(g1, rid, cs[1..], created, j - 1);
    }
  }

  /** Granting a listed codename gives a role that had no rows that permission. */
  lemma FreshRoleHoldsListed(db: Rbac, rid: RoleId, cs: seq<string>, created: map<string, PermId>, j: nat)
    requires forall i :: 0 <= i < |db.grants| ==> db.grants[i].role != rid
    requires Recorded(db.perms, created)
    requires j < |cs| && cs[j] in created
    ensures HasPermission(db.(grants := GrantCodenames(db.grants, rid, cs, created)), rid, cs[j])
  {
    var g := GrantCodenames(db.grants, rid, cs, created);
    GrantCodenamesNewRows(db.grants, rid, cs, created);
    GrantCodenamesCovers(db.grants, rid, cs, created, j);
    var k :| 0 <= k < |g| && IsRowOf(rid, created[cs[j]], g[k]);
    assert k >= |db.grants|;
    assert g[k] in g;
  }

  /** A role that had no rows holds only listed codenames after the grants. */
  lemma FreshRoleHoldsOnlyListed(db: Rbac, rid: RoleId, cs: seq<string>, created: map<string, PermId>, c: string)
    requires forall i :: 0 <= i < |db.grants| ==> db.grants[i].role != rid
    requires Recorded(db.perms, created)
    requires HasPermission(db.(grants := GrantCodenames(db.grants, rid, cs, created)), rid, c)
    ensures c in cs
  {
    var gs := GrantCodenames(db.grants, rid, cs, created);
    GrantCodenamesNewRows(db.grants, rid, cs, created);
    var g :| g in gs && g.role == rid && g.isGranted && CodenameOfPerm(db.perms, g.permission) == Some(c);
    var k :| 0 <= k < |gs| && gs[k] == g;
    assert k >= |db.grants|;
    assert ListedRow(gs[k], rid, cs, created);
    var j :| 0 <= j < |cs| && cs[j] in created && created[cs[j]] == g.permission;
    assert cs[j] == c;
  }

  /** Appending rows of other roles does not change what a role holds. */
  lemma OtherRowsKeepPermissions(db: Rbac, grants: seq<Grant>, rid: RoleId, c: string)
    requires db.grants <= grants
    requires forall i :: |db.grants| <= i < |grants| ==> grants[i].role != rid
    ensures HasPermission(db.(grants := grants), rid, c) <==> HasPermission(db, rid, c)
  {
    if HasPermission(db.(grants := grants), rid, c) {
      var g :| g in grants && g.role == rid && g.isGranted && CodenameOfPerm(db.perms, g.permission) == Some(c);
      var k :| 0 <= k < |grants| && grants[k] == g;
      assert db.grants[k] == g;
    }
    if HasPermission(db, rid, c) {
      var g :| g in db.grants && g.role == rid && g.isGranted && CodenameOfPerm(db.perms, g.permission) == Some(c);
      var k :| 0 <= k < |db.grants| && db.grants[k] == g;
      assert grants[k] == g;
    }
  }

  // ---------------------------------------------------------------------------------------
  // idempotence
  // ---------------------------------------------------------------------------------------

  /** Every stored role is still stored, unchanged. */
  ghost predicate RolesKept(before: map<RoleId, Role>, after: map<RoleId, Role>) {
    forall k :: k in before ==> k in after && after[k] == before[k]
  }

  /** Every listed name is the name of a stored role. */
  ghost predicate HasRoleNamed(roles: map<RoleId, Role>, name: string) {
    exists k :: IsRoleNamed(roles, name, k)
  }

  ghost predicate NamesStored(roles: map<RoleId, Role>, specs: seq<DefaultRoleSpec>) {
    forall i :: 0 <= i < |specs| ==> HasRoleNamed(roles, specs[i].name)
  }

  /** Appending the grants of a role with a key below the counter keeps the keys fresh. */
  lemma GrantsKeepKeysBelow(db: Rbac, rid: RoleId, cs: seq<string>, created: map<string, PermId>)
    requires KeysBelow(db) && rid < db.nextId
    ensures KeysBelow(db.(grants := GrantCodenames(db.grants, rid, cs, created)))
  {
    var g := GrantCodenames(db.grants, rid, cs, created);
    GrantCodenamesNewRows(db.grants, rid, cs, created);
    forall i | 0 <= i < |g| ensures g[i].role < db.nextId {
      if i < |db.grants| {
        assert g[i] == db.grants[i];
      } else {
        assert ListedRow(g[i], rid, cs, created);
      }
    }
  }

  /** One role step keeps the invariant and the stored roles, and leaves the role's name stored. */
  lemma SeedRoleFacts(db: Rbac, spec: DefaultRoleSpec, created: map<string, PermId>)
    requires Inv(db)
    requires SeedRole(db, spec, created).Ok?
    ensures var db1 := SeedRole(db, spec, created).value;
            && Inv(db1) && db.nextId <= db1.nextId && RolesKept(db.roles, db1.roles)
            && HasRoleNamed(db1.roles, spec.name)
  {
    UniqueNamesFindOne(db.roles, spec.name);
    var (db1, rid, isNew) := GetOrCreateRole(db, spec).value;
    assert IsRoleNamed(db1.roles, spec.name, rid);
    if isNew {
      assert Inv(db1);
      GrantsKeepKeysBelow(db1, rid, GrantsFor(spec.name), created);
    }
  }

  /** The role loop keeps the invariant and every stored role. */
  lemma {:induction false} SeedRolesKeeps(db: Rbac, specs: seq<DefaultRoleSpec>, created: map<string, PermId>)
    requires Inv(db)
    requires SeedRoles(db, specs, created).Ok?
    ensures Inv(SeedRoles(db, specs, created).value)
    ensures RolesKept(db.roles, SeedRoles(db, specs, created).value.roles)
    decreases |specs|
  {
    if |specs| > 0 {
      var db1 := SeedRole(db, specs[0], created).value;
      assert SeedRoles(db, specs, created) == SeedRoles(db1, specs[1..], created);
      SeedRoleFacts(db, specs[0], created);
      SeedRolesKeeps(db1, specs[1..], created);
    }
  }

  /** After the role loop every listed name is the name of a stored role. */
  lemma {:induction false} SeedRolesStoresNames(db: Rbac, specs: seq<DefaultRoleSpec>, created: map<string, PermId>)
    requires Inv(db)
    requires SeedRoles(db, specs, created).Ok?
    ensures NamesStored(SeedRoles(db, specs, created).value.roles, specs)
    decreases |specs|
  {
    if |specs| > 0 {
      var db1 := SeedRole(db, specs[0], created).value;
      var fin := SeedRoles(db1, specs[1..], created).value;
      assert SeedRoles(db, specs, created) == SeedRoles(db1, specs[1..], created);
      SeedRoleFacts(db, specs[0], created);
      SeedRolesKeeps(db1, specs[1..], created);
      SeedRolesStoresNames(db1, specs[1..], created);
      var k :| IsRoleNamed(db1.roles, specs[0].name, k);
      KeptRoleStaysNamed(db1.roles, fin.roles, specs[0].name, k);
      NamesStoredCons(fin.roles, specs);
    }
  }

  /** The first name and all later names stored means every name stored. */
  lemma NamesStoredCons(roles: map<RoleId, Role>, specs: seq<DefaultRoleSpec>)
    requires |specs| > 0 && HasRoleNamed(roles, specs[0].name) && NamesStored(roles, specs[1..])
    ensures NamesStored(roles, specs)
  {
    forall i | 0 < i < |specs| ensures HasRoleNamed(roles, specs[i].name) {
      assert specs[1..][i - 1] == specs[i];
    }
  }

  /** A role that later steps keep is still found under its name. */
  lemma KeptRoleStaysNamed(before: map<RoleId, Role>, after: map<RoleId, Role>, name: string, k: RoleId)
    requires RolesKept(before, after) && IsRoleNamed(before, name, k)
    ensures IsRoleNamed(after, name, k)
  {
    assert k in after && after[k] == before[k];
  }

  /** When every listed role name is already stored once, the role loop changes nothing. */
  lemma {:induction false} SeedRolesNoop(db: Rbac, specs: seq<DefaultRoleSpec>, created: map<string, PermId>)
    requires forall i :: 0 <= i < |specs| ==> RoleByName(db.roles, specs[i].name).RoleFound?
    ensures SeedRoles(db, specs, created) == Ok(db)
    decreases |specs|
  {
    if |specs| > 0 {
      assert forall i :: 0 <= i < |specs[1..]| ==> specs[1..][i] == specs[i + 1];
      SeedRolesNoop(db, specs[1..], created);
    }
  }

  /** Seeding any catalogue and role list is idempotent. */
  lemma SeedCatalogueIsIdempotent(db: Rbac, ds: seq<DefaultPerm>, specs: seq<DefaultRoleSpec>)
    requires Inv(db)
    requires forall i :: 0 <= i < |ds| ==> ds[i].codename != ""
    requires SeedCatalogue(db, ds, specs).Ok?
    ensures SeedCatalogue(SeedCatalogue(db, ds, specs).value, ds, specs) == SeedCatalogue(db, ds, specs)
  {
    var (db1, created) := SeedPermissions(db, ds, map[]).value;
    SeedPermissionsFacts(db, ds, map[]);
    var db2 := SeedRoles(db1, specs, created).value;
    SeedRolesKeeps(db1, specs, created);
    SeedRolesStoresNames(db1, specs, created);
    CodenamesStayStored(db2.perms, ds, created);
    SeedPermissionsNoop(db2, ds, map[]);
    var created2 := SeedPermissions(db2, ds, map[]).value.1;
    NamesStayFound(db2, specs);
    SeedRolesNoop(db2, specs, created2);
  }

  /** Every recorded codename is still stored. */
  lemma CodenamesStayStored(perms: seq<Permission>, ds: seq<DefaultPerm>, created: map<string, PermId>)
    requires Recorded(perms, created)
    requires forall i :: 0 <= i < |ds| ==> ds[i].codename in created
    ensures forall i :: 0 <= i < |ds| ==> IndexOfCodename(perms, ds[i].codename).Some?
  {
    forall i | 0 <= i < |ds| ensures IndexOfCodename(perms, ds[i].codename).Some? {
      var c := ds[i].codename;
      var j := PermIndex(perms, created[c]).value;
      assert perms[j].codename == c;
    }
  }

  /** With unique names, every stored role name is found. */
  lemma NamesStayFound(db: Rbac, specs: seq<DefaultRoleSpec>)
    requires Inv(db) && NamesStored(db.roles, specs)
    ensures forall i :: 0 <= i < |specs| ==> RoleByName(db.roles, specs[i].name).RoleFound?
  {
    forall i | 0 <= i < |specs| ensures RoleByName(db.roles, specs[i].name).RoleFound? {
      UniqueNamesFindOne(db.roles, specs[i].name);
    }
  }

  lemma DefaultCodenamesNonEmpty()
    ensures forall i :: 0 <= i < |DefaultPermissions| ==> DefaultPermissions[i].codename != ""
  {
  }

  /** Seeding is idempotent: running the handler on its own result stores nothing new. */
  lemma SeedIsIdempotent(db: Rbac, sender: string)
    requires Inv(db)
    requires Seed(db, sender).Ok?
    ensures Seed(Seed(db, sender).value, sender) == Seed(db, sender)
  {
    if sender == SeedingApp {
      DefaultCodenamesNonEmpty();
      SeedCatalogueIsIdempotent(db, DefaultPermissions, DefaultRoles);
    }
  }

  // ---------------------------------------------------------------------------------------
  // the seeded roles
  // ---------------------------------------------------------------------------------------

  /** The database a role step produces when it creates the role. */
  function Created(db: Rbac, spec: DefaultRoleSpec, created: map<string, PermId>): Rbac {
    var db1 := db.(roles := db.roles[db.nextId := NewRole(spec)], nextId := db.nextId + 1);
    db1.(grants := GrantCodenames(db1.grants, db.nextId, GrantsFor(spec.name), created))
  }

  /** A role step on a name that is not stored creates the role under the next key. */
  lemma NewRoleStep(db: Rbac, spec: DefaultRoleSpec, created: map<string, PermId>)
    requires RoleByName(db.roles, spec.name) == NoRoleNamed
    requires SeedRole(db, spec, created).Ok?
    ensures SeedRole(db, spec, created) == Ok(Created(db, spec, created))
  {
  }

  /**
   * A role created by a role step is the system role of its spec and holds exactly the
   * codenames its name is granted, when all of them were recorded.
   */
  lemma CreatedRoleHoldsItsGrants(db: Rbac, spec: DefaultRoleSpec, created: map<string, PermId>, c: string)
    requires KeysBelow(db) && Recorded(db.perms, created)
    requires forall j :: 0 <= j < |GrantsFor(spec.name)| ==> GrantsFor(spec.name)[j] in created
    ensures var db1 := Created(db, spec, created);
            && db.nextId in db1.roles && db1.roles[db.nextId] == NewRole(spec)
            && (HasPermission(db1, db.nextId, c) <==> c in GrantsFor(spec.name))
  {
    var db1 := db.(roles := db.roles[db.nextId := NewRole(spec)], nextId := db.nextId + 1);
    var cs := GrantsFor(spec.name);
    assert forall i :: 0 <= i < |db1.grants| ==> db1.grants[i].role != db.nextId;
    if c in cs {
      var j :| 0 <= j < |cs| && cs[j] == c;
      FreshRoleHoldsListed(db1, db.nextId, cs, created, j);
    }
    if HasPermission(Created(db, spec, created), db.nextId, c) {
      FreshRoleHoldsOnlyListed(db1, db.nextId, cs, created, c);
    }
  }

  lemma StaffCodenamesAreSeeded(j: nat)
    requires j < |StaffCodenames|
    ensures exists i :: 0 <= i < |DefaultPermissions| && DefaultPermissions[i].codename == StaffCodenames[j]
  {
    var at := [0, 5, 9, 14, 18, 25];
    assert DefaultPermissions[at[j]].codename == StaffCodenames[j];
  }

  /** Both role steps of the handler are given every codename they grant. */
  lemma GrantsAreRecorded(created: map<string, PermId>, name: string)
    requires forall i :: 0 <= i < |DefaultPermissions| ==> DefaultPermissions[i].codename in created
    ensures forall j :: 0 <= j < |GrantsFor(name)| ==> GrantsFor(name)[j] in created
  {
    forall j | 0 <= j < |GrantsFor(name)| ensures GrantsFor(name)[j] in created {
      if name != "admin" && name == "staff" {
        StaffCodenamesAreSeeded(j);
      }
    }
  }

  /** A later role step keeps an earlier role and what it holds. */
  lemma LaterStepKeepsRole(db: Rbac, spec: DefaultRoleSpec, created: map<string, PermId>, k: RoleId, c: string)
    requires Inv(db) && k in db.roles
    requires SeedRole(db, spec, created).Ok?
    ensures var db1 := SeedRole(db, spec, created).value;
            && k in db1.roles && db1.roles[k] == db.roles[k]
            && (HasPermission(db1, k, c) <==> HasPermission(db, k, c))
  {
    SeedRoleFacts(db, spec, created);
    var (db3, sid, isNew) := GetOrCreateRole(db, spec).value;
    if isNew {
      GrantCodenamesNewRows(db3.grants, sid, GrantsFor(spec.name), created);
      OtherRowsKeepPermissions(db, SeedRole(db, spec, created).value.grants, k, c);
    }
  }

  /** Two role steps, one after the other. */
  lemma TwoSteps(db: Rbac, s1: DefaultRoleSpec, s2: DefaultRoleSpec, created: map<string, PermId>)
    requires SeedRoles(db, [s1, s2], created).Ok?
    ensures SeedRole(db, s1, created).Ok?
    ensures SeedRoles(db, [s1, s2], created) == SeedRole(SeedRole(db, s1, created).value, s2, created)
  {
    assert [s1, s2][1..] == [s2];
    var db2 := SeedRole(db, s1, created).value;
    assert [s2][1..] == [];
    assert SeedRoles(db2, [s2], created) == SeedRole(db2, s2, created);
  }

  /** A role step stores no role under another name. */
  lemma StepAddsOnlyItsName(db: Rbac, spec: DefaultRoleSpec, created: map<string, PermId>, name: string)
    requires Inv(db) && RoleByName(db.roles, name) == NoRoleNamed && name != spec.name
    requires SeedRole(db, spec, created).Ok?
    ensures RoleByName(SeedRole(db, spec, created).value.roles, name) == NoRoleNamed
  {
    if RoleByName(db.roles, spec.name) == NoRoleNamed {
      NewRoleStep(db, spec, created);
      assert SeedRole(db, spec, created).value.roles == db.roles[db.nextId := NewRole(spec)];
    }
  }

  /** A role created by the first of two role steps ends up stored with exactly its grants. */
  lemma FirstStepRole(db1: Rbac, s1: DefaultRoleSpec, s2: DefaultRoleSpec, created: map<string, PermId>, c: string)
    requires Inv(db1) && Recorded(db1.perms, created)
    requires forall j :: 0 <= j < |GrantsFor(s1.name)| ==> GrantsFor(s1.name)[j] in created
    requires RoleByName(db1.roles, s1.name) == NoRoleNamed
    requires SeedRoles(db1, [s1, s2], created).Ok?
    ensures var fin := SeedRoles(db1, [s1, s2], created).value;
            && db1.nextId in fin.roles && fin.roles[db1.nextId] == NewRole(s1)
            && (HasPermission(fin, db1.nextId, c) <==> c in GrantsFor(s1.name))
  {
    TwoSteps(db1, s1, s2, created);
    var db2 := SeedRole(db1, s1, created).value;
    NewRoleStep(db1, s1, created);
    CreatedRoleHoldsItsGrants(db1, s1, created, c);
    SeedRoleFacts(db1, s1, created);
    LaterStepKeepsRole(db2, s2, created, db1.nextId, c);
  }

  /** A role created by the second of two role steps ends up stored with exactly its grants. */
  lemma SecondStepRole(db1: Rbac, s1: DefaultRoleSpec, s2: DefaultRoleSpec, created: map<string, PermId>, c: string)
    requires Inv(db1) && Recorded(db1.perms, created)
    requires forall j :: 0 <= j < |GrantsFor(s2.name)| ==> GrantsFor(s2.name)[j] in created
    requires RoleByName(db1.roles, s2.name) == NoRoleNamed && s1.name != s2.name
    requires SeedRoles(db1, [s1, s2], created).Ok?
    ensures var db2 := SeedRole(db1, s1, created).value;
            var fin := SeedRoles(db1, [s1, s2], created).value;
            && db2.nextId in fin.roles && fin.roles[db2.nextId] == NewRole(s2)
            && (HasPermission(fin, db2.nextId, c) <==> c in GrantsFor(s2.name))
  {
    TwoSteps(db1, s1, s2, created);
    var db2 := SeedRole(db1, s1, created).value;
    SeedRoleFacts(db1, s1, created);
    StepAddsOnlyItsName(db1, s1, created, s2.name);
    NewRoleStep(db2, s2, created);
    CreatedRoleHoldsItsGrants(db2, s2, created, c);
  }

  /**
   * A first run creates `admin` as the default system role of level 2 holding every seeded
   * permission, and `staff` as a non-default system role of level 4 holding exactly the six
   * view permissions; a role that was already stored is left to its existing rows.
   */
  lemma SeededRoles(db: Rbac, c: string)
    requires Inv(db)
    requires Seed(db, SeedingApp).Ok?
    ensures var fin := Seed(db, SeedingApp).value;
            && (RoleByName(db.roles, "admin") == NoRoleNamed ==>
                  exists k :: k in fin.roles && fin.roles[k] == NewRole(AdminSpec)
                              && fin.roles[k].isSystemRole && fin.roles[k].isDefault && fin.roles[k].level == 2
                              && (HasPermission(fin, k, c) <==> c in Codenames(DefaultPermissions)))
            && (RoleByName(db.roles, "staff") == NoRoleNamed ==>
                  exists k :: k in fin.roles && fin.roles[k] == NewRole(StaffSpec)
                              && fin.roles[k].isSystemRole && !fin.roles[k].isDefault && fin.roles[k].level == 4
                              && (HasPermission(fin, k, c) <==> c in StaffCodenames))
  {
    var (db1, created) := SeedPermissions(db, DefaultPermissions, map[]).value;
    DefaultCodenamesNonEmpty();
    SeedPermissionsFacts(db, DefaultPermissions, map[]);
    assert Seed(db, SeedingApp) == SeedRoles(db1, [AdminSpec, StaffSpec], created);
    if RoleByName(db.roles, "admin") == NoRoleNamed {
      GrantsAreRecorded(created, AdminSpec.name);
      FirstStepRole(db1, AdminSpec, StaffSpec, created, c);
    }
    if RoleByName(db.roles, "staff") == NoRoleNamed {
      GrantsAreRecorded(created, StaffSpec.name);
      SecondStepRole(db1, AdminSpec, StaffSpec, created, c);
    }
  }

  /**
   * The handler stops at the first catalogue entry whose name is already taken by a
   * permission with another codename: the save of the new permission violates the unique name.
   */
  lemma NameTakenStopsSeeding()
    ensures var db := Rbac([Permission(1, "Can View Users", "users_view", "", "user_management", "view", true)], map[], [], 2);
            Seed(db, SeedingApp) == Err(PermissionClash(DuplicatePermName))
  {
    var db := Rbac([Permission(1, "Can View Users", "users_view", "", "user_management", "view", true)], map[], [], 2);
    var d := DefaultPermissions[0];
    assert IndexOfCodename(db.perms, d.codename).None?;
    assert SamePermNameElsewhere(db.perms, FillCodename(NewPermission(2, d)));
    assert GetOrCreatePermission(db, d) == Err(DuplicatePermName);
  }
}

=== FILE: sorting.dfy ===
/**
 * Ordering of query results. A queryset `.order_by(k1, k2, ...)` is modelled as a stable
 * insertion sort on a sequence under a total preorder built from the keys: integer keys
 * compare numerically, text keys by code point (see `Text.TextLe`), and `ThenBy` breaks
 * the ties of one key with the next.
 */
module Sorting {
  import opened Common
  import opened Text

  /** `le` relates every pair one way or the other and is transitive. */
  ghost predicate TotalPreorder<T(!new)>(le: (T, T) -> bool) {
    && (forall x, y :: le(x, y) || le(y, x))
    && (forall x, y, z :: le(x, y) && le(y, z) ==> le(x, z))
  }

  ghost predicate SortedWith<T>(s: seq<T>, le: (T, T) -> bool) {
    forall i, j :: 0 <= i < j < |s| ==> le(s[i], s[j])
  }

  /** Inserts `x` into the sorted `s` after every element that does not come after it. */
  function InsertWith<T(!new)>(x: T, s: seq<T>, le: (T, T) -> bool): (r: seq<T>)
    requires TotalPreorder(le)
    requires SortedWith(s, le)
    ensures SortedWith(r, le)
    ensures multiset(r) == multiset(s) + multiset{x}
    ensures |r| == |s| + 1
  {
    if |s| == 0 then [x]
    else if le(x, s[0]) then
      assert forall k :: 0 <= k < |s| ==> le(x, s[k]);
      [x] + s
    else
      var rest := InsertWith(x, s[1..], le);
      assert s == [s[0]] + s[1..];
      HeadBeforeAll(s[0], s[1..], x, rest, le);
      [s[0]] + rest
  }

  /** If `h` comes before `x` and before every element of `tail`, it comes before any arrangement of both. */
  lemma HeadBeforeAll<T(!new)>(h: T, tail: seq<T>, x: T, rest: seq<T>, le: (T, T) -> bool)
    requires TotalPreorder(le)
    requires forall k :: 0 <= k < |tail| ==> le(h, tail[k])
    requires !le(x, h)
    requires multiset(rest) == multiset(tail) + multiset{x}
    ensures forall k :: 0 <= k < |rest| ==> le(h, rest[k])
  {
    forall k | 0 <= k < |rest|
      ensures le(h, rest[k])
    {
      assert rest[k] in multiset(rest);
      if rest[k] != x {
        assert rest[k] in multiset(tail);
        var m :| 0 <= m < |tail| && tail[m] == rest[k];
      }
    }
  }

  /** The elements of `s` ordered by `le`; equal elements keep their relative order. */
  function SortWith<T(!new)>(s: seq<T>, le: (T, T) -> bool): (r: seq<T>)
    requires TotalPreorder(le)
    ensures SortedWith(r, le)
    ensures multiset(r) == multiset(s)
    ensures |r| == |s|
  {
    if |s| == 0 then []
    else
      assert s == [s[0]] + s[1..];
      InsertWith(s[0], SortWith(s[1..], le), le)
  }

  /** Comparing by `first`, and by `second` where `first` cannot tell two elements apart. */
  function ThenBy<T>(first: (T, T) -> bool, second: (T, T) -> bool): (T, T) -> bool {
    (x: T, y: T) => first(x, y) && (!first(y, x) || second(x, y))
  }

  lemma ThenByIsTotalPreorder<T(!new)>(first: (T, T) -> bool, second: (T, T) -> bool)
    requires TotalPreorder(first) && TotalPreorder(second)
    ensures TotalPreorder(ThenBy(first, second))
  {
    var le := ThenBy(first, second);
    forall x, y, z | le(x, y) && le(y, z) ensures le(x, z) {
      if first(z, x) {
        assert first(y, x) && first(z, y);
      }
    }
  }

  /** Comparing by an integer key. */
  function ByInt<T>(key: T -> int): (T, T) -> bool {
    (x: T, y: T) => key(x) <= key(y)
  }

  lemma ByIntIsTotalPreorder<T(!new)>(key: T -> int)
    ensures TotalPreorder(ByInt(key))
  {
  }

  /** Comparing by a text key, character code by character code. */
  function ByText<T>(key: T -> string): (T, T) -> bool {
    (x: T, y: T) => TextLe(key(x), key(y))
  }

  lemma ByTextIsTotalPreorder<T(!new)>(key: T -> string)
    ensures TotalPreorder(ByText(key))
  {
    var le := ByText(key);
    forall x, y ensures le(x, y) || le(y, x) {
      TextLeTotal(key(x), key(y));
    }
    forall x, y, z | le(x, y) && le(y, z) ensures le(x, z) {
      TextLeTransitive(key(x), key(y), key(z));
    }
  }

  /** What `ThenBy(ByText(first), ByText(second))` says of two elements in order. */
  lemma ThenByTextOrders<T>(first: T -> string, second: T -> string, x: T, y: T)
    requires ThenBy(ByText(first), ByText(second))(x, y)
    ensures TextLe(first(x), first(y))
    ensures first(x) == first(y) ==> TextLe(second(x), second(y))
  {
    if first(x) == first(y) {
      TextLeReflexive(first(y));
    }
  }

  /** What `ThenBy(ByText(a), ThenBy(ByText(b), ByText(c)))` says of two elements in order. */
  lemma ThenByTextOrders3<T>(a: T -> string, b: T -> string, c: T -> string, x: T, y: T)
    requires ThenBy(ByText(a), ThenBy(ByText(b), ByText(c)))(x, y)
    ensures TextLe(a(x), a(y))
    ensures a(x) == a(y) ==> TextLe(b(x), b(y))
    ensures a(x) == a(y) && b(x) == b(y) ==> TextLe(c(x), c(y))
  {
    if a(x) == a(y) {
      TextLeReflexive(a(y));
      ThenByTextOrders(b, c, x, y);
    }
  }

  predicate LexLe(a1: int, a2: int, b1: int, b2: int) {
    a1 < b1 || (a1 == b1 && a2 <= b2)
  }

  predicate Before<T>(x: T, y: T, key: T -> int, tie: T -> int) {
    LexLe(key(x), tie(x), key(y), tie(y))
  }

  ghost predicate SortedBy<T>(s: seq<T>, key: T -> int, tie: T -> int) {
    forall i, j :: 0 <= i < j < |s| ==> Before(s[i], s[j], key, tie)
  }

  /** `.order_by(key, tie)` on two integer keys is `ThenBy(ByInt(key), ByInt(tie))`. */
  lemma ByKeysIsBefore<T(!new)>(key: T -> int, tie: T -> int)
    ensures TotalPreorder(ThenBy(ByInt(key), ByInt(tie)))
    ensures forall x, y :: ThenBy(ByInt(key), ByInt(tie))(x, y) == Before(x, y, key, tie)
  {
    ByIntIsTotalPreorder(key);
    ByIntIsTotalPreorder(tie);
    ThenByIsTotalPreorder(ByInt(key), ByInt(tie));
  }

  /** The elements of `s` ordered by (key, tie). */
  function SortBy<T(!new)>(s: seq<T>, key: T -> int, tie: T -> int): (r: seq<T>)
    ensures SortedBy(r, key, tie)
    ensures multiset(r) == multiset(s)
    ensures |r| == |s|
  {
    ByKeysIsBefore(key, tie);
    SortWith(s, ThenBy(ByInt(key), ByInt(tie)))
  }

  /** Dropping elements from a sorted sequence leaves it sorted. */
  lemma {:induction false} FilterKeepsSorted<T>(s: seq<T>, p: T -> bool, le: (T, T) -> bool)
    requires SortedWith(s, le)
    ensures SortedWith(Filter(s, p), le)
    decreases |s|
  {
    if |s| > 0 {
      var init := s[..|s| - 1];
      var last := s[|s| - 1];
      var f := Filter(init, p);
      assert SortedWith(init, le);
      FilterKeepsSorted(init, p, le);
      if p(last) {
        forall i | 0 <= i < |f| ensures le(f[i], last) {
          FilterSubset(init, p, f[i]);
          var k :| 0 <= k < |init| && init[k] == f[i];
        }
      }
    }
  }
}

=== FILE: template_api.dfy ===
/**
 * The template endpoints: create and update through the template serializer (with the
 * optional nested `steps_data` list), duplication, and the department / business-unit
 * lists. None of these runs inside a transaction, so a failure half-way leaves the writes
 * already made in place; the model returns the tables as they are after the failure.
 */
module TemplateApi {
  import opened Common
  import opened Boarding

  datatype ApiError =
    | NotFound
    | TemplateRejected(reason: TemplateError)
    | StepRejected(stepReason: StepError)
    | Protected

  /**
   * The invariants every stored state keeps: primary keys below `nextId` (so `nextId` is
   * fresh), distinct step keys, and every step inside a stored template's duration.
   */
  ghost predicate WellFormed(db: Db) {
    && (forall k :: k in db.templates ==> k < db.nextId)
    && (forall k :: k in db.journeys ==> k < db.nextId)
    && IdsBelow(db.steps, db.nextId)
    && UniqueStepIds(db.steps)
    && UniqueStepOrders(db.steps)
    && StepsWithinDuration(db)
  }

  predicate IdsBelow(steps: seq<Step>, n: nat) {
    forall i :: 0 <= i < |steps| ==> steps[i].id < n
  }

  // ---------------------------------------------------------------------------------------
  // Creating the steps of `steps_data`
  // ---------------------------------------------------------------------------------------

  /**
   * The steps created from `data` for template `tid`, with fresh keys from `first` on.
   * Only the payload fields of each entry are used; its key and template are assigned here.
   */
  function Placed(data: seq<Step>, first: nat, tid: TemplateId): (r: seq<Step>)
    ensures |r| == |data|
    ensures forall i :: 0 <= i < |r| ==> r[i] == data[i].(id := first + i, template := tid)
  {
    seq(|data|, i requires 0 <= i < |data| => data[i].(id := first + i, template := tid))
  }

  /** A step whose key is above every stored key is appended at the end. */
  lemma PutStepFresh(steps: seq<Step>, s: Step)
    requires IdsBelow(steps, s.id)
    ensures PutStep(steps, s) == steps + [s]
  {
    match IndexWhere(steps, (x: Step) => x.id == s.id)
    case None =>
    case Some(k) =>
  }

  /** What creating a list of steps did: the tables after it, how many entries were saved, the refusal if any. */
  datatype Added = Added(db: Db, placed: nat, error: Option<StepError>)

  /**
   * `JourneyStep.objects.create(template=tid, **entry)` for each entry of `data` in turn,
   * stopping at the first refused entry; the entries saved before it stay saved.
   */
  function AddSteps(db: Db, tid: TemplateId, data: seq<Step>): (r: Added)
    ensures r.db.templates == db.templates && r.db.journeys == db.journeys && r.db.instances == db.instances
    ensures r.placed <= |data| && (r.error.None? <==> r.placed == |data|)
    ensures r.db.nextId == db.nextId + r.placed
    decreases |data|
  {
    if |data| == 0 then Added(db, 0, None)
    else
      match SaveStep(db, data[0].(id := db.nextId, template := tid))
      case Err(e) => Added(db, 0, Some(e))
      case Ok(db1) =>
        var rest := AddSteps(db1.(nextId := db.nextId + 1), tid, data[1..]);
        Added(rest.db, rest.placed + 1, rest.error)
  }

  /**
   * Every entry is saved when each fits the template's duration and their orders differ from
   * each other and from those of the template's stored steps.
   */
  lemma {:induction false} AddStepsSucceeds(db: Db, tid: TemplateId, data: seq<Step>)
    requires tid in db.templates && IdsBelow(db.steps, db.nextId)
    requires forall i :: 0 <= i < |data| ==> data[i].dueDaysFromStart <= db.templates[tid].estimatedDurationDays
    requires forall i, j :: 0 <= i < j < |data| ==> data[i].order != data[j].order
    requires forall i, k :: 0 <= i < |data| && 0 <= k < |db.steps| && db.steps[k].template == tid
               ==> db.steps[k].order != data[i].order
    ensures AddSteps(db, tid, data).error.None?
    decreases |data|
  {
    if |data| > 0 {
      var s := data[0].(id := db.nextId, template := tid);
      assert forall k :: 0 <= k < |db.steps| ==> !SameStepSlot(db.steps[k], s);
      var db1 := SaveStep(db, s).value;
      PutStepFresh(db.steps, s);
      var d := db1.(nextId := db.nextId + 1);
      assert d.steps == db.steps + [s];
      var rest := data[1..];
      forall i, k | 0 <= i < |rest| && 0 <= k < |d.steps| && d.steps[k].template == tid
        ensures d.steps[k].order != rest[i].order
      {
        assert rest[i] == data[i + 1];
        if k == |db.steps| {
          assert d.steps[k] == s;
        }
      }
      AddStepsSucceeds(d, tid, rest);
    }
  }

  /** Creating steps one by one keeps the step invariants, since each save does. */
  lemma {:induction false} AddStepsKeepsInvariants(db: Db, tid: TemplateId, data: seq<Step>)
    ensures var r := AddSteps(db, tid, data);
            && (StepsWithinDuration(db) ==> StepsWithinDuration(r.db))
            && (UniqueStepIds(db.steps) ==> UniqueStepIds(r.db.steps))
            && (UniqueStepIds(db.steps) && UniqueStepOrders(db.steps) ==> UniqueStepOrders(r.db.steps))
    decreases |data|
  {
    if |data| > 0 {
      var s := data[0].(id := db.nextId, template := tid);
      if SaveStep(db, s).Ok? {
        SaveStepKeepsInvariants(db, s);
        var d := SaveStep(db, s).value.(nextId := db.nextId + 1);
        AddStepsKeepsInvariants(d, tid, data[1..]);
        assert AddSteps(db, tid, data).db == AddSteps(d, tid, data[1..]).db;
      }
    }
  }

  /**
   * With fresh keys, the saved entries are appended in order after the stored steps:
   * all of `data` on success, the entries before the refused one otherwise.
   */
  lemma {:induction false} AddStepsAppends(db: Db, tid: TemplateId, data: seq<Step>)
    requires IdsBelow(db.steps, db.nextId)
    ensures var r := AddSteps(db, tid, data);
            IdsBelow(r.db.steps, r.db.nextId) && r.db.steps == db.steps + Placed(data[..r.placed], db.nextId, tid)
    decreases |data|
  {
    if |data| == 0 {
      assert data[..0] == [];
    } else {
      var s := data[0].(id := db.nextId, template := tid);
      var saved := SaveStep(db, s);
      if saved.Err? {
        assert Placed(data[..0], db.nextId, tid) == [];
      } else {
        var d := saved.value.(nextId := db.nextId + 1);
        PutStepFresh(db.steps, s);
        AddStepsAppends(d, tid, data[1..]);
        AppendsAfterSaved(db, tid, data, saved.value, AddSteps(d, tid, data[1..]));
      }
    }
  }

  /** The step of `AddStepsAppends` after a saved first entry. */
  lemma AppendsAfterSaved(db: Db, tid: TemplateId, data: seq<Step>, db1: Db, rest: Added)
    requires 0 < |data|
    requires SaveStep(db, data[0].(id := db.nextId, template := tid)) == Ok(db1)
    requires db1.steps == db.steps + [data[0].(id := db.nextId, template := tid)]
    requires rest == AddSteps(db1.(nextId := db.nextId + 1), tid, data[1..])
    requires rest.db.steps == db1.steps + Placed(data[1..][..rest.placed], db.nextId + 1, tid)
    ensures AddSteps(db, tid, data).db == rest.db
    ensures AddSteps(db, tid, data).db.steps == db.steps + Placed(data[..AddSteps(db, tid, data).placed], db.nextId, tid)
  {
    assert AddSteps(db, tid, data) == Added(rest.db, rest.placed + 1, rest.error);
    assert rest.db.steps == db.steps + Placed(data[..rest.placed + 1], db.nextId, tid) by {
      PlacedCons(db.steps, data, db.nextId, tid, rest.placed, db1.steps, rest.db.steps);
    }
  }

  /** Saving entry 0 and then `k` entries of the rest is saving the first `k + 1` entries. */
  lemma PlacedCons(steps: seq<Step>, data: seq<Step>, first: nat, tid: TemplateId, k: nat, prefix: seq<Step>, after: seq<Step>)
    requires 0 < |data| && k <= |data| - 1
    requires prefix == steps + [data[0].(id := first, template := tid)]
    requires after == prefix + Placed(data[1..][..k], first + 1, tid)
    ensures after == steps + Placed(data[..k + 1], first, tid)
  {
    var head := [data[0].(id := first, template := tid)];
    var a := head + Placed(data[1..][..k], first + 1, tid);
    var b := Placed(data[..k + 1], first, tid);
    forall i | 0 <= i < |a| ensures a[i] == b[i] {
      if i > 0 {
        assert a[i] == Placed(data[1..][..k], first + 1, tid)[i - 1];
        assert data[1..][..k][i - 1] == data[i];
      }
    }
    assert a == b;
    assert after == steps + a;
  }

  /** The steps of `tid` after appending steps that all belong to `tid`. */
  lemma StepsOfAfterPlacing(steps: seq<Step>, data: seq<Step>, first: nat, tid: TemplateId, other: TemplateId)
    ensures StepsOf(steps + Placed(data, first, tid), tid) == StepsOf(steps, tid) + Placed(data, first, tid)
    ensures other != tid ==> StepsOf(steps + Placed(data, first, tid), other) == StepsOf(steps, other)
  {
    var placed := Placed(data, first, tid);
    FilterAppend(steps, placed, (s: Step) => s.template == tid);
    FilterAll(placed, (s: Step) => s.template == tid);
    FilterAppend(steps, placed, (s: Step) => s.template == other);
    if other != tid {
      FilterNone(placed, (s: Step) => s.template == other);
    }
  }

  /** The reply once the steps are created: the refusal of a step, or the template's key. */
  function Reply(added: Added, id: TemplateId): (r: (Db, Result<TemplateId, ApiError>))
    ensures r.0 == added.db
    ensures r.1.Ok? <==> added.error.None?
    ensures r.1.Ok? ==> r.1.value == id
    ensures r.1.Err? ==> r.1.error.StepRejected?
  {
    if added.error.Some? then (added.db, Err(StepRejected(added.error.value))) else (added.db, Ok(id))
  }

  /**
   * Inserting a template under the fresh key keeps the stored state well formed once the
   * key counter moves past it, and the new template has no steps yet.
   */
  lemma NewTemplateKeepsWellFormed(db: Db, t: Template)
    requires WellFormed(db)
    requires SaveTemplate(db, db.nextId, t).Ok?
    ensures var d := SaveTemplate(db, db.nextId, t).value.(nextId := db.nextId + 1);
            WellFormed(d) && d.steps == db.steps
  {
    var n := db.nextId;
    var d := SaveTemplate(db, n, t).value.(nextId := n + 1);
    assert d.templates == db.templates[n := FillDepartment(t)];
    forall i | 0 <= i < |d.steps|
      ensures d.steps[i].template in d.templates
      ensures d.steps[i].dueDaysFromStart <= d.templates[d.steps[i].template].estimatedDurationDays
    {
      assert db.steps[i].template in db.templates;
    }
  }

  /** No stored step belongs to the fresh key. */
  lemma NoStepsUnderFreshKey(db: Db)
    requires WellFormed(db)
    ensures StepsOf(db.steps, db.nextId) == []
  {
    forall i | 0 <= i < |db.steps| ensures db.steps[i].template != db.nextId {
      assert db.steps[i].template in db.templates;
    }
    FilterNone(db.steps, (s: Step) => s.template == db.nextId);
  }

  // ---------------------------------------------------------------------------------------
  // create
  // ---------------------------------------------------------------------------------------

  function DataOf(stepsData: Option<seq<Step>>): seq<Step> {
    if stepsData.Some? then stepsData.value else []
  }

  /**
   * The create serializer: the (account, journey_type, title) check of the validator the
   * serializer derives from the model's `unique_together`, then the template (default,
   * database key and department rules of `SaveTemplate`), then one step per `steps_data`
   * entry; no `steps_data` means no steps. `job_title` is not among the accepted fields, so
   * the new template never has one.
   */
  function Create(db: Db, t: Template, stepsData: Option<seq<Step>>): (r: (Db, Result<TemplateId, ApiError>))
    ensures OtherWithSameKey(db.templates, db.nextId, t) ==> r == (db, Err(TemplateRejected(DuplicateTemplate)))
    ensures r.1.Err? && r.1.error.TemplateRejected? ==> r.0 == db
    ensures !(r.1.Err? && r.1.error.TemplateRejected?) ==>
              r.0.templates == db.templates[db.nextId := FillDepartment(t.(jobTitle := None))]
    ensures r.1.Ok? ==> r.1.value == db.nextId
    ensures r.1.Err? ==> r.1.error.TemplateRejected? || r.1.error.StepRejected?
    ensures r.0.journeys == db.journeys && r.0.instances == db.instances
  {
    var t' := t.(jobTitle := None);
    if OtherWithSameKey(db.templates, db.nextId, t') then (db, Err(TemplateRejected(DuplicateTemplate)))
    else
      match SaveTemplate(db, db.nextId, t')
      case Err(e) => (db, Err(TemplateRejected(e)))
      case Ok(_) => Reply(AfterNewTemplate(db, t', DataOf(stepsData)), db.nextId)
  }

  /** A create, whether or not all its steps are saved, keeps the model's (account, journey_type, title) keys distinct. */
  lemma CreateKeepsModelKey(db: Db, t: Template, stepsData: Option<seq<Step>>)
    requires UniqueTemplateKeys(db.templates)
    ensures UniqueTemplateKeys(Create(db, t, stepsData).0.templates)
  {
    var t' := t.(jobTitle := None);
    if !OtherWithSameKey(db.templates, db.nextId, t') && SaveTemplate(db, db.nextId, t').Ok? {
      CheckedSaveKeepsModelKey(db, db.nextId, t');
    }
  }

  /** The tables after inserting template `t` under the fresh key and creating its steps from `data`. */
  function AfterNewTemplate(db: Db, t: Template, data: seq<Step>): (r: Added)
    requires SaveTemplate(db, db.nextId, t).Ok?
    ensures r.db.templates == db.templates[db.nextId := FillDepartment(t)]
    ensures r.db.nextId > db.nextId
  {
    AddSteps(SaveTemplate(db, db.nextId, t).value.(nextId := db.nextId + 1), db.nextId, data)
  }

  /** When all its steps are saved, the new template's steps are appended after the stored ones. */
  lemma AppendedAfterNewTemplate(db: Db, t: Template, data: seq<Step>)
    requires IdsBelow(db.steps, db.nextId)
    requires SaveTemplate(db, db.nextId, t).Ok?
    requires AfterNewTemplate(db, t, data).error.None?
    ensures AfterNewTemplate(db, t, data).db.steps == db.steps + Placed(data, db.nextId + 1, db.nextId)
  {
    var n := db.nextId;
    var d := SaveTemplate(db, n, t).value.(nextId := n + 1);
    assert d.steps == db.steps && IdsBelow(d.steps, d.nextId);
    AddStepsAppends(d, n, data);
    assert data[..|data|] == data;
  }

  /** A template created under a key that had no steps holds exactly the placed entries; other keys keep theirs. */
  lemma NewTemplateSteps(db: Db, t: Template, data: seq<Step>, other: TemplateId)
    requires IdsBelow(db.steps, db.nextId) && StepsOf(db.steps, db.nextId) == []
    requires SaveTemplate(db, db.nextId, t).Ok?
    requires AfterNewTemplate(db, t, data).error.None?
    ensures StepsOf(AfterNewTemplate(db, t, data).db.steps, db.nextId) == Placed(data, db.nextId + 1, db.nextId)
    ensures other != db.nextId ==> StepsOf(AfterNewTemplate(db, t, data).db.steps, other) == StepsOf(db.steps, other)
  {
    AppendedAfterNewTemplate(db, t, data);
    FreshKeySteps(db.steps, AfterNewTemplate(db, t, data).db.steps, data, db.nextId, other);
  }

  /**
   * Steps placed under a key that had none are exactly that key's steps, in order, and the
   * other keys' steps are untouched.
   */
  lemma StepsOfFreshTemplate(steps: seq<Step>, data: seq<Step>, first: nat, tid: TemplateId)
    requires StepsOf(steps, tid) == []
    ensures StepsOf(steps + Placed(data, first, tid), tid) == Placed(data, first, tid)
    ensures forall other :: other != tid ==> StepsOf(steps + Placed(data, first, tid), other) == StepsOf(steps, other)
  {
    forall other | other != tid
      ensures StepsOf(steps + Placed(data, first, tid), other) == StepsOf(steps, other)
    {
      StepsOfAfterPlacing(steps, data, first, tid, other);
    }
    StepsOfAfterPlacing(steps, data, first, tid, tid);
    var placed := Placed(data, first, tid);
    assert [] + placed == placed;
  }

  /** Inserting a template and creating its steps keeps the stored state well formed, whether or not all steps are saved. */
  lemma WellFormedAfterNewTemplate(db: Db, t: Template, data: seq<Step>)
    requires WellFormed(db) && SaveTemplate(db, db.nextId, t).Ok?
    ensures WellFormed(AfterNewTemplate(db, t, data).db)
  {
    NewTemplateKeepsWellFormed(db, t);
    var d := SaveTemplate(db, db.nextId, t).value.(nextId := db.nextId + 1);
    AddStepsAppends(d, db.nextId, data);
    AddStepsKeepsInvariants(d, db.nextId, data);
  }

  /** A create that succeeds passed both template checks and replies with what adding its steps did. */
  lemma CreateIsReply(db: Db, t: Template, stepsData: Option<seq<Step>>)
    requires Create(db, t, stepsData).1.Ok?
    ensures var t' := t.(jobTitle := None);
            && !OtherWithSameKey(db.templates, db.nextId, t') && SaveTemplate(db, db.nextId, t').Ok?
            && Create(db, t, stepsData) == Reply(AfterNewTemplate(db, t', DataOf(stepsData)), db.nextId)
            && AfterNewTemplate(db, t', DataOf(stepsData)).error.None?
  {
  }

  /** A created template holds exactly the `steps_data` entries, in the given order, and nothing else changes. */
  lemma CreatePlacesSteps(db: Db, t: Template, stepsData: Option<seq<Step>>)
    requires WellFormed(db)
    requires Create(db, t, stepsData).1.Ok?
    ensures var r := Create(db, t, stepsData).0;
            && StepsOf(r.steps, db.nextId) == Placed(DataOf(stepsData), db.nextId + 1, db.nextId)
            && StepCount(r, db.nextId) == |DataOf(stepsData)|
            && (forall other :: other != db.nextId ==> StepsOf(r.steps, other) == StepsOf(db.steps, other))
  {
    var data := DataOf(stepsData);
    var after := Create(db, t, stepsData).0;
    assert after.steps == db.steps + Placed(data, db.nextId + 1, db.nextId) by {
      CreateIsReply(db, t, stepsData);
      AppendedAfterNewTemplate(db, t.(jobTitle := None), data);
    }
    NoStepsUnderFreshKey(db);
    forall other ensures StepsOf(after.steps, db.nextId) == Placed(data, db.nextId + 1, db.nextId)
                         && (other != db.nextId ==> StepsOf(after.steps, other) == StepsOf(db.steps, other)) {
      FreshKeySteps(db.steps, after.steps, data, db.nextId, other);
    }
  }

  /** A create keeps the stored state well formed, whether or not all steps are saved. */
  lemma CreateKeepsWellFormed(db: Db, t: Template, stepsData: Option<seq<Step>>)
    requires WellFormed(db)
    ensures WellFormed(Create(db, t, stepsData).0)
  {
    var t' := t.(jobTitle := None);
    if !OtherWithSameKey(db.templates, db.nextId, t') && SaveTemplate(db, db.nextId, t').Ok? {
      assert Create(db, t, stepsData).0 == AfterNewTemplate(db, t', DataOf(stepsData)).db;
      WellFormedAfterNewTemplate(db, t', DataOf(stepsData));
    }
  }

  // ---------------------------------------------------------------------------------------
  // update
  // ---------------------------------------------------------------------------------------

  /** The fields of an update request; an absent field keeps the template's current value. */
  datatype TemplatePatch = TemplatePatch(
    journeyType: Option<JourneyType>,
    title: Option<string>,
    description: Option<string>,
    department: Option<string>,
    businessUnit: Option<string>,
    estimatedDurationDays: Option<nat>,
    account: Option<AccountId>,
    isActive: Option<bool>,
    isDefault: Option<bool>)

  const NoChanges := TemplatePatch(None, None, None, None, None, None, None, None, None)

  function Pick<T>(o: Option<T>, current: T): T {
    if o.Some? then o.value else current
  }

  /** The template after `setattr` of every supplied field. */
  function ApplyPatch(t: Template, p: TemplatePatch): (r: Template)
    ensures r.jobTitle == t.jobTitle
    ensures p.journeyType.Some? ==> r.journeyType == p.journeyType.value
    ensures p.title.Some? ==> r.title == p.title.value
    ensures p.description.Some? ==> r.description == p.description.value
    ensures p.department.Some? ==> r.department == p.department.value
    ensures p.businessUnit.Some? ==> r.businessUnit == p.businessUnit.value
    ensures p.estimatedDurationDays.Some? ==> r.estimatedDurationDays == p.estimatedDurationDays.value
    ensures p.account.Some? ==> r.account == p.account.value
    ensures p.isActive.Some? ==> r.isActive == p.isActive.value
    ensures p.isDefault.Some? ==> r.isDefault == p.isDefault.value
    ensures p.journeyType.None? ==> r.journeyType == t.journeyType
    ensures p.title.None? ==> r.title == t.title
    ensures p.description.None? ==> r.description == t.description
    ensures p.department.None? ==> r.department == t.department
    ensures p.businessUnit.None? ==> r.businessUnit == t.businessUnit
    ensures p.estimatedDurationDays.None? ==> r.estimatedDurationDays == t.estimatedDurationDays
    ensures p.account.None? ==> r.account == t.account
    ensures p.isActive.None? ==> r.isActive == t.isActive
    ensures p.isDefault.None? ==> r.isDefault == t.isDefault
  {
    t.(journeyType := Pick(p.journeyType, t.journeyType), title := Pick(p.title, t.title),
       description := Pick(p.description, t.description), department := Pick(p.department, t.department),
       businessUnit := Pick(p.businessUnit, t.businessUnit),
       estimatedDurationDays := Pick(p.estimatedDurationDays, t.estimatedDurationDays),
       account := Pick(p.account, t.account), isActive := Pick(p.isActive, t.isActive),
       isDefault := Pick(p.isDefault, t.isDefault))
  }

  /** An update that supplies no field leaves the template as it is. */
  lemma EmptyPatchKeepsTemplate(t: Template)
    ensures ApplyPatch(t, NoChanges) == t
  {
  }

  /**
   * The update-time `validate` (and the `unique_together` validator, which checks the same
   * key): refused when another template (not this one) has the (account, journey_type,
   * title) the update would produce, each taken from the request or else from the stored
   * template.
   */
  function ValidateUpdate(db: Db, id: TemplateId, p: TemplatePatch): (r: Result<TemplatePatch, TemplateError>)
    requires id in db.templates
    ensures r.Ok? <==> !(exists k :: k in db.templates && k != id
                          && db.templates[k].account == Pick(p.account, db.templates[id].account)
                          && db.templates[k].journeyType == Pick(p.journeyType, db.templates[id].journeyType)
                          && db.templates[k].title == Pick(p.title, db.templates[id].title))
    ensures r.Ok? ==> r.value == p
  {
    if OtherWithSameKey(db.templates, id, ApplyPatch(db.templates[id], p)) then Err(DuplicateTemplate) else Ok(p)
  }

  /** When the stored keys are distinct, an update that keeps account, type and title is never refused as a duplicate. */
  lemma KeepingTheKeyValidates(db: Db, id: TemplateId, p: TemplatePatch)
    requires id in db.templates && UniqueTemplateKeys(db.templates)
    requires p.account.None? && p.journeyType.None? && p.title.None?
    ensures ValidateUpdate(db, id, p).Ok?
  {
  }

  /** An update, whatever its outcome, keeps the model's (account, journey_type, title) keys distinct. */
  lemma UpdateKeepsModelKey(db: Db, id: TemplateId, p: TemplatePatch, stepsData: Option<seq<Step>>)
    requires UniqueTemplateKeys(db.templates)
    ensures UniqueTemplateKeys(Update(db, id, p, stepsData).0.templates)
  {
    if id in db.templates && ValidateUpdate(db, id, p).Ok? && SaveTemplate(db, id, ApplyPatch(db.templates[id], p)).Ok? {
      CheckedSaveKeepsModelKey(db, id, ApplyPatch(db.templates[id], p));
    }
  }

  /** Some step instance refers to a step of template `tid`. */
  predicate StepHasInstances(db: Db, tid: TemplateId) {
    exists i, j :: 0 <= i < |db.instances| && 0 <= j < |db.steps|
      && db.steps[j].template == tid && db.instances[i].stepTemplate == db.steps[j].id
  }

  /** `instance.steps.all().delete()`. */
  function Cleared(db: Db, tid: TemplateId): (r: Db)
    ensures StepsOf(r.steps, tid) == []
    ensures forall other :: other != tid ==> StepsOf(r.steps, other) == StepsOf(db.steps, other)
    ensures r == db.(steps := r.steps)
    ensures forall n :: IdsBelow(db.steps, n) ==> IdsBelow(r.steps, n)
  {
    var keep := (s: Step) => s.template != tid;
    var r := db.(steps := Filter(db.steps, keep));
    forall n | IdsBelow(db.steps, n) ensures IdsBelow(r.steps, n) {
      FilterKeepsProperty(db.steps, keep, (s: Step) => s.id < n);
    }
    FilterNone(r.steps, (s: Step) => s.template == tid);
    forall other | other != tid ensures StepsOf(r.steps, other) == StepsOf(db.steps, other) {
      FilterOfFilter(db.steps, keep, (s: Step) => s.template == other);
    }
    r
  }

  /**
   * The update serializer on template `id`: validate, save the supplied fields, and when
   * `steps_data` is present (even empty) delete every step of the template and create the
   * given ones. The deletion is refused as a whole when a step instance still refers to
   * one of the steps (protected foreign key); the template's fields stay saved.
   */
  function Update(db: Db, id: TemplateId, p: TemplatePatch, stepsData: Option<seq<Step>>): (r: (Db, Result<TemplateId, ApiError>))
    ensures id !in db.templates ==> r == (db, Err(NotFound))
    ensures r.1.Err? && r.1.error.TemplateRejected? ==> r.0 == db
    ensures r.1.Ok? || r.1 == Err(Protected) || (r.1.Err? && r.1.error.StepRejected?) ==>
              id in db.templates && r.0.templates == db.templates[id := FillDepartment(ApplyPatch(db.templates[id], p))]
    ensures r.1 == Err(Protected) <==> id in db.templates && ValidateUpdate(db, id, p).Ok? && stepsData.Some?
                                       && SaveTemplate(db, id, ApplyPatch(db.templates[id], p)).Ok?
                                       && StepHasInstances(db, id)
    ensures r.1 == Err(Protected) ==> r.0.steps == db.steps
    ensures stepsData.None? ==> r.0.steps == db.steps
    ensures r.0.journeys == db.journeys && r.0.instances == db.instances
  {
    if id !in db.templates then (db, Err(NotFound))
    else
      match ValidateUpdate(db, id, p)
      case Err(e) => (db, Err(TemplateRejected(e)))
      case Ok(_) =>
        match SaveTemplate(db, id, ApplyPatch(db.templates[id], p))
        case Err(e) => (db, Err(TemplateRejected(e)))
        case Ok(db1) =>
          if stepsData.None? then (db1, Ok(id))
          else if StepHasInstances(db1, id) then (db1, Err(Protected))
          else Reply(AddSteps(Cleared(db1, id), id, stepsData.value), id)
  }

  /**
   * A successful update with `steps_data` leaves the template with exactly the given steps,
   * in order, and the other templates' steps untouched.
   */
  lemma UpdateReplacesSteps(db: Db, id: TemplateId, p: TemplatePatch, data: seq<Step>)
    requires WellFormed(db)
    requires Update(db, id, p, Some(data)).1.Ok?
    ensures var r := Update(db, id, p, Some(data)).0;
            && StepsOf(r.steps, id) == Placed(data, db.nextId, id)
            && StepCount(r, id) == |data|
            && forall other :: other != id ==> StepsOf(r.steps, other) == StepsOf(db.steps, other)
  {
    var db1 := SaveTemplate(db, id, ApplyPatch(db.templates[id], p)).value;
    var c := Cleared(db1, id);
    assert IdsBelow(c.steps, c.nextId);
    var added := AddSteps(c, id, data);
    AddStepsAppends(c, id, data);
    assert Update(db, id, p, Some(data)) == Reply(added, id);
    assert added.placed == |data| && data[..|data|] == data;
    assert added.db.steps == c.steps + Placed(data, db.nextId, id);
    forall other | other != id ensures StepsOf(added.db.steps, other) == StepsOf(db.steps, other) {
      StepsOfAfterPlacing(c.steps, data, db.nextId, id, other);
    }
    StepsOfAfterPlacing(c.steps, data, db.nextId, id, id);
  }

  /** Filtering by `b` after removing what `a` rejects changes nothing when `b` implies `a`. */
  lemma {:induction false} FilterOfFilter(s: seq<Step>, a: Step -> bool, b: Step -> bool)
    requires forall x :: b(x) ==> a(x)
    ensures Filter(Filter(s, a), b) == Filter(s, b)
    decreases |s|
  {
    if |s| > 0 {
      var init := s[..|s| - 1];
      var last := s[|s| - 1];
      FilterOfFilter(init, a, b);
      FilterAppend(Filter(init, a), if a(last) then [last] else [], b);
      assert [last][..0] == [];
    }
  }

  // ---------------------------------------------------------------------------------------
  // duplicate
  // ---------------------------------------------------------------------------------------

  /** The copy `duplicate` creates: job title, default flag and active flag are not copied. */
  function CopyOf(t: Template): (r: Template)
    ensures r.title == t.title + " (Copy)"
    ensures r.journeyType == t.journeyType && r.description == t.description && r.department == t.department
    ensures r.businessUnit == t.businessUnit && r.estimatedDurationDays == t.estimatedDurationDays
    ensures r.account == t.account
    ensures r.jobTitle.None? && r.isActive && !r.isDefault
  {
    Template(t.journeyType, t.title + " (Copy)", t.description, None, t.department, t.businessUnit,
             t.estimatedDurationDays, t.account, true, false)
  }

  /**
   * A copy never shares its original's (account, type, title) key, and copying a copy
   * yields yet another title.
   */
  lemma CopyNeverSharesItsOriginalsKey(t: Template)
    ensures !SameUniqueKey(CopyOf(t), t)
    ensures !SameUniqueKey(CopyOf(CopyOf(t)), CopyOf(t)) && !SameUniqueKey(CopyOf(CopyOf(t)), t)
  {
    assert |CopyOf(t).title| > |t.title|;
    assert |CopyOf(CopyOf(t)).title| > |CopyOf(t).title|;
  }

  /** The payload of a copied step: every field but the active flag, which takes its default. */
  function StepCopies(steps: seq<Step>): (r: seq<Step>)
    ensures |r| == |steps|
    ensures forall i :: 0 <= i < |r| ==> r[i] == steps[i].(isActive := true)
  {
    seq(|steps|, i requires 0 <= i < |steps| => steps[i].(isActive := true))
  }

  /**
   * `duplicate`: the copied template, then a copy of each step in (order, due days) order.
   * The copy goes straight to `objects.create`, past the serializer's (account,
   * journey_type, title) check, and has no job title, so the database never refuses it:
   * only a step can fail.
   */
  function Duplicate(db: Db, id: TemplateId): (r: (Db, Result<TemplateId, ApiError>))
    ensures id !in db.templates ==> r == (db, Err(NotFound))
    ensures id in db.templates ==> r.1.Ok? || r.1.error.StepRejected?
    ensures id in db.templates ==> r.0.templates == db.templates[db.nextId := CopyOf(db.templates[id])]
                                   && r.0.nextId > db.nextId
    ensures r.1.Ok? ==> r.1.value == db.nextId
    ensures r.0.journeys == db.journeys && r.0.instances == db.instances
  {
    if id !in db.templates then (db, Err(NotFound))
    else
      match SaveTemplate(db, db.nextId, CopyOf(db.templates[id]))
      case Err(e) => (db, Err(TemplateRejected(e)))
      case Ok(_) => Reply(AfterNewTemplate(db, CopyOf(db.templates[id]), StepCopies(OrderedSteps(db, id))), db.nextId)
  }

  /**
   * The original's steps, in (order, due days) order, have distinct orders and fit its
   * duration: the facts that let every copy be saved.
   */
  lemma OrderedStepsFit(db: Db, id: TemplateId)
    requires UniqueStepIds(db.steps) && UniqueStepOrders(db.steps) && StepsWithinDuration(db)
    requires id in db.templates
    ensures var r := OrderedSteps(db, id);
            && (forall i :: 0 <= i < |r| ==> r[i].dueDaysFromStart <= db.templates[id].estimatedDurationDays)
            && (forall i, j :: 0 <= i < j < |r| ==> r[i].order != r[j].order)
  {
    var r := OrderedSteps(db, id);
    OrderedStepsAreStored(db, id);
    forall i | 0 <= i < |r| ensures r[i].dueDaysFromStart <= db.templates[id].estimatedDurationDays {
      StoredStepFits(db, r[i]);
    }
    forall i, j | 0 <= i < j < |r| ensures r[i].order != r[j].order {
      StoredSlotsDiffer(db.steps, r[i], r[j]);
    }
  }

  /** A stored step fits its template's duration. */
  lemma StoredStepFits(db: Db, x: Step)
    requires StepsWithinDuration(db) && x in db.steps
    ensures x.template in db.templates && x.dueDaysFromStart <= db.templates[x.template].estimatedDurationDays
  {
    var p :| 0 <= p < |db.steps| && db.steps[p] == x;
  }

  /** Two different stored steps of one template have different orders. */
  lemma StoredSlotsDiffer(steps: seq<Step>, x: Step, y: Step)
    requires UniqueStepOrders(steps) && x in steps && y in steps && x != y && x.template == y.template
    ensures x.order != y.order
  {
    var p :| 0 <= p < |steps| && steps[p] == x;
    var q :| 0 <= q < |steps| && steps[q] == y;
    if p < q {
      assert steps[p].order != steps[q].order;
    } else {
      assert steps[q].order != steps[p].order;
    }
  }

  /** Each of a template's ordered steps is a stored step, and none is listed twice. */
  lemma OrderedStepsAreStored(db: Db, id: TemplateId)
    requires UniqueStepIds(db.steps)
    ensures var r := OrderedSteps(db, id);
            && (forall i :: 0 <= i < |r| ==> r[i] in db.steps)
            && (forall i, j :: 0 <= i < j < |r| ==> r[i] != r[j])
  {
    var r := OrderedSteps(db, id);
    var a := StepsOf(db.steps, id);
    forall x ensures multiset(a)[x] <= 1 {
      FilterMultiset(db.steps, (s: Step) => s.template == id, x);
      DistinctCountsOne(db.steps, x);
    }
    DistinctAfterPermutation(a, r);
    forall i | 0 <= i < |r| ensures r[i] in db.steps {
      assert r[i] in multiset(a);
      FilterMultiset(db.steps, (s: Step) => s.template == id, r[i]);
    }
  }

  /** The step copies of a duplicate fit the original's duration and have distinct orders. */
  lemma StepCopiesFit(db: Db, id: TemplateId)
    requires WellFormed(db) && id in db.templates
    ensures var data := StepCopies(OrderedSteps(db, id));
            && (forall i :: 0 <= i < |data| ==> data[i].dueDaysFromStart <= db.templates[id].estimatedDurationDays)
            && (forall i, j :: 0 <= i < j < |data| ==> data[i].order != data[j].order)
  {
    OrderedStepsFit(db, id);
  }

  /** On a well-formed store, duplicating a stored template always succeeds. */
  lemma DuplicateSucceeds(db: Db, id: TemplateId)
    requires WellFormed(db) && id in db.templates
    ensures Duplicate(db, id).1.Ok?
  {
    CopiedStepsAllSaved(db, id);
    DuplicateIsReply(db, id);
  }

  /** The copy is saved, and so is each of its steps. */
  lemma CopiedStepsAllSaved(db: Db, id: TemplateId)
    requires WellFormed(db) && id in db.templates
    ensures var t := CopyOf(db.templates[id]);
            && SaveTemplate(db, db.nextId, t).Ok?
            && AfterNewTemplate(db, t, StepCopies(OrderedSteps(db, id))).error.None?
  {
    var t := CopyOf(db.templates[id]);
    NoJobTitleNoDefaultIsSaved(db, db.nextId, t);
    assert FillDepartment(t).estimatedDurationDays == db.templates[id].estimatedDurationDays;
    StepCopiesFit(db, id);
    forall k | 0 <= k < |db.steps| ensures db.steps[k].template != db.nextId {
      assert db.steps[k].template in db.templates;
    }
    NewTemplateStepsAllSaved(db, t, StepCopies(OrderedSteps(db, id)));
  }

  /**
   * Every step of a new template is saved when each fits its duration and their orders
   * differ; the fresh key holds no steps yet.
   */
  lemma NewTemplateStepsAllSaved(db: Db, t: Template, data: seq<Step>)
    requires SaveTemplate(db, db.nextId, t).Ok? && IdsBelow(db.steps, db.nextId)
    requires forall k :: 0 <= k < |db.steps| ==> db.steps[k].template != db.nextId
    requires forall i :: 0 <= i < |data| ==> data[i].dueDaysFromStart <= FillDepartment(t).estimatedDurationDays
    requires forall i, j :: 0 <= i < j < |data| ==> data[i].order != data[j].order
    ensures AfterNewTemplate(db, t, data).error.None?
  {
    var d := SaveTemplate(db, db.nextId, t).value.(nextId := db.nextId + 1);
    AddStepsSucceeds(d, db.nextId, data);
  }

  /** Past the lookup and the template save, a duplicate replies with what adding the copies did. */
  lemma DuplicateIsReply(db: Db, id: TemplateId)
    requires id in db.templates && SaveTemplate(db, db.nextId, CopyOf(db.templates[id])).Ok?
    ensures Duplicate(db, id)
            == Reply(AfterNewTemplate(db, CopyOf(db.templates[id]), StepCopies(OrderedSteps(db, id))), db.nextId)
  {
  }

  /**
   * A successful duplicate copies every step in (order, due days) order, so the copy has as
   * many steps as the original; the original is left as it was.
   */
  lemma DuplicateCopiesSteps(db: Db, id: TemplateId)
    requires WellFormed(db) && id in db.templates
    ensures var r := Duplicate(db, id).0;
            var n := db.nextId;
            && StepsOf(r.steps, n) == Placed(StepCopies(OrderedSteps(db, id)), n + 1, n)
            && StepCount(r, n) == StepCount(db, id)
            && id in r.templates && r.templates[id] == db.templates[id]
            && StepsOf(r.steps, id) == StepsOf(db.steps, id)
  {
    DuplicateFillsCopy(db, id);
  }

  /** Under a key that had no steps, the steps after placing `data` there are exactly the placed ones. */
  lemma FreshKeySteps(steps: seq<Step>, after: seq<Step>, data: seq<Step>, n: TemplateId, other: TemplateId)
    requires StepsOf(steps, n) == [] && after == steps + Placed(data, n + 1, n)
    ensures StepsOf(after, n) == Placed(data, n + 1, n)
    ensures other != n ==> StepsOf(after, other) == StepsOf(steps, other)
  {
    StepsOfFreshTemplate(steps, data, n + 1, n);
  }

  /** The copy's steps are the copies of the original's steps, in order, under the new key. */
  lemma DuplicateFillsCopy(db: Db, id: TemplateId)
    requires WellFormed(db) && id in db.templates
    ensures StepsOf(Duplicate(db, id).0.steps, db.nextId)
         == Placed(StepCopies(OrderedSteps(db, id)), db.nextId + 1, db.nextId)
    ensures StepsOf(Duplicate(db, id).0.steps, id) == StepsOf(db.steps, id)
  {
    DuplicateSucceeds(db, id);
    NoStepsUnderFreshKey(db);
    var data := StepCopies(OrderedSteps(db, id));
    var t := CopyOf(db.templates[id]);
    DuplicateIsReply(db, id);
    NewTemplateSteps(db, t, data, id);
  }

  /** A duplicate keeps the stored state well formed, whether or not all steps are copied. */
  lemma DuplicateKeepsWellFormed(db: Db, id: TemplateId)
    requires WellFormed(db)
    ensures WellFormed(Duplicate(db, id).0)
  {
    if id in db.templates && SaveTemplate(db, db.nextId, CopyOf(db.templates[id])).Ok? {
      var data := StepCopies(OrderedSteps(db, id));
      var t := CopyOf(db.templates[id]);
      DuplicateIsReply(db, id);
      WellFormedAfterNewTemplate(db, t, data);
    }
  }

  /**
   * Duplicating the same template twice stores two copies with the same account, type and
   * title, so the model's (account, journey_type, title) key no longer holds; the database
   * key does not see it because neither copy has a job title.
   */
  lemma DuplicateTwiceRepeatsModelKey(db: Db, id: TemplateId)
    requires WellFormed(db) && id in db.templates
    ensures var db1 := Duplicate(db, id).0;
            var db2 := Duplicate(db1, id).0;
            && db.nextId in db2.templates && db1.nextId in db2.templates && db.nextId != db1.nextId
            && db2.templates[db.nextId] == db2.templates[db1.nextId] == CopyOf(db.templates[id])
            && !UniqueTemplateKeys(db2.templates)
  {
    var db1 := Duplicate(db, id).0;
    var db2 := Duplicate(db1, id).0;
    assert id < db.nextId;
    assert db1.templates[id] == db.templates[id];
    assert SameUniqueKey(db2.templates[db.nextId], db2.templates[db1.nextId]);
  }

  // ---------------------------------------------------------------------------------------
  // departments / business_units
  // ---------------------------------------------------------------------------------------

  /** The distinct non-empty departments over all templates. */
  function Departments(db: Db): (r: set<string>)
    ensures "" !in r
    ensures forall d :: d in r <==> d != "" && exists k :: k in db.templates && db.templates[k].department == d
  {
    set k | k in db.templates && db.templates[k].department != "" :: db.templates[k].department
  }

  /** The distinct non-empty business units over all templates. */
  function BusinessUnits(db: Db): (r: set<string>)
    ensures "" !in r
    ensures forall b :: b in r <==> b != "" && exists k :: k in db.templates && db.templates[k].businessUnit == b
  {
    set k | k in db.templates && db.templates[k].businessUnit != "" :: db.templates[k].businessUnit
  }

  /**
   * A template saved with a job title and no department is listed under the job title's
   * department (when that is non-empty), and its business unit when non-empty.
   */
  lemma SavedTemplateIsListed(db: Db, id: TemplateId, t: Template)
    requires SaveTemplate(db, id, t).Ok?
    ensures var db' := SaveTemplate(db, id, t).value;
            && (t.department != "" ==> t.department in Departments(db'))
            && (t.department == "" && t.jobTitle.Some? && t.jobTitle.value.department != "" ==>
                  t.jobTitle.value.department in Departments(db'))
            && (t.businessUnit != "" ==> t.businessUnit in BusinessUnits(db'))
  {
    var db' := SaveTemplate(db, id, t).value;
    assert id in db'.templates && db'.templates[id] == FillDepartment(t);
  }
}

=== FILE: templates.dfy ===
/**
 * The boarding data model (journey templates, their steps, journey instances and step
 * instances) and the write rules of the template catalog: the one-default-per-scope rule
 * and department auto-fill of `JourneyTemplate.clean`, the due-day bound of
 * `JourneyStep.clean`, and the ordered step listing `get_steps_ordered`.
 *
 * Tables are modelled as a map from primary key to record (templates, journeys) or as a
 * sequence of records in insertion order (steps, step instances), because the latter are
 * iterated. Dates are integer day numbers.
 */
module Boarding {
  import opened Common
  import Sorting

  type TemplateId = nat
  type StepId = nat
  type JourneyId = nat
  type UserId = nat
  type AccountId = nat
  type JobTitleId = nat

  datatype JourneyType = Onboarding | Offboarding

  datatype StepType =
    | Orientation | Documentation | Training | SystemAccess | Equipment | Meeting | Review
    | Handover | ExitInterview | AssetReturn | AccessRevocation | FinalSettlement | OtherStep

  /** The job title a template may target; its department fills an empty template department. */
  datatype JobTitle = JobTitle(id: JobTitleId, title: string, department: string)

  /** A journey template. Empty strings stand for the NULL/blank text columns. */
  datatype Template = Template(
    journeyType: JourneyType,
    title: string,
    description: string,
    jobTitle: Option<JobTitle>,
    department: string,
    businessUnit: string,
    estimatedDurationDays: nat,
    account: AccountId,
    isActive: bool,
    isDefault: bool)

  /** A step blueprint belonging to one template. */
  datatype Step = Step(
    id: StepId,
    template: TemplateId,
    title: string,
    description: string,
    stepType: StepType,
    responsibleParty: Option<UserId>,
    responsibleRole: string,
    dueDaysFromStart: nat,
    estimatedDurationHours: Option<nat>,
    order: nat,
    isMandatory: bool,
    isBlocking: bool,
    requiresApproval: bool,
    autoAssign: bool,
    notes: string,
    isActive: bool)

  datatype JourneyStatus = NotStarted | InProgress | Completed | Cancelled | OnHold

  datatype StepStatus = StepPending | StepInProgress | StepCompleted | StepSkipped | StepBlocked

  /** One user's journey through one template. */
  datatype Journey = Journey(
    template: TemplateId,
    user: UserId,
    status: JourneyStatus,
    startDate: Option<int>,
    expectedCompletionDate: Option<int>,
    actualCompletionDate: Option<int>,
    totalSteps: nat,
    completedSteps: nat,
    notes: string,
    createdAt: int)

  /** The trackable occurrence of a step blueprint inside one journey. */
  datatype StepInstance = StepInstance(
    journey: JourneyId,
    stepTemplate: StepId,
    assignedTo: Option<UserId>,
    status: StepStatus,
    dueDate: int,
    completedDate: Option<int>,
    completedBy: Option<UserId>,
    completionNotes: string,
    createdBy: Option<UserId>)

  /**
   * The four boarding tables. `nextId` is the next unused primary key; it stands in for the
   * random UUIDs the code assigns, which only need to be fresh.
   */
  datatype Db = Db(
    templates: map<TemplateId, Template>,
    steps: seq<Step>,
    journeys: map<JourneyId, Journey>,
    instances: seq<StepInstance>,
    nextId: nat)

  // ---------------------------------------------------------------------------------------
  // Template keys and invariants
  // ---------------------------------------------------------------------------------------

  function JobTitleKey(t: Template): Option<JobTitleId> {
    if t.jobTitle.Some? then Some(t.jobTitle.value.id) else None
  }

  /** The scope in which at most one template may be the default. */
  predicate SameDefaultScope(a: Template, b: Template) {
    a.account == b.account && a.journeyType == b.journeyType && JobTitleKey(a) == JobTitleKey(b)
  }

  /**
   * The model's `unique_together = ['account', 'journey_type', 'title']`. The database does
   * not hold this key (see `SameDbKey`); the serializers check it before writing.
   */
  predicate SameUniqueKey(a: Template, b: Template) {
    a.account == b.account && a.journeyType == b.journeyType && a.title == b.title
  }

  /**
   * The key the database holds after migration 0002: (account, journey_type, job_title,
   * title). A NULL job title equals nothing in a unique constraint, so two templates
   * without a job title never collide.
   */
  predicate SameDbKey(a: Template, b: Template) {
    && SameUniqueKey(a, b)
    && a.jobTitle.Some? && b.jobTitle.Some? && a.jobTitle.value.id == b.jobTitle.value.id
  }

  predicate OtherDefaultInScope(templates: map<TemplateId, Template>, id: TemplateId, t: Template) {
    exists k :: k in templates && k != id && templates[k].isDefault && SameDefaultScope(templates[k], t)
  }

  predicate OtherWithSameKey(templates: map<TemplateId, Template>, id: TemplateId, t: Template) {
    exists k :: k in templates && k != id && SameUniqueKey(templates[k], t)
  }

  predicate OtherWithSameDbKey(templates: map<TemplateId, Template>, id: TemplateId, t: Template) {
    exists k :: k in templates && k != id && SameDbKey(templates[k], t)
  }

  ghost predicate OneDefaultPerScope(templates: map<TemplateId, Template>) {
    forall a, b :: a in templates && b in templates && a != b
      && templates[a].isDefault && templates[b].isDefault
      ==> !SameDefaultScope(templates[a], templates[b])
  }

  ghost predicate UniqueTemplateKeys(templates: map<TemplateId, Template>) {
    forall a, b :: a in templates && b in templates && a != b
      ==> !SameUniqueKey(templates[a], templates[b])
  }

  ghost predicate UniqueDbKeys(templates: map<TemplateId, Template>) {
    forall a, b :: a in templates && b in templates && a != b
      ==> !SameDbKey(templates[a], templates[b])
  }

  // ---------------------------------------------------------------------------------------
  // JourneyTemplate.clean / save
  // ---------------------------------------------------------------------------------------

  datatype TemplateError = DefaultExists | DuplicateTemplate

  /** The department auto-fill of `clean`: an empty department takes the job title's. */
  function FillDepartment(t: Template): (r: Template)
    ensures r.department == (if t.jobTitle.Some? && t.department == "" then t.jobTitle.value.department else t.department)
    ensures r == t.(department := r.department)
  {
    if t.jobTitle.Some? && t.department == "" then t.(department := t.jobTitle.value.department) else t
  }

  /**
   * Cleaning twice is cleaning once, and after a clean the department is blank only when
   * neither the template nor its job title names one.
   */
  lemma FillDepartmentIsIdempotent(t: Template)
    ensures FillDepartment(FillDepartment(t)) == FillDepartment(t)
    ensures FillDepartment(t).department == "" <==>
              t.department == "" && (t.jobTitle.None? || t.jobTitle.value.department == "")
  {
  }

  /**
   * `JourneyTemplate.save` of `t` under primary key `id` (an insert when `id` is new, an
   * update otherwise): `clean` refuses a second default in the scope, the database refuses
   * a second row with the same (account, journey_type, job_title, title).
   */
  function SaveTemplate(db: Db, id: TemplateId, t: Template): (r: Result<Db, TemplateError>)
    ensures r.Ok? <==> !(t.isDefault && OtherDefaultInScope(db.templates, id, t)) && !OtherWithSameDbKey(db.templates, id, t)
    ensures r.Err? && r.error == DefaultExists <==> t.isDefault && OtherDefaultInScope(db.templates, id, t)
    ensures r.Ok? ==> r.value == db.(templates := db.templates[id := FillDepartment(t)])
  {
    if t.isDefault && OtherDefaultInScope(db.templates, id, t) then Err(DefaultExists)
    else if OtherWithSameDbKey(db.templates, id, t) then Err(DuplicateTemplate)
    else Ok(db.(templates := db.templates[id := FillDepartment(t)]))
  }

  /** A template without a job title and without the default flag is always saved, as it is. */
  lemma NoJobTitleNoDefaultIsSaved(db: Db, id: TemplateId, t: Template)
    requires t.jobTitle.None? && !t.isDefault
    ensures SaveTemplate(db, id, t) == Ok(db.(templates := db.templates[id := t]))
  {
  }

  /** A successful save keeps at most one default per scope and the database keys distinct. */
  lemma SaveTemplateKeepsInvariants(db: Db, id: TemplateId, t: Template)
    requires SaveTemplate(db, id, t).Ok?
    ensures OneDefaultPerScope(db.templates) ==> OneDefaultPerScope(SaveTemplate(db, id, t).value.templates)
    ensures UniqueDbKeys(db.templates) ==> UniqueDbKeys(SaveTemplate(db, id, t).value.templates)
  {
  }

  /**
   * A save that also passes the model's (account, journey_type, title) check keeps that key
   * distinct too; this is how the serializers keep it.
   */
  lemma CheckedSaveKeepsModelKey(db: Db, id: TemplateId, t: Template)
    requires SaveTemplate(db, id, t).Ok? && !OtherWithSameKey(db.templates, id, t)
    ensures UniqueTemplateKeys(db.templates) ==> UniqueTemplateKeys(SaveTemplate(db, id, t).value.templates)
  {
  }

  /** The model's key is strictly stronger than the key the database holds. */
  lemma ModelKeyImpliesDbKey(templates: map<TemplateId, Template>)
    requires UniqueTemplateKeys(templates)
    ensures UniqueDbKeys(templates)
  {
  }

  /** Two templates with the same account, type and title and no job title are distinct for the database. */
  lemma DbKeyIsWeaker()
    ensures exists ts: map<TemplateId, Template> :: UniqueDbKeys(ts) && !UniqueTemplateKeys(ts)
  {
    var a := Template(Onboarding, "Eng", "", None, "", "", 14, 1, true, false);
    var ts := map[0 := a, 1 := a];
    assert !SameDbKey(a, a);
    assert SameUniqueKey(ts[0], ts[1]);
    assert UniqueDbKeys(ts) && !UniqueTemplateKeys(ts);
  }

  // ---------------------------------------------------------------------------------------
  // JourneyStep.clean / save
  // ---------------------------------------------------------------------------------------

  datatype StepError = UnknownTemplate | DueAfterDuration | DuplicateOrder

  predicate SameStepSlot(x: Step, s: Step) {
    x.id != s.id && x.template == s.template && x.order == s.order
  }

  /** Inserts `s`, or replaces the stored step with the same primary key. */
  function PutStep(steps: seq<Step>, s: Step): (r: seq<Step>)
  {
    match IndexWhere(steps, (x: Step) => x.id == s.id)
    case Some(i) => steps[i := s]
    case None => steps + [s]
  }

  /**
   * Saving step `s`: `clean` refuses a due day after the template's duration, the
   * database refuses an unknown template and a second step with the same (template, order).
   */
  function SaveStep(db: Db, s: Step): (r: Result<Db, StepError>)
    ensures r.Ok? <==> (s.template in db.templates
                        && s.dueDaysFromStart <= db.templates[s.template].estimatedDurationDays
                        && forall i :: 0 <= i < |db.steps| ==> !SameStepSlot(db.steps[i], s))
    ensures r.Ok? ==> r.value == db.(steps := PutStep(db.steps, s))
  {
    if s.template !in db.templates then Err(UnknownTemplate)
    else if s.dueDaysFromStart > db.templates[s.template].estimatedDurationDays then Err(DueAfterDuration)
    else if exists i :: 0 <= i < |db.steps| && SameStepSlot(db.steps[i], s) then Err(DuplicateOrder)
    else
      SaveStepKeepsInvariants(db, s);
      Ok(db.(steps := PutStep(db.steps, s)))
  }

  ghost predicate StepsWithinDuration(db: Db) {
    forall i :: 0 <= i < |db.steps| ==>
      db.steps[i].template in db.templates
      && db.steps[i].dueDaysFromStart <= db.templates[db.steps[i].template].estimatedDurationDays
  }

  ghost predicate UniqueStepIds(steps: seq<Step>) {
    forall i, j :: 0 <= i < j < |steps| ==> steps[i].id != steps[j].id
  }

  ghost predicate UniqueStepOrders(steps: seq<Step>) {
    forall i, j :: 0 <= i < j < |steps| && steps[i].template == steps[j].template
      ==> steps[i].order != steps[j].order
  }

  /** A saved step keeps every step within its template's duration and keys and orders distinct. */
  lemma SaveStepKeepsInvariants(db: Db, s: Step)
    requires s.template in db.templates
    requires s.dueDaysFromStart <= db.templates[s.template].estimatedDurationDays
    requires forall i :: 0 <= i < |db.steps| ==> !SameStepSlot(db.steps[i], s)
    ensures s in PutStep(db.steps, s)
    ensures StepsWithinDuration(db) ==> StepsWithinDuration(db.(steps := PutStep(db.steps, s)))
    ensures UniqueStepIds(db.steps) ==> UniqueStepIds(PutStep(db.steps, s))
    ensures UniqueStepIds(db.steps) && UniqueStepOrders(db.steps) ==> UniqueStepOrders(PutStep(db.steps, s))
  {
    var r := PutStep(db.steps, s);
    match IndexWhere(db.steps, (x: Step) => x.id == s.id)
    case Some(k) =>
      assert r == db.steps[k := s];
      assert r[k] == s;
    case None =>
      assert r == db.steps + [s];
      assert r[|db.steps|] == s;
  }

  /**
   * `clean` of a template does not look at its steps, so shortening a template's duration
   * can leave a stored step due after the template's end.
   */
  lemma TemplateSaveCanBreakStepBound()
    ensures exists db: Db, id: TemplateId, t: Template ::
      StepsWithinDuration(db) && SaveTemplate(db, id, t).Ok? && !StepsWithinDuration(SaveTemplate(db, id, t).value)
  {
    var t := Template(Onboarding, "Eng", "", None, "", "", 14, 1, true, false);
    var st := Step(1, 0, "Laptop", "", Equipment, None, "IT", 10, None, 1, true, false, false, true, "", true);
    var db := Db(map[0 := t], [st], map[], [], 2);
    var t' := t.(estimatedDurationDays := 5);
    assert !OtherWithSameKey(db.templates, 0, t');
    var db' := SaveTemplate(db, 0, t').value;
    assert db'.steps[0] == st && db'.templates[0].estimatedDurationDays == 5;
  }

  // ---------------------------------------------------------------------------------------
  // step_count / get_steps_ordered / responsible_display
  // ---------------------------------------------------------------------------------------

  /** The steps of template `tid`, in table order (`template.steps.all()`). */
  function StepsOf(steps: seq<Step>, tid: TemplateId): (r: seq<Step>)
    ensures forall i :: 0 <= i < |r| ==> r[i].template == tid
  {
    Filter(steps, (s: Step) => s.template == tid)
  }

  function StepCount(db: Db, tid: TemplateId): nat {
    |StepsOf(db.steps, tid)|
  }

  function StepOrderKey(s: Step): int { s.order }

  function StepDueKey(s: Step): int { s.dueDaysFromStart }

  /** `get_steps_ordered`: the template's steps ordered by (order, due_days_from_start). */
  function OrderedSteps(db: Db, tid: TemplateId): (r: seq<Step>)
    ensures |r| == StepCount(db, tid)
    ensures multiset(r) == multiset(StepsOf(db.steps, tid))
    ensures forall i :: 0 <= i < |r| ==> r[i].template == tid
    ensures forall i, j :: 0 <= i < j < |r| ==>
              r[i].order < r[j].order || (r[i].order == r[j].order && r[i].dueDaysFromStart <= r[j].dueDaysFromStart)
  {
    var r := Sorting.SortBy(StepsOf(db.steps, tid), StepOrderKey, StepDueKey);
    assert forall i :: 0 <= i < |r| ==> r[i] in multiset(StepsOf(db.steps, tid));
    r
  }

  /** `responsible_display`: the responsible user's full name, else the role, else "Unassigned". */
  function ResponsibleDisplay(s: Step, fullName: UserId -> string): (r: string)
    ensures s.responsibleParty.Some? ==> r == fullName(s.responsibleParty.value)
    ensures s.responsibleParty.None? && s.responsibleRole != "" ==> r == s.responsibleRole
    ensures s.responsibleParty.None? && s.responsibleRole == "" ==> r == "Unassigned"
  {
    if s.responsibleParty.Some? then fullName(s.responsibleParty.value)
    else if s.responsibleRole != "" then s.responsibleRole
    else "Unassigned"
  }

  /**
   * The display is never blank when no user's full name is, and names the responsible user
   * whenever there is one, whatever the role says.
   */
  lemma ResponsibleDisplayIsNeverBlank(s: Step, fullName: UserId -> string, role: string)
    requires forall k :: fullName(k) != ""
    ensures ResponsibleDisplay(s, fullName) != ""
    ensures s.responsibleParty.Some? ==>
              ResponsibleDisplay(s.(responsibleRole := role), fullName) == ResponsibleDisplay(s, fullName)
  {
  }
}

=== FILE: text.dfy ===
/**
 * String helpers the system relies on: ASCII case mapping (Python's `str.upper()` and
 * `str.lower()` restricted to ASCII letters), single-character replacement, prefix tests
 * (`str.startswith`) and the first field of a split (`s.split(c)[0]`).
 */
module Text {

  predicate IsAsciiUpper(c: char) { 'A' <= c <= 'Z' }

  predicate IsAsciiLower(c: char) { 'a' <= c <= 'z' }

  predicate IsDigit(c: char) { '0' <= c <= '9' }

  function UpperChar(c: char): (r: char)
    ensures !IsAsciiLower(r)
    ensures IsAsciiLower(c) ==> IsAsciiUpper(r)
    ensures !IsAsciiLower(c) ==> r == c
  {
    if IsAsciiLower(c) then (c as int - 'a' as int + 'A' as int) as char else c
  }

  function LowerChar(c: char): (r: char)
    ensures !IsAsciiUpper(r)
    ensures IsAsciiUpper(c) ==> IsAsciiLower(r)
    ensures !IsAsciiUpper(c) ==> r == c
  {
    if IsAsciiUpper(c) then (c as int - 'A' as int + 'a' as int) as char else c
  }

  /** `s.upper()` on ASCII letters; every other character is kept. */
  function Upper(s: string): (r: string)
    ensures |r| == |s|
    ensures forall i :: 0 <= i < |s| ==> r[i] == UpperChar(s[i])
  {
    seq(|s|, i requires 0 <= i < |s| => UpperChar(s[i]))
  }

  /** Upper-casing leaves an upper-case text alone, so a second pass changes nothing. */
  lemma UpperIsIdempotent(s: string)
    ensures Upper(Upper(s)) == Upper(s)
  {
    var once := Upper(s);
    assert forall i :: 0 <= i < |once| ==> UpperChar(once[i]) == once[i];
  }

  /** `s.lower()` on ASCII letters; every other character is kept. */
  function Lower(s: string): (r: string)
    ensures |r| == |s|
    ensures forall i :: 0 <= i < |s| ==> r[i] == LowerChar(s[i])
  {
    seq(|s|, i requires 0 <= i < |s| => LowerChar(s[i]))
  }

  /** `s.replace(a, b)` for single characters. */
  function ReplaceChar(s: string, a: char, b: char): (r: string)
    ensures |r| == |s|
    ensures forall i :: 0 <= i < |s| ==> r[i] == (if s[i] == a then b else s[i])
  {
    seq(|s|, i requires 0 <= i < |s| => if s[i] == a then b else s[i])
  }

  /** `s.startswith(prefix)`. */
  predicate StartsWith(s: string, prefix: string) {
    |prefix| <= |s| && s[..|prefix|] == prefix
  }

  /** `s.split(c)[0]`: the text before the first occurrence of `c`, or all of `s`. */
  function BeforeFirst(s: string, c: char): (r: string)
    ensures |r| <= |s| && r == s[..|r|]
    ensures c !in r
    ensures |r| < |s| ==> s[|r|] == c
  {
    if |s| == 0 || s[0] == c then "" else [s[0]] + BeforeFirst(s[1..], c)
  }

  /**
   * `a` sorts before or with `b` character code by character code, a proper prefix first
   * (the order of a binary collation).
   */
  predicate TextLe(a: string, b: string)
    decreases |a|
  {
    |a| == 0 || (|b| > 0 && (a[0] < b[0] || (a[0] == b[0] && TextLe(a[1..], b[1..]))))
  }

  lemma {:induction false} TextLeReflexive(a: string)
    ensures TextLe(a, a)
    decreases |a|
  {
    if |a| > 0 {
      TextLeReflexive(a[1..]);
    }
  }

  lemma {:induction false} TextLeTotal(a: string, b: string)
    ensures TextLe(a, b) || TextLe(b, a)
    decreases |a|
  {
    if |a| > 0 && |b| > 0 && a[0] == b[0] {
      TextLeTotal(a[1..], b[1..]);
    }
  }

  lemma {:induction false} TextLeTransitive(a: string, b: string, c: string)
    requires TextLe(a, b) && TextLe(b, c)
    ensures TextLe(a, c)
    decreases |a|
  {
    if |a| > 0 && a[0] == b[0] && b[0] == c[0] {
      TextLeTransitive(a[1..], b[1..], c[1..]);
    }
  }

  /** Two texts each sorting before the other are the same text. */
  lemma {:induction false} TextLeAntisymmetric(a: string, b: string)
    requires TextLe(a, b) && TextLe(b, a)
    ensures a == b
    decreases |a|
  {
    if |a| > 0 {
      TextLeAntisymmetric(a[1..], b[1..]);
      assert a == [a[0]] + a[1..] && b == [b[0]] + b[1..];
    }
  }
}

=== FILE: user_api.dfy ===
/**
 * The user endpoints: the API login pre-check that stops users who still hold a temporary
 * password, the self-service and staff password resets, activation, and the
 * password-change validation. `validate_email` and `validate_password` are oracles passed
 * in by the caller; `now` is the current instant.
 */
module UserApi {
  import opened Common
  import opened Users

  // ---------------------------------------------------------------------------------------
  // login pre-check
  // ---------------------------------------------------------------------------------------

  datatype LoginReply =
    | MustResetPassword   // 403 with `must_reset_password`
    | NormalLogin         // handed on to the standard login
    | LookupCrash         // several users share the email: the lookup raises and is not caught

  /** The user an identifier names: by email when it validates as one, else by username. */
  function LookupIdentifier(users: Users, identifier: string, isEmail: string -> bool): UserLookup {
    if isEmail(identifier) then FindUser(users, EmailIs(identifier)) else FindUser(users, UsernameIs(identifier))
  }

  /** `CustomLoginView.post`, up to the hand-over to the standard login. */
  function LoginPrecheck(users: Users, username: Option<string>, password: Option<string>, isEmail: string -> bool): (r: LoginReply)
    ensures r == MustResetPassword <==>
              username.Some? && username.value != "" && password.Some? && password.value != ""
              && var l := LookupIdentifier(users, username.value, isEmail);
                 l.OneUser? && CheckPassword(users[l.key].password, password.value)
                 && users[l.key].isActive && users[l.key].mustChangePassword
    ensures r == LookupCrash <==>
              username.Some? && username.value != "" && password.Some? && password.value != ""
              && LookupIdentifier(users, username.value, isEmail) == SeveralUsers
  {
    if username.Some? && username.value != "" && password.Some? && password.value != "" then
      match LookupIdentifier(users, username.value, isEmail)
      case NoUser => NormalLogin
      case SeveralUsers => LookupCrash
      case OneUser(k) =>
        var u := users[k];
        if CheckPassword(u.password, password.value) && u.isActive && u.mustChangePassword then MustResetPassword
        else NormalLogin
    else NormalLogin
  }

  /** An unknown identifier, a wrong password or an inactive user all go to the standard login. */
  lemma LoginPrecheckFallsThrough(users: Users, name: string, password: string, isEmail: string -> bool)
    requires UniqueUsernames(users) && !isEmail(name)
    ensures LoginPrecheck(users, Some(name), Some(password), isEmail) != LookupCrash
    ensures FindUser(users, UsernameIs(name)) == NoUser ==> LoginPrecheck(users, Some(name), Some(password), isEmail) == NormalLogin
  {
    UsernameLookupIsUnique(users, name);
  }

  // ---------------------------------------------------------------------------------------
  // reset_password (self-service, no authentication)
  // ---------------------------------------------------------------------------------------

  datatype ResetRequest = ResetRequest(identifier: Option<string>, current: Option<string>, newPassword: Option<string>)

  datatype ResetReply =
    | MissingFields        // 400
    | BadCredentials       // 400, the same for an unknown user and a wrong password
    | InactiveUser         // 400
    | SamePassword         // 400
    | PasswordReset        // 200
    | ResetCrash           // several users share the email: the lookup raises

  predicate Given(o: Option<string>) {
    o.Some? && o.value != ""
  }

  /** `reset_password`: the checks in order, then the new password with the flag cleared. */
  function ResetPassword(users: Users, req: ResetRequest, isEmail: string -> bool, now: int): (r: (Users, ResetReply))
    ensures r.1 != PasswordReset ==> r.0 == users
    ensures r.1 == MissingFields <==> !(Given(req.identifier) && Given(req.current) && Given(req.newPassword))
    ensures r.1 == PasswordReset ==>
              var l := LookupIdentifier(users, req.identifier.value, isEmail);
              && l.OneUser? && l.key in r.0 && r.0 == users[l.key := r.0[l.key]]
              && CheckPassword(r.0[l.key].password, req.newPassword.value)
              && !r.0[l.key].mustChangePassword && r.0[l.key].passwordChangedAt == Some(now)
              && users[l.key].isActive && CheckPassword(users[l.key].password, req.current.value)
              && req.current.value != req.newPassword.value
    ensures r.1 == PasswordReset <==>
              && Given(req.identifier) && Given(req.current) && Given(req.newPassword)
              && var l := LookupIdentifier(users, req.identifier.value, isEmail);
                 && l.OneUser? && CheckPassword(users[l.key].password, req.current.value)
                 && users[l.key].isActive && req.current.value != req.newPassword.value
    ensures r.1 == BadCredentials <==>
              && Given(req.identifier) && Given(req.current) && Given(req.newPassword)
              && var l := LookupIdentifier(users, req.identifier.value, isEmail);
                 l.NoUser? || (l.OneUser? && !CheckPassword(users[l.key].password, req.current.value))
    ensures r.1 == ResetCrash <==>
              && Given(req.identifier) && Given(req.current) && Given(req.newPassword)
              && LookupIdentifier(users, req.identifier.value, isEmail) == SeveralUsers
    ensures r.1 == InactiveUser <==>
              && Given(req.identifier) && Given(req.current) && Given(req.newPassword)
              && var l := LookupIdentifier(users, req.identifier.value, isEmail);
                 l.OneUser? && CheckPassword(users[l.key].password, req.current.value) && !users[l.key].isActive
    ensures r.1 == SamePassword <==>
              && Given(req.identifier) && Given(req.current) && Given(req.newPassword)
              && var l := LookupIdentifier(users, req.identifier.value, isEmail);
                 && l.OneUser? && CheckPassword(users[l.key].password, req.current.value)
                 && users[l.key].isActive && req.current.value == req.newPassword.value
  {
    if !(Given(req.identifier) && Given(req.current) && Given(req.newPassword)) then (users, MissingFields)
    else
      match LookupIdentifier(users, req.identifier.value, isEmail)
      case NoUser => (users, BadCredentials)
      case SeveralUsers => (users, ResetCrash)
      case OneUser(k) =>
        var u := users[k];
        if !CheckPassword(u.password, req.current.value) then (users, BadCredentials)
        else if !u.isActive then (users, InactiveUser)
        else if req.current.value == req.newPassword.value then (users, SamePassword)
        else
          var changed := SetPassword(u, req.newPassword.value, now).(mustChangePassword := false, passwordChangedAt := Some(now));
          (users[k := changed], PasswordReset)
  }

  /**
   * The order of the checks: a wrong password is reported before inactivity, and inactivity
   * before reuse of the same password; the unknown user and the wrong password look the same.
   */
  lemma ResetPasswordCheckOrder(users: Users, req: ResetRequest, isEmail: string -> bool, now: int, k: UserId)
    requires Given(req.identifier) && Given(req.current) && Given(req.newPassword)
    requires LookupIdentifier(users, req.identifier.value, isEmail) == OneUser(k)
    ensures !CheckPassword(users[k].password, req.current.value) ==> ResetPassword(users, req, isEmail, now).1 == BadCredentials
    ensures CheckPassword(users[k].password, req.current.value) && !users[k].isActive
            ==> ResetPassword(users, req, isEmail, now).1 == InactiveUser
    ensures CheckPassword(users[k].password, req.current.value) && users[k].isActive
            ==> (ResetPassword(users, req, isEmail, now).1 == SamePassword <==> req.current.value == req.newPassword.value)
  {
  }

  /** After a successful reset the new password logs in and the old one no longer does. */
  lemma ResetPasswordThenLogin(users: Users, req: ResetRequest, isEmail: string -> bool, now: int)
    requires ResetPassword(users, req, isEmail, now).1 == PasswordReset
    ensures var l := LookupIdentifier(users, req.identifier.value, isEmail);
            var after := ResetPassword(users, req, isEmail, now).0;
            && CheckPassword(after[l.key].password, req.newPassword.value)
            && !CheckPassword(after[l.key].password, req.current.value)
  {
  }

  // ---------------------------------------------------------------------------------------
  // admin_reset_password, activate, deactivate
  // ---------------------------------------------------------------------------------------

  datatype AdminResetReply = NotStaff | UserNotFound | MissingPassword | AdminReset

  /** `admin_reset_password`: staff only (checked before the lookup); the user must change it at next login. */
  function AdminResetPassword(users: Users, actorIsStaff: bool, target: UserId, newPassword: Option<string>, now: int): (r: (Users, AdminResetReply))
    ensures r.1 != AdminReset ==> r.0 == users
    ensures r.1 == NotStaff <==> !actorIsStaff
    ensures r.1 == UserNotFound <==> actorIsStaff && target !in users
    ensures r.1 == MissingPassword <==> actorIsStaff && target in users && !Given(newPassword)
    ensures r.1 == AdminReset ==>
              target in users && target in r.0 && r.0 == users[target := r.0[target]]
              && CheckPassword(r.0[target].password, newPassword.value)
              && r.0[target].mustChangePassword && r.0[target].passwordChangedAt == Some(now)
  {
    if !actorIsStaff then (users, NotStaff)
    else if target !in users then (users, UserNotFound)
    else if !Given(newPassword) then (users, MissingPassword)
    else (users[target := SetPassword(users[target], newPassword.value, now).(mustChangePassword := true)], AdminReset)
  }

  /** The staff reset and the self-service reset disagree only on the flag they leave. */
  lemma AdminResetForcesChange(users: Users, target: UserId, pw: string, now: int)
    requires target in users && pw != ""
    ensures var after := AdminResetPassword(users, true, target, Some(pw), now).0[target];
            after == SetPassword(users[target], pw, now).(mustChangePassword := true)
            && !SetPassword(users[target], pw, now).mustChangePassword
  {
  }

  /** `activate` / `deactivate`: the pair (is_active, employment_status) moves together. */
  function SetActive(users: Users, target: UserId, active: bool): (r: Option<Users>)
    ensures r.None? <==> target !in users
    ensures r.Some? ==> target in r.value && r.value == users[target := r.value[target]]
                        && r.value[target].isActive == active
                        && r.value[target].employmentStatus == (if active then "active" else "inactive")
                        && r.value[target].(isActive := users[target].isActive,
                                            employmentStatus := users[target].employmentStatus) == users[target]
  {
    if target !in users then None
    else Some(users[target := users[target].(isActive := active, employmentStatus := if active then "active" else "inactive")])
  }

  /** Deactivating and then activating restores the user exactly when it was active before. */
  lemma DeactivateThenActivate(users: Users, target: UserId)
    requires target in users
    ensures var off := SetActive(users, target, false).value;
            var on := SetActive(off, target, true).value;
            on == users <==> users[target].isActive && users[target].employmentStatus == "active"
  {
    var off := SetActive(users, target, false).value;
    var on := SetActive(off, target, true).value;
    if users[target].isActive && users[target].employmentStatus == "active" {
      assert on[target] == users[target];
      assert on == users;
    } else {
      assert on[target] != users[target];
    }
  }

  /**
   * The `activate` and `deactivate` actions as written: 404 for an unknown user; otherwise the
   * change is saved and the reply renders the user with `UserSerializer`, whose field list
   * names fields the user model no longer has (`employee_id`, `phone_number`, `manager`, ...),
   * so the rendering raises and the reply is a 500 after the save.
   */
  function SetActiveActionAsWritten(users: Users, target: UserId, active: bool): (r: (Users, int))
    ensures r.1 == 404 <==> target !in users
    ensures r.1 == 404 ==> r.0 == users
    ensures r.1 != 404 ==> r.1 == 500 && Some(r.0) == SetActive(users, target, active)
  {
    match SetActive(users, target, active)
    case None => (users, 404)
    case Some(saved) => (saved, 500)
  }

  /** The actions as intended: the saved user is rendered, with a 200. */
  function SetActiveAction(users: Users, target: UserId, active: bool): (r: (Users, int))
    ensures r.1 == 200 <==> target in users
    ensures r.1 != 200 ==> r == (users, 404)
    ensures r.1 == 200 ==> target in r.0 && r.0[target].isActive == active && Some(r.0) == SetActive(users, target, active)
  {
    match SetActive(users, target, active)
    case None => (users, 404)
    case Some(saved) => (saved, 200)
  }

  /**
   * As written, a deactivation of an active user changes the store and yet answers with an
   * error; the intended action answers 200 for the same store.
   */
  lemma SetActiveFailsAfterSaving(users: Users, target: UserId)
    requires target in users && users[target].isActive
    ensures var (after, status) := SetActiveActionAsWritten(users, target, false);
            status == 500 && after != users && after == SetActiveAction(users, target, false).0
    ensures SetActiveAction(users, target, false).1 == 200
  {
    var after := SetActiveActionAsWritten(users, target, false).0;
    assert after[target].isActive != users[target].isActive;
  }

  /** The two permission classes the user endpoints use. */
  datatype PermissionClass = IsAuthenticated | AllowAny

  /** `permission_classes` of the user view set. */
  const ViewSetPermissionClasses: seq<PermissionClass> := [IsAuthenticated]

  /** `get_permissions`: `AllowAny` for `reset_password`, the view set's classes otherwise. */
  function PermissionClasses(action: string): (r: seq<PermissionClass>)
    ensures |r| == 1
    ensures AllowAny in r <==> action == "reset_password"
  {
    if action == "reset_password" then [AllowAny] else ViewSetPermissionClasses
  }

  /** `has_permission` of one class. */
  predicate Grants(c: PermissionClass, authenticated: bool) {
    c.AllowAny? || authenticated
  }

  /** The request passes `check_permissions`: every class of the action grants it. */
  function Admits(action: string, authenticated: bool): (r: bool)
    ensures r <==> authenticated || action == "reset_password"
  {
    var classes := PermissionClasses(action);
    assert classes[0] == AllowAny <==> action == "reset_password";
    forall i | 0 <= i < |classes| :: Grants(classes[i], authenticated)
  }

  /** Only `reset_password` is open to anonymous callers. */
  function AllowsAnonymous(action: string): (r: bool)
    ensures r <==> action == "reset_password"
    ensures !r ==> forall other :: Admits(other, true) && (Admits(other, false) ==> other != action)
  {
    Admits(action, false)
  }

  // ---------------------------------------------------------------------------------------
  // PasswordChangeSerializer
  // ---------------------------------------------------------------------------------------

  datatype ChangeCheck =
    | FieldErrors(oldWrong: bool, newRejected: bool)  // field validators (and required fields) failed
    | Mismatch                                        // `validate`: new and confirmation differ
    | ChangeAccepted

  /**
   * `PasswordChangeSerializer`: the three fields are required and may not be blank; the field
   * validators run first (the current password must check, the new one must pass
   * `validate_password`); `validate` compares new and confirmation only when they all pass.
   */
  function ValidatePasswordChange(u: User, current: Option<string>, newPassword: Option<string>, confirm: Option<string>,
                                  validPassword: string -> bool): (r: ChangeCheck)
    ensures r == ChangeAccepted <==>
              Given(current) && Given(newPassword) && Given(confirm)
              && CheckPassword(u.password, current.value) && validPassword(newPassword.value)
              && newPassword.value == confirm.value
    ensures r == Mismatch <==>
              Given(current) && Given(newPassword) && Given(confirm)
              && CheckPassword(u.password, current.value) && validPassword(newPassword.value)
              && newPassword.value != confirm.value
    ensures r.FieldErrors? ==>
              && (r.oldWrong <==> Given(current) && !CheckPassword(u.password, current.value))
              && (r.newRejected <==> Given(newPassword) && !validPassword(newPassword.value))
  {
    var oldWrong := Given(current) && !CheckPassword(u.password, current.value);
    var newRejected := Given(newPassword) && !validPassword(newPassword.value);
    if !Given(current) || !Given(newPassword) || !Given(confirm) || oldWrong || newRejected then FieldErrors(oldWrong, newRejected)
    else if newPassword.value != confirm.value then Mismatch
    else ChangeAccepted
  }

  /**
   * `validate` never sees a request whose fields failed: the reply is then the same whatever
   * the confirmation, and a blank confirmation is a field error of its own.
   */
  lemma FieldErrorsHideTheConfirmation(u: User, current: Option<string>, newPassword: Option<string>,
                                       confirm: Option<string>, other: Option<string>, validPassword: string -> bool)
    requires ValidatePasswordChange(u, current, newPassword, confirm, validPassword).FieldErrors?
    requires Given(confirm) && Given(other)
    ensures ValidatePasswordChange(u, current, newPassword, other, validPassword)
            == ValidatePasswordChange(u, current, newPassword, confirm, validPassword)
    ensures ValidatePasswordChange(u, current, newPassword, Some(""), validPassword).FieldErrors?
  {
  }

  /** A blank confirmation of a valid new password is refused as a field error, not as a mismatch. */
  lemma BlankConfirmationIsAFieldError(u: User, current: string, validPassword: string -> bool)
    requires CheckPassword(u.password, current) && current != ""
    requires validPassword("abcdefgh1!")
    ensures ValidatePasswordChange(u, Some(current), Some("abcdefgh1!"), Some(""), validPassword) == FieldErrors(false, false)
  {
  }
}

=== FILE: users.dfy ===
/**
 * Users and account memberships: the `User` helpers (names, role checks, permissions for an
 * account, `set_password`), the `UserAccount` membership rules (one primary account per user,
 * one membership per (user, account)), its derived statuses and its on/offboarding steps.
 * Password hashing is abstracted: a stored credential is `Hashed(raw)` and `check_password`
 * compares against it.
 */
module Users {
  import opened Common
  import opened Rbac

  type UserId = nat
  type AccountId = nat
  type MemberId = nat

  /** A stored password; `Unusable` is what `set_unusable_password` leaves. */
  datatype Credential = Unusable | Hashed(raw: string)

  predicate CheckPassword(c: Credential, raw: string) {
    c == Hashed(raw)
  }

  /** A user; blank and NULL names are both `""`. Times are integer instants supplied by the caller. */
  datatype User = User(
    username: string,
    email: string,
    firstName: string,
    lastName: string,
    password: Credential,
    isActive: bool,
    isStaff: bool,
    isSuperuser: bool,
    mustChangePassword: bool,
    passwordChangedAt: Option<int>,
    employmentStatus: string,
    account: Option<AccountId>,
    role: Option<RoleId>,
    lastLoginIp: Option<string>)

  type Users = map<UserId, User>

  /** Usernames are unique (`AbstractUser.username`); emails are not. */
  ghost predicate UniqueUsernames(users: Users) {
    forall a, b :: a in users && b in users && users[a].username == users[b].username ==> a == b
  }

  // ---------------------------------------------------------------------------------------
  // lookups: `.get(...)` finds nothing, one row, or raises on several
  // ---------------------------------------------------------------------------------------

  datatype UserLookup = NoUser | OneUser(key: UserId) | SeveralUsers

  /** `User.objects.get(<condition>)` over the stored users. */
  function FindUser(users: Users, p: User -> bool): (r: UserLookup)
    ensures r == NoUser <==> forall k :: k in users ==> !p(users[k])
    ensures r.OneUser? ==> r.key in users && p(users[r.key])
                           && forall k :: k in users && p(users[k]) ==> k == r.key
    ensures r == SeveralUsers ==> exists a, b :: a in users && b in users && a != b && p(users[a]) && p(users[b])
  {
    var ks := set k | k in users && p(users[k]);
    if ks == {} then
      assert forall k :: k in users && p(users[k]) ==> k in ks;
      NoUser
    else
      var k :| k in ks;
      if ks == {k} then
        assert forall j :: j in users && p(users[j]) ==> j in ks;
        OneUser(k)
      else
        var j :| j in ks && j != k;
        SeveralUsers
  }

  function UsernameIs(name: string): User -> bool {
    (u: User) => u.username == name
  }

  function EmailIs(email: string): User -> bool {
    (u: User) => u.email == email
  }

  /** With unique usernames a lookup by username never finds several users. */
  lemma UsernameLookupIsUnique(users: Users, name: string)
    requires UniqueUsernames(users)
    ensures FindUser(users, UsernameIs(name)) != SeveralUsers
  {
  }

  // ---------------------------------------------------------------------------------------
  // User helpers
  // ---------------------------------------------------------------------------------------

  /** `get_full_name`: "first last" when both parts are set, else the username. */
  function FullName(u: User): (r: string)
    ensures u.firstName != "" && u.lastName != "" ==> r == u.firstName + " " + u.lastName
    ensures u.firstName == "" || u.lastName == "" ==> r == u.username
  {
    if u.firstName != "" && u.lastName != "" then u.firstName + " " + u.lastName else u.username
  }

  /** `get_short_name`: the first name, or the username when it is blank. */
  function ShortName(u: User): (r: string)
    ensures r == (if u.firstName != "" then u.firstName else u.username)
  {
    if u.firstName != "" then u.firstName else u.username
  }

  /** The full name is the short name followed by the last name, unless both fall back to the username. */
  lemma FullNameExtendsShortName(u: User)
    ensures FullName(u) == u.username || FullName(u) == ShortName(u) + " " + u.lastName
    ensures FullName(u) != u.username ==> ShortName(u) == u.firstName && FullName(u)[..|u.firstName|] == ShortName(u)
    ensures u.username != "" ==> FullName(u) != "" && ShortName(u) != ""
  {
  }

  /** `account_memberships` / `get_accounts`: the one account of the user, or nothing. */
  function Accounts(u: User): (r: seq<AccountId>)
    ensures |r| <= 1
    ensures forall a :: a in r <==> u.account == Some(a)
  {
    if u.account.Some? then [u.account.value] else []
  }

  /** `account_count` of the user serializers. */
  function AccountCount(u: User): (n: nat)
    ensures n == 1 <==> u.account.Some?
    ensures n <= 1
  {
    if u.account.Some? then 1 else 0
  }

  lemma AccountCountIsAccounts(u: User)
    ensures AccountCount(u) == |Accounts(u)|
  {
  }

  /** `has_role_in_account`: same account, a role that is set and has that name, and an active user. */
  predicate HasRoleInAccount(u: User, roles: map<RoleId, Role>, roleName: string, account: Option<AccountId>) {
    u.account == account && u.role.Some? && u.role.value in roles && roles[u.role.value].name == roleName && u.isActive
  }

  /** `is_admin_in_account`. */
  predicate IsAdminInAccount(u: User, roles: map<RoleId, Role>, account: Option<AccountId>) {
    HasRoleInAccount(u, roles, "admin", account)
  }

  /** An inactive user, or one without a role, or one of another account, has no role anywhere. */
  lemma RoleNeedsActiveMember(u: User, roles: map<RoleId, Role>, roleName: string, account: Option<AccountId>)
    ensures HasRoleInAccount(u, roles, roleName, account) ==> u.isActive && u.role.Some? && u.account == account
    ensures IsAdminInAccount(u, roles, account) <==> HasRoleInAccount(u, roles, "admin", account)
  {
  }

  /**
   * Codenames of the granted rows of a role (`values_list('permission__codename')`), in the
   * rows' default order: by the permission's category, then its name.
   */
  function GrantedCodenames(perms: seq<Permission>, grants: seq<Grant>, rid: RoleId): (r: seq<string>)
    ensures |r| == |RolePerms(perms, grants, rid)|
    ensures forall i :: 0 <= i < |r| ==> r[i] == RolePerms(perms, grants, rid)[i].codename
  {
    var ps := RolePerms(perms, grants, rid);
    seq(|ps|, i requires 0 <= i < |ps| => ps[i].codename)
  }

  /** A codename is listed exactly when a granted row of the role names it. */
  lemma GrantedCodenamesListsGrants(perms: seq<Permission>, grants: seq<Grant>, rid: RoleId, c: string)
    ensures c in GrantedCodenames(perms, grants, rid)
            <==> exists g :: g in grants && g.role == rid && g.isGranted && CodenameOfPerm(perms, g.permission) == Some(c)
  {
    var db := Rbac(perms, map[], grants, 0);
    HasPermissionIsListed(db, rid, c);
    var ps := RolePerms(perms, grants, rid);
    var r := GrantedCodenames(perms, grants, rid);
    if c in r {
      var i :| 0 <= i < |r| && r[i] == c;
      assert ps[i] in ps && ps[i].codename == c;
    }
    if exists p :: p in ps && p.codename == c {
      var p :| p in ps && p.codename == c;
      var i :| 0 <= i < |ps| && ps[i] == p;
      assert r[i] == c;
    }
  }

  /**
   * `get_permissions_for_account`: the codenames of the role's granted rows when the user
   * belongs to that account, has a role and is active; nothing otherwise. Direct
   * `custom_permissions` are not included.
   */
  function PermissionsForAccount(u: User, db: Rbac, account: Option<AccountId>): (r: seq<string>)
    ensures !(u.account == account && u.role.Some? && u.isActive) ==> r == []
  {
    if u.account == account && u.role.Some? && u.isActive then GrantedCodenames(db.perms, db.grants, u.role.value)
    else []
  }

  /** The permissions for an account are exactly what the user's role holds, for a member in good standing. */
  lemma PermissionsForAccountAreRolePermissions(u: User, db: Rbac, account: Option<AccountId>, c: string)
    ensures c in PermissionsForAccount(u, db, account)
            <==> u.account == account && u.role.Some? && u.isActive && HasPermission(db, u.role.value, c)
  {
    if u.account == account && u.role.Some? && u.isActive {
      GrantedCodenamesListsGrants(db.perms, db.grants, u.role.value, c);
    }
  }

  /** `set_password`: stores the new credential, stamps the change time and clears the reset flag. */
  function SetPassword(u: User, raw: string, now: int): (r: User)
    ensures CheckPassword(r.password, raw)
    ensures !r.mustChangePassword && r.passwordChangedAt == Some(now)
    ensures r.(password := u.password, mustChangePassword := u.mustChangePassword, passwordChangedAt := u.passwordChangedAt) == u
  {
    u.(password := Hashed(raw), passwordChangedAt := Some(now), mustChangePassword := false)
  }

  /**
   * `UserCreateSerializer.create`: `create_user` sets the generated password (clearing the
   * flag), then the serializer sets the flag again; the generated password is handed back.
   */
  function CreateUser(draft: User, generated: string, now: int): (r: (User, string))
    ensures r.0.mustChangePassword && CheckPassword(r.0.password, r.1) && r.1 == generated
    ensures r.0.(password := draft.password, mustChangePassword := draft.mustChangePassword,
                 passwordChangedAt := draft.passwordChangedAt) == draft
  {
    var created := SetPassword(draft, generated, now);
    (created.(mustChangePassword := true), generated)
  }

  /** The flag survives creation only because it is set after `set_password` cleared it. */
  lemma CreateUserFlagOrder(draft: User, generated: string, now: int)
    ensures !SetPassword(draft, generated, now).mustChangePassword
    ensures CreateUser(draft, generated, now).0 == SetPassword(draft, generated, now).(mustChangePassword := true)
  {
  }

  // ---------------------------------------------------------------------------------------
  // UserAccount memberships
  // ---------------------------------------------------------------------------------------

  datatype Membership = Membership(
    user: UserId,
    account: AccountId,
    role: Option<RoleId>,
    isPrimary: bool,
    isActive: bool,
    canAccessAdmin: bool,
    onboardingCompleted: bool,
    onboardingCompletedAt: Option<int>,
    offboardingStarted: bool,
    offboardingStartedAt: Option<int>,
    offboardingCompletedAt: Option<int>)

  type Memberships = map<MemberId, Membership>

  datatype MembershipError =
    | SecondPrimary        // `clean`: the user already has another primary membership
    | DuplicateMembership  // `unique_together = (user, account)`

  /** At most one primary membership per user. */
  ghost predicate OnePrimaryPerUser(ms: Memberships) {
    forall a, b :: a in ms && b in ms && ms[a].isPrimary && ms[b].isPrimary && ms[a].user == ms[b].user ==> a == b
  }

  /** At most one membership per (user, account). */
  ghost predicate OneMembershipPerPair(ms: Memberships) {
    forall a, b :: a in ms && b in ms && ms[a].user == ms[b].user && ms[a].account == ms[b].account ==> a == b
  }

  ghost predicate ValidMemberships(ms: Memberships) {
    OnePrimaryPerUser(ms) && OneMembershipPerPair(ms)
  }

  predicate OtherPrimary(ms: Memberships, id: MemberId, m: Membership) {
    exists k :: k in ms && k != id && ms[k].user == m.user && ms[k].isPrimary
  }

  predicate OtherOfPair(ms: Memberships, id: MemberId, m: Membership) {
    exists k :: k in ms && k != id && ms[k].user == m.user && ms[k].account == m.account
  }

  /** `UserAccount.save`: `clean` (the primary rule, excluding itself), then the database's unique pair. */
  function SaveMembership(ms: Memberships, id: MemberId, m: Membership): (r: Result<Memberships, MembershipError>)
    ensures r == Err(SecondPrimary) <==> m.isPrimary && OtherPrimary(ms, id, m)
    ensures r == Err(DuplicateMembership) <==> !(m.isPrimary && OtherPrimary(ms, id, m)) && OtherOfPair(ms, id, m)
    ensures r.Ok? ==> r.value == ms[id := m]
  {
    if m.isPrimary && OtherPrimary(ms, id, m) then Err(SecondPrimary)
    else if OtherOfPair(ms, id, m) then Err(DuplicateMembership)
    else Ok(ms[id := m])
  }

  /** Every successful save keeps both membership rules. */
  lemma SaveMembershipKeepsRules(ms: Memberships, id: MemberId, m: Membership)
    requires ValidMemberships(ms)
    ensures SaveMembership(ms, id, m).Ok? ==> ValidMemberships(SaveMembership(ms, id, m).value)
  {
  }

  /** `UserAccountCreateSerializer.validate`: a second membership of the pair, then a second primary. */
  function ValidateNewMembership(ms: Memberships, m: Membership): (r: Option<MembershipError>)
    ensures r == Some(DuplicateMembership) <==> exists k :: k in ms && ms[k].user == m.user && ms[k].account == m.account
    ensures r == Some(SecondPrimary) <==>
              (forall k :: k in ms ==> !(ms[k].user == m.user && ms[k].account == m.account))
              && m.isPrimary && exists k :: k in ms && ms[k].user == m.user && ms[k].isPrimary
  {
    if exists k :: k in ms && ms[k].user == m.user && ms[k].account == m.account then Some(DuplicateMembership)
    else if m.isPrimary && exists k :: k in ms && ms[k].user == m.user && ms[k].isPrimary then Some(SecondPrimary)
    else None
  }

  /** A membership the serializer accepts saves without error under a fresh key. */
  lemma ValidatedMembershipSaves(ms: Memberships, id: MemberId, m: Membership)
    requires id !in ms && ValidateNewMembership(ms, m).None?
    ensures SaveMembership(ms, id, m) == Ok(ms[id := m])
  {
  }

  datatype Progress = NotStarted | InProgress | Completed

  /** `is_onboarded`. */
  predicate IsOnboarded(m: Membership) {
    m.onboardingCompleted && m.isActive
  }

  /** `is_offboarded`. */
  predicate IsOffboarded(m: Membership) {
    m.offboardingCompletedAt.Some?
  }

  /** `onboarding_status`: completed beats active; an inactive, unfinished membership has not started. */
  function OnboardingStatus(m: Membership): (r: Progress)
    ensures r == Completed <==> m.onboardingCompleted
    ensures r == InProgress <==> !m.onboardingCompleted && m.isActive
    ensures r == NotStarted <==> !m.onboardingCompleted && !m.isActive
  {
    if m.onboardingCompleted then Completed else if m.isActive then InProgress else NotStarted
  }

  /** `offboarding_status`: completion time beats the started flag. */
  function OffboardingStatus(m: Membership): (r: Progress)
    ensures r == Completed <==> IsOffboarded(m)
    ensures r == InProgress <==> !IsOffboarded(m) && m.offboardingStarted
    ensures r == NotStarted <==> !IsOffboarded(m) && !m.offboardingStarted
  {
    if m.offboardingCompletedAt.Some? then Completed else if m.offboardingStarted then InProgress else NotStarted
  }

  /** Onboarded members report completed onboarding; a completed status alone does not make one onboarded. */
  lemma StatusesAgree(m: Membership)
    ensures IsOnboarded(m) ==> OnboardingStatus(m) == Completed
    ensures OnboardingStatus(m) == Completed && !m.isActive ==> !IsOnboarded(m)
    ensures OffboardingStatus(m) == Completed <==> IsOffboarded(m)
  {
  }

  /** `start_onboarding`: activates the membership and saves it. */
  function StartOnboarding(ms: Memberships, id: MemberId): (r: Result<Memberships, MembershipError>)
    requires id in ms
    ensures r.Ok? ==> id in r.value && r.value[id] == ms[id].(isActive := true)
  {
    SaveMembership(ms, id, ms[id].(isActive := true))
  }

  /** `complete_onboarding`: sets the flag and its time, and saves. */
  function CompleteOnboarding(ms: Memberships, id: MemberId, now: int): (r: Result<Memberships, MembershipError>)
    requires id in ms
    ensures r.Ok? ==> id in r.value && r.value[id] == ms[id].(onboardingCompleted := true, onboardingCompletedAt := Some(now))
  {
    SaveMembership(ms, id, ms[id].(onboardingCompleted := true, onboardingCompletedAt := Some(now)))
  }

  /** `start_offboarding`: sets the flag and its time, and saves. */
  function StartOffboarding(ms: Memberships, id: MemberId, now: int): (r: Result<Memberships, MembershipError>)
    requires id in ms
    ensures r.Ok? ==> id in r.value && r.value[id] == ms[id].(offboardingStarted := true, offboardingStartedAt := Some(now))
  {
    SaveMembership(ms, id, ms[id].(offboardingStarted := true, offboardingStartedAt := Some(now)))
  }

  /**
   * `complete_offboarding`: stamps completion and deactivates the membership; the user is
   * marked terminated and saved first, so that change stays even if the membership save fails.
   */
  function CompleteOffboarding(users: Users, ms: Memberships, id: MemberId, now: int): (r: (Users, Result<Memberships, MembershipError>))
    requires id in ms && ms[id].user in users
    ensures r.0 == users[ms[id].user := users[ms[id].user].(employmentStatus := "terminated")]
    ensures r.1.Ok? ==> id in r.1.value && r.1.value[id] == ms[id].(offboardingCompletedAt := Some(now), isActive := false)
  {
    var uid := ms[id].user;
    (users[uid := users[uid].(employmentStatus := "terminated")],
     SaveMembership(ms, id, ms[id].(offboardingCompletedAt := Some(now), isActive := false)))
  }

  /** Re-saving a membership without changing its user, account or primary flag cannot fail on valid memberships. */
  lemma ResaveSucceeds(ms: Memberships, id: MemberId, m: Membership)
    requires ValidMemberships(ms) && id in ms
    requires m.user == ms[id].user && m.account == ms[id].account && m.isPrimary == ms[id].isPrimary
    ensures SaveMembership(ms, id, m) == Ok(ms[id := m])
    ensures ValidMemberships(ms[id := m])
  {
    assert !(m.isPrimary && OtherPrimary(ms, id, m));
    assert !OtherOfPair(ms, id, m);
    SaveMembershipKeepsRules(ms, id, m);
  }

  /**
   * On valid memberships every lifecycle step succeeds and keeps the rules; a completed
   * offboarding reads as offboarded and no longer onboarded, and the other memberships stay.
   */
  lemma LifecycleStepsSucceed(users: Users, ms: Memberships, id: MemberId, now: int)
    requires ValidMemberships(ms) && id in ms && ms[id].user in users
    ensures StartOnboarding(ms, id).Ok? && CompleteOnboarding(ms, id, now).Ok? && StartOffboarding(ms, id, now).Ok?
    ensures var r := CompleteOffboarding(users, ms, id, now).1;
            && r.Ok? && ValidMemberships(r.value) && IsOffboarded(r.value[id]) && !IsOnboarded(r.value[id])
            && OffboardingStatus(r.value[id]) == Completed
            && forall k :: k in ms && k != id ==> k in r.value && r.value[k] == ms[k]
  {
    var m := ms[id];
    ResaveSucceeds(ms, id, m.(isActive := true));
    ResaveSucceeds(ms, id, m.(onboardingCompleted := true, onboardingCompletedAt := Some(now)));
    ResaveSucceeds(ms, id, m.(offboardingStarted := true, offboardingStartedAt := Some(now)));
    ResaveSucceeds(ms, id, m.(offboardingCompletedAt := Some(now), isActive := false));
  }
}

=== FILE: web_auth.dfy ===
/**
 * The server-rendered authentication pages: the two middlewares that push users with a
 * temporary password to the forced-reset page, the login page and its form, the forced and
 * e-mailed password-reset pages, and the reset request that mails a temporary password.
 * `validate_password` is an oracle; e-mail sending, messages and templates are left out.
 */
module WebAuth {
  import opened Common
  import opened Text
  import opened Users
  import opened PasswordGen

  /** `request.user`: anonymous, or a signed-in user. */
  datatype Visitor = Anonymous | SignedIn(u: User)

  datatype Request = Request(path: string, httpMethod: string, requestedWith: Option<string>)

  predicate MustChange(v: Visitor) {
    v.SignedIn? && v.u.mustChangePassword
  }

  predicate IsSuperuser(v: Visitor) {
    v.SignedIn? && v.u.isSuperuser
  }

  // ---------------------------------------------------------------------------------------
  // middlewares
  // ---------------------------------------------------------------------------------------

  /** The exempt prefixes as the middleware lists them. */
  const ExemptPathsAsWritten: seq<string> := [
    "/admin/login/", "/admin/logout/", "/admin/password_change/", "/admin/jsi18n/",
    "/auth/reset-password/", "/auth/login/", "/auth/logout/",
    "/api/auth/logout/", "/api/auth/password/reset/",
    "/static/", "/media/"
  ]

  /** The page both middlewares redirect to: `force-password-reset/` under the `/auth/` mount. */
  const ForceResetPath: string := "/auth/force-password-reset/"

  /** The exempt prefixes with the forced-reset page itself added, which the list leaves out. */
  const ExemptPaths: seq<string> := ExemptPathsAsWritten + [ForceResetPath]

  /** Exemption is a plain prefix match against a fixed list. */
  predicate IsExemptIn(paths: seq<string>, path: string) {
    exists i :: 0 <= i < |paths| && StartsWith(path, paths[i])
  }

  predicate IsExempt(path: string) {
    IsExemptIn(ExemptPaths, path)
  }

  /** The first exempt prefix of a path, scanning the list in order. */
  function ExemptIndex(paths: seq<string>, path: string, from: nat): (r: Option<nat>)
    requires from <= |paths|
    ensures r.Some? ==> from <= r.value < |paths| && StartsWith(path, paths[r.value])
    ensures r.None? ==> forall i :: from <= i < |paths| ==> !StartsWith(path, paths[i])
    decreases |paths| - from
  {
    if from == |paths| then None
    else if StartsWith(path, paths[from]) then Some(from)
    else ExemptIndex(paths, path, from + 1)
  }

  /**
   * `ForcePasswordResetMiddleware.process_view` with the exempt list `paths`: the checks in
   * the order the middleware makes them, each one letting the request through; a redirect
   * only when none applies.
   */
  function RedirectsWith(paths: seq<string>, v: Visitor, req: Request): (r: bool)
    ensures r <==> MustChange(v) && !IsSuperuser(v) && !IsExemptIn(paths, req.path)
                   && req.requestedWith != Some("XMLHttpRequest") && !StartsWith(req.path, "/api/")
  {
    if v.Anonymous? then false
    else if !v.u.mustChangePassword then false
    else if v.u.isSuperuser then false
    else if ExemptIndex(paths, req.path, 0).Some? then false
    else if req.requestedWith == Some("XMLHttpRequest") then false
    else if StartsWith(req.path, "/api/") then false
    else true
  }

  /** The middleware as written, whose list does not exempt the page it redirects to. */
  function ForceResetRedirectsAsWritten(v: Visitor, req: Request): (r: bool)
    ensures r <==> MustChange(v) && !IsSuperuser(v) && !IsExemptIn(ExemptPathsAsWritten, req.path)
                   && req.requestedWith != Some("XMLHttpRequest") && !StartsWith(req.path, "/api/")
  {
    RedirectsWith(ExemptPathsAsWritten, v, req)
  }

  /** The middleware with the forced-reset page exempt, as the rest of the model uses it. */
  function ForceResetRedirects(v: Visitor, req: Request): (r: bool)
    ensures r <==> MustChange(v) && !IsSuperuser(v) && !IsExempt(req.path)
                   && req.requestedWith != Some("XMLHttpRequest") && !StartsWith(req.path, "/api/")
    ensures r ==> ForceResetRedirectsAsWritten(v, req)
  {
    AsWrittenExemptionsKept(req.path);
    RedirectsWith(ExemptPaths, v, req)
  }

  /** The corrected list exempts every path the written one does, and the forced-reset page besides. */
  lemma AsWrittenExemptionsKept(path: string)
    ensures IsExemptIn(ExemptPathsAsWritten, path) ==> IsExempt(path)
    ensures IsExempt(path) <==> IsExemptIn(ExemptPathsAsWritten, path) || StartsWith(path, ForceResetPath)
  {
    if IsExemptIn(ExemptPathsAsWritten, path) {
      var i :| 0 <= i < |ExemptPathsAsWritten| && StartsWith(path, ExemptPathsAsWritten[i]);
      assert ExemptPaths[i] == ExemptPathsAsWritten[i];
    }
    if IsExempt(path) {
      var i :| 0 <= i < |ExemptPaths| && StartsWith(path, ExemptPaths[i]);
      if i < |ExemptPathsAsWritten| {
        assert ExemptPaths[i] == ExemptPathsAsWritten[i];
      }
    }
    if StartsWith(path, ForceResetPath) {
      assert ExemptPaths[|ExemptPaths| - 1] == ForceResetPath;
    }
  }

  /**
   * As written, a flagged user who follows the redirect to the forced-reset page is redirected
   * to it again, on every plain request, so the form is never reached.
   */
  lemma ForcedPageRedirectsToItself(u: User, httpMethod: string)
    requires u.mustChangePassword && !u.isSuperuser
    ensures ForceResetRedirectsAsWritten(SignedIn(u), Request(ForceResetPath, httpMethod, None))
  {
    var p := ForceResetPath;
    forall i | 0 <= i < |ExemptPathsAsWritten| ensures !StartsWith(p, ExemptPathsAsWritten[i]) {
      var e := ExemptPathsAsWritten[i];
      assert e[1] != p[1] || e[2] != p[2] || e[6] != p[6];
    }
    assert p[..5][2] == 'u';
  }

  /** With the page exempt, the same visitor reaches the form. */
  lemma FlaggedUserReachesTheForm(u: User, httpMethod: string, requestedWith: Option<string>)
    requires u.mustChangePassword
    ensures !ForceResetRedirects(SignedIn(u), Request(ForceResetPath, httpMethod, requestedWith))
    ensures ForceResetDispatch(SignedIn(u)) == ShowResetForm
  {
    assert StartsWith(ForceResetPath, ExemptPaths[|ExemptPaths| - 1]);
  }

  /** `LoginRedirectMiddleware.process_view`: only a GET of exactly `/admin/`. */
  function LoginRedirects(v: Visitor, req: Request): (r: bool)
    ensures r <==> MustChange(v) && !IsSuperuser(v) && req.path == "/admin/" && req.httpMethod == "GET"
  {
    v.SignedIn? && v.u.mustChangePassword && req.path == "/admin/" && req.httpMethod == "GET" && !v.u.isSuperuser
  }

  /** `/admin/` itself is not exempt, so where the login middleware redirects a plain request, so does the other one. */
  lemma LoginRedirectImpliesForceRedirect(v: Visitor, req: Request)
    requires LoginRedirects(v, req) && req.requestedWith.None?
    ensures ForceResetRedirects(v, req)
  {
    forall i | 0 <= i < |ExemptPaths| ensures !StartsWith(req.path, ExemptPaths[i]) {
      assert |ExemptPaths[i]| > |req.path| || ExemptPaths[i][|ExemptPaths[i]| - 1] != req.path[|ExemptPaths[i]| - 1]
             || ExemptPaths[i][1] != req.path[1];
    }
    assert !StartsWith(req.path, "/api/") by {
      assert req.path[..5][2] == 'd';
    }
  }

  /** Any path below an exempt prefix is exempt; any path under `/api/` is never redirected. */
  lemma ExemptionIsByPrefix(v: Visitor, req: Request, i: nat, suffix: string)
    requires i < |ExemptPaths| && req.path == ExemptPaths[i] + suffix
    ensures !ForceResetRedirects(v, req)
  {
    assert StartsWith(req.path, ExemptPaths[i]);
  }

  lemma ApiIsNeverRedirected(v: Visitor, req: Request)
    requires StartsWith(req.path, "/api/")
    ensures !ForceResetRedirects(v, req)
  {
  }

  // ---------------------------------------------------------------------------------------
  // get_client_ip
  // ---------------------------------------------------------------------------------------

  /** `get_client_ip`: the text before the first comma of a non-empty forwarded header, untrimmed; else the peer. */
  function ClientIp(forwardedFor: Option<string>, remoteAddr: Option<string>): (r: Option<string>)
    ensures forwardedFor.Some? && forwardedFor.value != "" ==>
              r.Some? && |r.value| <= |forwardedFor.value| && r.value == forwardedFor.value[..|r.value|] && ',' !in r.value
              && (|r.value| < |forwardedFor.value| ==> forwardedFor.value[|r.value|] == ',')
    ensures !(forwardedFor.Some? && forwardedFor.value != "") ==> r == remoteAddr
  {
    if forwardedFor.Some? && forwardedFor.value != "" then Some(BeforeFirst(forwardedFor.value, ','))
    else remoteAddr
  }

  /** The first hop of a forwarded list comes back exactly, spaces included. */
  lemma ClientIpIsFirstHop(ip: string, rest: string, remoteAddr: Option<string>)
    requires ',' !in ip
    ensures ClientIp(Some(ip + "," + rest), remoteAddr) == Some(ip)
    ensures ip != "" ==> ClientIp(Some(ip), remoteAddr) == Some(ip)
  {
    var s := ip + "," + rest;
    var r := BeforeFirst(s, ',');
    assert forall k :: 0 <= k < |ip| ==> s[k] == ip[k];
    assert s[|ip|] == ',';
    assert |r| == |ip|;
    assert r == s[..|ip|] == ip;
    if ip != "" {
      var t := BeforeFirst(ip, ',');
      assert |t| == |ip|;
      assert t == ip[..|ip|] == ip;
    }
  }

  // ---------------------------------------------------------------------------------------
  // forms
  // ---------------------------------------------------------------------------------------

  datatype LoginCheck =
    | FieldMissing          // a required field is empty: no lookup happens
    | BadLogin              // unknown user or wrong password, with one shared message
    | LoginCrash            // several active users share the email: the lookup raises
    | LoggedIn(key: UserId) // `user_cache` is set

  function ActiveWithEmail(email: string): User -> bool {
    (u: User) => u.email == email && u.isActive
  }

  function ActiveWithUsername(name: string): User -> bool {
    (u: User) => u.username == name && u.isActive
  }

  /** `UserLoginForm.clean`: an identifier with '@' is an email, otherwise a username; only active users count. */
  function LoginFormCheck(users: Users, username: Option<string>, password: Option<string>): (r: LoginCheck)
    ensures r == FieldMissing <==> username.None? || username.value == "" || password.None? || password.value == ""
    ensures r.LoggedIn? ==> r.key in users && users[r.key].isActive && CheckPassword(users[r.key].password, password.value)
                            && (if '@' in username.value then users[r.key].email else users[r.key].username) == username.value
  {
    if username.None? || username.value == "" || password.None? || password.value == "" then FieldMissing
    else
      var lookup := if '@' in username.value then FindUser(users, ActiveWithEmail(username.value))
                    else FindUser(users, ActiveWithUsername(username.value));
      match lookup
      case NoUser => BadLogin
      case SeveralUsers => LoginCrash
      case OneUser(k) => if CheckPassword(users[k].password, password.value) then LoggedIn(k) else BadLogin
  }

  /** An inactive or unknown username and a wrong password are indistinguishable to the visitor. */
  lemma LoginFormHidesWhichCheckFailed(users: Users, name: string, password: string, k: UserId)
    requires name != "" && password != "" && '@' !in name && UniqueUsernames(users)
    requires k in users && users[k].username == name
    ensures !users[k].isActive ==> LoginFormCheck(users, Some(name), Some(password)) == BadLogin
    ensures !CheckPassword(users[k].password, password) ==> LoginFormCheck(users, Some(name), Some(password)) == BadLogin
    ensures users[k].isActive && CheckPassword(users[k].password, password)
            ==> LoginFormCheck(users, Some(name), Some(password)) == LoggedIn(k)
  {
    var p := ActiveWithUsername(name);
    if users[k].isActive {
      assert p(users[k]);
    } else {
      assert forall j :: j in users && p(users[j]) ==> j == k;
    }
  }

  /** `clean_new_password2`: an error exactly when both passwords are given and differ. */
  function PasswordsMismatch(p1: Option<string>, p2: Option<string>): (r: bool)
    ensures r <==> p1.Some? && p1.value != "" && p2.Some? && p2.value != "" && p1.value != p2.value
  {
    if p1.Some? && p1.value != "" && p2.Some? && p2.value != "" then p1.value != p2.value else false
  }

  /** The order of the two fields does not matter, and a password never mismatches itself. */
  lemma PasswordsMismatchIsSymmetric(p1: Option<string>, p2: Option<string>)
    ensures PasswordsMismatch(p1, p2) == PasswordsMismatch(p2, p1)
    ensures !PasswordsMismatch(p1, p1)
    ensures PasswordsMismatch(p1, p2) ==> p1 != p2 && p1.Some? && p2.Some?
  {
  }

  /** `ForcePasswordResetForm` validity: the current password checks, the new one is accepted, and both copies agree. */
  predicate ForceResetFormValid(u: User, current: string, p1: string, p2: string, validPassword: string -> bool) {
    current != "" && p1 != "" && p2 != ""
    && CheckPassword(u.password, current) && validPassword(p1) && !PasswordsMismatch(Some(p1), Some(p2))
  }

  /**
   * `ForcePasswordResetForm.save`: sets the password and clears the flag on the instance; the
   * store changes only when `commit` is true.
   */
  function SaveForceReset(users: Users, k: UserId, p1: string, commit: bool, now: int): (r: (Users, User))
    requires k in users
    ensures CheckPassword(r.1.password, p1) && !r.1.mustChangePassword
    ensures commit ==> r.0 == users[k := r.1]
    ensures !commit ==> r.0 == users
  {
    var changed := SetPassword(users[k], p1, now).(mustChangePassword := false);
    (if commit then users[k := changed] else users, changed)
  }

  datatype RequestCheck =
    | RequestInvalid          // not an email address, or no active user has it
    | RequestCrash            // several active users share the address: the lookup raises
    | RequestFor(key: UserId) // the form keeps the user for the view

  /** `PasswordResetRequestForm`: the field must be an email, then an active user must have it. */
  function ResetRequestCheck(users: Users, email: string, isEmail: string -> bool): (r: RequestCheck)
    ensures r == RequestInvalid <==>
              !isEmail(email) || forall k :: k in users ==> !(users[k].email == email && users[k].isActive)
    ensures r.RequestFor? ==> r.key in users && users[r.key].email == email && users[r.key].isActive
    ensures r.RequestFor? ==> forall k :: k in users && users[k].email == email && users[k].isActive ==> k == r.key
  {
    if !isEmail(email) then RequestInvalid
    else
      match FindUser(users, ActiveWithEmail(email))
      case NoUser => RequestInvalid
      case SeveralUsers => RequestCrash
      case OneUser(k) => RequestFor(k)
  }

  /**
   * The request crashes only when two active users share the address; with the addresses of
   * active users distinct, an address held by an active user always finds that user.
   */
  lemma ResetRequestFindsTheHolder(users: Users, email: string, isEmail: string -> bool, k: UserId)
    requires isEmail(email) && k in users && users[k].email == email && users[k].isActive
    ensures ResetRequestCheck(users, email, isEmail) == RequestCrash <==>
              exists j :: j in users && j != k && users[j].email == email && users[j].isActive
    ensures ResetRequestCheck(users, email, isEmail) != RequestCrash ==> ResetRequestCheck(users, email, isEmail) == RequestFor(k)
  {
    var p := ActiveWithEmail(email);
    assert p(users[k]);
    var r := FindUser(users, p);
    if r == SeveralUsers {
      var a, b :| a in users && b in users && a != b && p(users[a]) && p(users[b]);
      var j := if a != k then a else b;
      assert j in users && j != k && p(users[j]);
    }
  }

  // ---------------------------------------------------------------------------------------
  // views
  // ---------------------------------------------------------------------------------------

  /** Where a page sends the visitor. */
  datatype Page =
    | ToForceReset
    | ToAdminIndex
    | ToNext(url: string)
    | ToLogin
    | ToAdminLogin
    | ShowLoginForm(failed: bool)
    | ShowResetForm
    | PageCrash

  /**
   * `user_login`: a signed-in visitor is sent on at once; a posted form that checks signs the
   * user in, records the client address, and sends a flagged user to the forced reset.
   */
  function UserLogin(users: Users, v: Visitor, isPost: bool, username: Option<string>, password: Option<string>,
                     next: Option<string>, clientIp: Option<string>): (r: (Users, Page, Option<UserId>))
    ensures v.SignedIn? ==> r == (users, if v.u.mustChangePassword then ToForceReset else ToAdminIndex, None)
    ensures r.2.Some? <==> v.Anonymous? && isPost && LoginFormCheck(users, username, password).LoggedIn?
    ensures r.2.None? ==> r.0 == users
    ensures r.2.Some? ==> var k := r.2.value;
              && k in users && r.0 == users[k := users[k].(lastLoginIp := clientIp)]
              && (r.1 == ToForceReset <==> users[k].mustChangePassword)
  {
    if v.SignedIn? then (users, if v.u.mustChangePassword then ToForceReset else ToAdminIndex, None)
    else if !isPost then (users, ShowLoginForm(false), None)
    else
      match LoginFormCheck(users, username, password)
      case LoggedIn(k) =>
        var u := users[k];
        (users[k := u.(lastLoginIp := clientIp)],
         if u.mustChangePassword then ToForceReset else ToNext(if next.Some? then next.value else "/admin/"),
         Some(k))
      case LoginCrash => (users, PageCrash, None)
      case _ => (users, ShowLoginForm(isPost), None)
  }

  /**
   * A successful sign-in from the login page: the user's record changes only in the recorded
   * address; an unflagged user goes on to `next` or the admin index, a flagged one to the
   * forced-reset page.
   */
  lemma SignInRecordsAndSendsOn(users: Users, username: Option<string>, password: Option<string>,
                                next: Option<string>, clientIp: Option<string>)
    requires LoginFormCheck(users, username, password).LoggedIn?
    ensures var k := LoginFormCheck(users, username, password).key;
            var r := UserLogin(users, Anonymous, true, username, password, next, clientIp);
            && r.2 == Some(k) && r.0 == users[k := users[k].(lastLoginIp := clientIp)]
            && r.1 == (if users[k].mustChangePassword then ToForceReset
                       else ToNext(if next.Some? then next.value else "/admin/"))
  {
  }

  /**
   * A flagged user who has just signed in and follows the redirect to the forced-reset page:
   * the middleware as written sends a non-superuser back to the same page, and the corrected
   * one lets the form show.
   */
  lemma FlaggedSignInLoopsAsWritten(users: Users, username: Option<string>, password: Option<string>,
                                    next: Option<string>, clientIp: Option<string>, httpMethod: string)
    requires LoginFormCheck(users, username, password).LoggedIn?
    requires var k := LoginFormCheck(users, username, password).key;
             users[k].mustChangePassword && !users[k].isSuperuser
    ensures var r := UserLogin(users, Anonymous, true, username, password, next, clientIp);
            var v := SignedIn(r.0[r.2.value]);
            && r.1 == ToForceReset && r.2.Some? && r.2.value in r.0
            && ForceResetRedirectsAsWritten(v, Request(ForceResetPath, httpMethod, None))
            && !ForceResetRedirects(v, Request(ForceResetPath, httpMethod, None))
            && ForceResetDispatch(v) == ShowResetForm
  {
    var k := LoginFormCheck(users, username, password).key;
    var u := users[k].(lastLoginIp := clientIp);
    FlaggedUserReachesTheForm(u, httpMethod, None);
    ForcedPageRedirectsToItself(u, httpMethod);
  }

  /** `ForcePasswordResetView.dispatch`: only a visitor who still has to change the password gets the form. */
  function ForceResetDispatch(v: Visitor): (r: Page)
    ensures r == ShowResetForm <==> MustChange(v)
    ensures r != ShowResetForm ==> r == ToAdminIndex
  {
    if !MustChange(v) then ToAdminIndex else ShowResetForm
  }

  /**
   * A post of the reset form, from either reset page: an invalid form is shown again and
   * changes nothing; a valid one is saved, the change time stamped, and the visitor sent to
   * the admin login. Only the forced-reset page also signs the user out.
   */
  function ResetFormPost(users: Users, k: UserId, current: string, p1: string, p2: string,
                         validPassword: string -> bool, now: int, fromEmail: bool): (r: (Users, Page, bool))
    requires k in users
    ensures r.1 == ShowResetForm <==> !ForceResetFormValid(users[k], current, p1, p2, validPassword)
    ensures r.1 == ShowResetForm ==> r.0 == users && !r.2
    ensures r.1 != ShowResetForm ==>
              && r.1 == ToAdminLogin && r.2 == !fromEmail
              && k in r.0 && r.0 == users[k := r.0[k]]
              && CheckPassword(r.0[k].password, p1) && !r.0[k].mustChangePassword
              && r.0[k].passwordChangedAt == Some(now)
  {
    if !ForceResetFormValid(users[k], current, p1, p2, validPassword) then (users, ShowResetForm, false)
    else
      var (saved, u) := SaveForceReset(users, k, p1, true, now);
      (saved[k := u.(passwordChangedAt := Some(now))], ToAdminLogin, !fromEmail)
  }

  /** Only the holder of the current password can replace it through the form, and never with a mismatched copy. */
  lemma ResetFormNeedsCurrentPassword(users: Users, k: UserId, current: string, p1: string, p2: string,
                                      validPassword: string -> bool, now: int, fromEmail: bool)
    requires k in users
    requires !CheckPassword(users[k].password, current) || p1 != p2 || !validPassword(p1)
    ensures ResetFormPost(users, k, current, p1, p2, validPassword, now, fromEmail).0 == users
  {
  }

  datatype EmailResetGate = MissingToken | UnknownToken | AlreadyChanged | ResetFor(key: UserId)

  /**
   * `PasswordResetFromEmailView.dispatch`: the token is the user's key; it must name an active
   * user who still has to change the password.
   */
  function EmailResetDispatch(users: Users, token: Option<UserId>): (r: EmailResetGate)
    ensures r.ResetFor? <==> token.Some? && token.value in users && users[token.value].isActive
                             && users[token.value].mustChangePassword
    ensures r.ResetFor? ==> r.key == token.value
    ensures r == MissingToken <==> token.None?
  {
    if token.None? then MissingToken
    else if !(token.value in users && users[token.value].isActive) then UnknownToken
    else if !users[token.value].mustChangePassword then AlreadyChanged
    else ResetFor(token.value)
  }

  /**
   * `PasswordResetRequestView.form_valid`: a twelve-character temporary password is set and
   * the flag raised again after `set_password` cleared it.
   */
  function RequestReset(users: Users, k: UserId, draw: Oracle, now: int): (r: (Users, string))
    requires k in users
    ensures |r.1| == 12 && forall i :: 0 <= i < |r.1| ==> r.1[i] in AllChars
    ensures k in r.0 && r.0 == users[k := r.0[k]]
    ensures CheckPassword(r.0[k].password, r.1) && r.0[k].mustChangePassword
  {
    var temp := TemporaryPassword(draw);
    (users[k := SetPassword(users[k], temp, now).(mustChangePassword := true)], temp)
  }

  /**
   * The e-mailed reset round trip: after a request the link opens the reset form, and after
   * the form is submitted the same link is refused and the middleware lets the user through.
   */
  lemma ResetRequestRoundTrip(users: Users, k: UserId, draw: Oracle, now: int, p1: string,
                               validPassword: string -> bool, later: int, req: Request)
    requires k in users && users[k].isActive && p1 != "" && validPassword(p1)
    ensures var (requested, temp) := RequestReset(users, k, draw, now);
            && EmailResetDispatch(requested, Some(k)) == ResetFor(k)
            && var (done, _, _) := ResetFormPost(requested, k, temp, p1, p1, validPassword, later, true);
               && EmailResetDispatch(done, Some(k)) == AlreadyChanged
               && !ForceResetRedirects(SignedIn(done[k]), req)
               && ForceResetDispatch(SignedIn(done[k])) == ToAdminIndex
  {
  }
}
